=== FILE: README.md ===
# laravel-json-api/spec — inbound document validation, in Dafny

This project models the core of `laravel-json-api/spec`. That PHP package
checks a JSON:API request body against the rules of JSON:API 1.0 before an
application acts on it. A builder decodes the body, wraps it in a resource
document (create or update) or a relationship document (replace a
relationship), and sends it through a fixed pipeline of validator stages.
Each stage appends JSON:API error objects to the document's error list.

The model follows the source's structure, one module per class:

- `JsonValues` is the decoded JSON tree. Objects are ordered member lists; PHP's `isset`, `property_exists` and truthiness are written out.
- `PhpStrings` holds the PHP string functions the core relies on (`trim`, `rtrim`, `strrpos`, falsy strings).
- `Schema` stands in for the server's schema: fields, relations with cardinality and inverse types, client-id support, and resource existence.
- `Translator` builds the error objects: key, HTTP status, source pointer and detail parameters.
- `Value`, `Identifier`, `ToOne` and `ToMany` model the value objects. `Linkage` is the factory dispatch by cardinality.
- `Documents` holds the two document kinds and the `Outcome` of a stage (`Next`, `Stop` or `Raise`). `Raise` stands for a thrown exception.
- `DataValidator`, `TypeValidator`, `ClientIdValidator`, `IdValidator`, `FieldsValidator`, `AttributesValidator`, `RelationshipsValidator` and `RelationValidator` are the stages.
- `JsonDecoder` and `Builder` are the entry point: decode, create the document, and fold the stages.

The server's schema and the JSON parser are parameters: a `Specification`
value and a `parse` function. Every error is an `Error(key, status,
pointer, params)` record. Its key is the translation key of the package's
English language file.

## Model

| member | source | states |
|---|---|---|
| Translator.Trans | src/Translator.php:433-443 | A translation comes back only when the translator returns something truthy that differs from the lookup key itself; otherwise the member is null. |
| Translator.StatusesFollowTable | src/Translator.php:51-420 | Every error constructor sets the HTTP status the package fixes for its key: 400, 403, 404, 409 or 422. |
| Translator.PointerWithoutMember | src/Translator.php:453-463 | With no member, or the member "", the pointer is the path unchanged. |
| Translator.PointerWithMember | src/Translator.php:453-463 | With a member, the pointer is the path without trailing slashes, then "/" and the member. Trailing slashes on the path make no difference. |
| Translator.RootAndEmptyPathAgree | src/Translator.php:453-463 | "/" and "" give the same child pointer "/data", and "/data" with member "0" is "/data/0". |
| Translator.WholeObjectErrorsPointAtPath | src/Translator.php:96-104 | Member-required, resource-not-found, wrong-relationship-type and duplicate-field errors point at the path itself. Member-required names the missing member in its detail parameters. |
| Translator.TypeAndIdErrorsPointBelowPath | src/Translator.php:274-372 | Type and id errors point at `{path}/type` or `{path}/id`. Resource-exists points at the path. |
| Translator.RelationTypeErrorFollowsCardinality | src/Translator.php:291-310 | The wrong-type error's key names to-one or to-many by the relation's cardinality. Its field is the relation name, its types are the inverse types joined by ", ", and its status is 422. |
| Value.Member | src/Values/Value.php:80-83 | The member is the part of the path after its last slash, and the whole path when there is no slash. |
| Value.Parent | src/Values/Value.php:70-73 | The parent is never falsy. A path with no slash is its own parent, or "/" when it is falsy. Otherwise the parent is the text before the last slash, so the path is parent + "/" + member; when that text is falsy the parent is "/". |
| Value.OrData | src/Values/ToOne.php:139 | A falsy member name ("" or "0") is replaced by "data"; any other name is kept. |
| Value.PointerOfParentAndMember | src/Values/Value.php:70-83 | For a well-formed path, the pointer built from its parent and member is the path again. |
| Value.ParentExamples | src/Values/Value.php:70-73 | The parent of "/data" and of "" is "/"; the parent and member of a relationship path split at its last slash. |
| Value.ChildPath | src/Values/Value.php:70-83 | A child path `base/m` has member m and parent base, or "/" when base is falsy. |
| Value.Errors | src/Values/Value.php:40-47 | `errors()` computes the errors once and caches them; later calls return the cached list and do not validate again. |
| Value.Valid | src/Values/Value.php:52-55 | `valid()` holds exactly when the cached errors are empty. |
| Value.Invalid | src/Values/Value.php:60-63 | `invalid()` is the negation of `valid()`. |
| Value.ValidatesAtMostOnce | src/Values/Value.php:40-47 | Any number of calls on a fresh value validate once, and each returns the first result. |
| Value.CachedRepeatIsStable | src/Values/Value.php:40-47 | Once the errors are cached, repeated calls neither change the value nor return anything else. |
| Identifier.IdIsEmpty | src/Values/Identifier.php:59-66 | A null id or one made only of whitespace is empty. "0" is not empty. A padded zero such as " 0 " is empty. |
| Identifier.PaddedZeroIdIsEmpty | src/Values/Identifier.php:59-66 | "0" with whitespace around it is empty exactly when there is some padding. |
| Identifier.ValidateType | src/Values/Identifier.php:157-188 | No error iff `type` is a non-falsy string the server recognises. A missing type is member-required at the path; any other error points at `{path}/type`; all have status 400 and are required, not-a-string, empty or not-recognised errors. |
| Identifier.ValidateId | src/Values/Identifier.php:195-221 | No error iff `id` is a string that is not empty. A missing id is member-required at the path; any other error points at `{path}/id`; each is a required, not-a-string or empty error. |
| Identifier.ValidateTypeAndId | src/Values/Identifier.php:228-244 | No error iff the type is one of the relation's inverse types (or there is no relation) and the resource exists. The wrong type is a 422 at the identifier; a missing resource is a 404 there. |
| Identifier.PathForTypeAndId | src/Values/Identifier.php:268-280 | Where a wrong-type or missing-resource error points: a list element's own path, else the relationship object (the parent) for an identifier under `/relationships/`, else the identifier's path. |
| Identifier.StructuralErrors | src/Values/Identifier.php:119-143 | No error iff type and id are acceptable and neither `attributes` nor `relationships` is present. The not-an-identifier error appears iff one of them is present. |
| Identifier.Validate | src/Values/Identifier.php:119-148 | No error iff the value is an acceptable identifier. A non-object gives only not-an-object. The existence check runs only when there is no structural error, so a 404/422 is always alone. |
| Identifier.Type | src/Values/Identifier.php:95-105 | A valid identifier's type is its non-falsy `type` string, a known type, and one of the relation's inverse types. |
| Identifier.Id | src/Values/Identifier.php:107-114 | A valid identifier's id is its non-empty `id` string, and that resource exists. |
| Identifier.TypeAndIdObjectIsWellFormed | src/Values/Identifier.php:129-143 | `{type, id}` with a known type and a non-empty id has no structural error. |
| Identifier.ListElementReportsAtOwnPath | src/Values/Identifier.php:251-280 | A list element (numeric member) reports type/id problems at its own path. |
| Identifier.ElementErrorsPointWithin | src/Values/Identifier.php:119-148 | Every error of a list element points at that element or below it. |
| Identifier.StructuralErrorsPointWithin | src/Values/Identifier.php:119-143 | Every structural error points at the identifier's path or below it. |
| Identifier.ToOneInResourceReportsAtRelationship | src/Values/Identifier.php:259-280 | An identifier at `/data/relationships/{name}/data` reports type/id problems at `/data/relationships/{name}`. |
| Identifier.ToOneInRelationDocumentReportsAtData | src/Values/Identifier.php:269-280 | An identifier at `/data` reports at `/data`. |
| ToOne.Make | src/Values/ToOne.php:66-78 | The constructor keeps the relation and value; the path loses exactly its trailing slashes. |
| ToOne.Validate | src/Values/ToOne.php:118-145 | At most one 400 error, and none iff the value is an object with a `data` member that is not a list. A non-object gives not-an-object. |
| ToOne.Data | src/Values/ToOne.php:83-98 | Corrected (as written, `ToOne.AllErrorsAsWritten` throws instead): for a valid value, a null `data` is no identifier. Otherwise the identifier sits at `{path}/data`, holds `data` and is scoped to the relation. |
| ToOne.AllErrors | src/Values/ToOne.php:103-113 | Corrected (as written: `ToOne.AllErrorsAsWritten`): structural errors when there are any. Otherwise none iff `data` is null or an identifier the relation accepts; at most three errors. |
| ToOne.AllErrorsAsWritten | src/Values/ToOne.php:83-98 | As written, any non-null `data` of a structurally valid value throws instead of producing errors. Otherwise it agrees with `AllErrors`. |
| ToOne.ErrorsPointAtRelationship | src/Values/ToOne.php:118-145 | Structural errors of a to-one value at a relationship path point at that path. |
| ToOne.RootErrorsPointAtDocument | src/Values/ToOne.php:118-145 | At the document root, structural errors point at "/" or "/data"; the expects-to-one error points at "/data". |
| ToOne.WrongInverseTypeIsAValidationErrorNotACrash | src/Values/ToOne.php:90-94 | At the root of a relationship document, a well-formed identifier whose known type is not one of the relation's inverse types crashes as written. Corrected, the result is the one relation-type error at "/data". |
| ToOne.RootIdentifierIsData | src/Values/ToOne.php:83-98 | At the root, `{"data": object}` is structurally valid and its identifier sits at "/data", scoped to the relation. |
| ToOne.WrongTypeIdentifierIsNotSupported | src/Values/Identifier.php:228-244 | A well-formed identifier at "/data" whose type is not an inverse type has exactly the relation-type error. |
| ToOne.IdentifierDataReportsIdentifierErrors | src/Values/ToOne.php:83-113 | For a structurally valid value with non-null `data`, the intended errors are exactly the identifier's, and the as-written call throws. |
| ToMany.Make | src/Values/ToMany.php:65-72 | The constructor keeps the relation and value; the path loses exactly its trailing slashes. |
| ToMany.Validate | src/Values/ToMany.php:114-148 | At most one 400 error, and none iff the value is an object whose `data` is a list. A single identifier gives expects-to-many; any other non-list gives member-not-array at `{path}/data`. |
| ToMany.Data | src/Values/ToMany.php:77-94 | One identifier per list element, in order, at `{path}/data/{index}`, scoped to the relation. |
| ToMany.ElementErrors | src/Values/ToMany.php:99-109 | At most three errors per element. |
| ToMany.ElementErrorsEmpty | src/Values/ToMany.php:99-109 | A list of identifiers reports nothing iff every element is acceptable. |
| ToMany.DataErrorsEmpty | src/Values/ToMany.php:77-109 | For a structurally valid value, its identifiers report nothing iff every element of `data` is acceptable for the relation. |
| ToMany.AllErrors | src/Values/ToMany.php:99-109 | Structural errors when there are any. Otherwise none iff every element of `data` is an identifier the relation accepts. |
| ToMany.ElementPathsAreDistinct | src/Values/ToMany.php:84-88 | Different indices give different element paths. |
| ToMany.ElementErrorsPointIntoList | src/Values/ToMany.php:84-109 | Every element error points inside `{path}/data/`. |
| ToMany.ElementPointsIntoList | src/Values/ToMany.php:84-88 | The errors of the element at index i point inside `{path}/data/`. |
| ToMany.ErrorsOfValidValuePointIntoList | src/Values/ToMany.php:99-109 | For a structurally valid value, every error points inside `{path}/data/`. |
| ToMany.RootErrorsPointAtDocument | src/Values/ToMany.php:114-148 | At the document root, structural errors point at "/" or "/data". |
| Linkage.AllErrors | src/Validators/RelationshipsValidator.php:114-129 | Corrected to-one linkage: no error iff the relationship object has the shape its cardinality needs and every identifier in it is acceptable. It is the to-many or to-one errors chosen by cardinality. |
| Linkage.AllErrorsAsWritten | src/Validators/RelationshipsValidator.php:114-129 | As written: throws the factory's type error exactly when the relation is to-one and its object's `data` is neither null nor a list; otherwise the same errors as `AllErrors`. |
| Linkage.CrashesAsWritten | src/Values/ToOne.php:83-98 | As written, the linkage throws exactly when the relation is to-one and its object is an object with a `data` member that is neither null nor a list. |
| Schema.FirstRelationNamed | src/Validators/RelationValidator.php:54-77 | The first relation of that name is a declared relation; none exists iff no relation has the name. |
| Schema.LastRelationNamed | src/Validators/RelationshipsValidator.php:78-107 | The last relation of that name (what keying the fields by name keeps) is declared; none iff no relation has the name. |
| Schema.FirstAndLastAgreeOnUniqueName | src/Validators/RelationshipsValidator.php:78-107 | When a name is declared at most once, the first and last lookups agree. |
| Documents.WithErrors | src/Document.php:74-85 | Recording errors appends them and changes nothing else about the document. |
| Documents.WithErrorsTwice | src/Document.php:74-85 | Recording two lists in turn equals recording their concatenation. |
| Documents.NewResourceDocument | src/ResourceDocument.php:36-47 | A new resource document is valid and keeps its body, type and expected id. |
| Documents.NewRelationDocument | src/RelationDocument.php:42-50 | A new relationship document is valid and keeps its body, type and relation name. |
| Documents.RecordingAndValidity | src/Document.php:90-109 | `invalid()` holds iff errors were recorded. After recording a list, the document is valid iff it was valid and the list is empty. `toBase()` is the decoded object, whatever was recorded. |
| Documents.ExpectsIdCases | src/ResourceDocument.php:67-70 | No expected id, or a blank one, means no id is expected. "0" is expected. A "0" padded with whitespace is not. An expected id always has a non-whitespace character. |
| Documents.DataGet | src/Document.php:66-69 | With no segments the target comes back; otherwise a non-default result is never null. |
| Documents.DataGetTwoSegments | src/Document.php:66-69 | `get('a.b', default)` is the member `b` of the object `a` when both are set, and the default otherwise. |
| JsonDecoder.Decode | src/JsonDecoder.php:50-72 | A falsy trimmed body is json-empty; a parse failure carries the parser's code and message; success iff the parser yields an object, whose members are returned. Every failure has status 400 and no pointer. |
| JsonDecoder.BlankTextIsNeverParsed | src/JsonDecoder.php:52-54 | A whitespace-only body is json-empty whatever the parser would do. |
| JsonDecoder.ZeroBodyIsReportedEmpty | src/JsonDecoder.php:52-54 | The body `0`, padded or not, is reported as empty, because "0" is falsy. |
| DataValidator.Check | src/Validators/DataValidator.php:50-70 | No error iff `data` is set and is an object. An unset `data` is member-required at "/"; any other value is not-an-object at "/data". |
| DataValidator.Validate | src/Validators/DataValidator.php:50-70 | Hands on the document unchanged iff `data` is an object; otherwise records the one error and stops the pipeline. |
| DataValidator.ErrorPointers | src/Validators/DataValidator.php:50-70 | The missing-data error points at "/", the wrong-data error at "/data". |
| TypeValidator.Accept | src/Validators/TypeValidator.php:75-90 | No error iff the value is exactly the expected non-falsy type. A different non-falsy string is a 409 type-not-supported; anything else is a 400 at "/data/type". |
| TypeValidator.Check | src/Validators/TypeValidator.php:51-68 | No error iff `data.type` is the expected type. A missing type is member-required at "/data". |
| TypeValidator.Validate | src/Validators/TypeValidator.php:51-68 | Continues iff `data` is an object whose type is the expected one. Otherwise it records one error and stops: the type error for object `data`, member-required at "/data" for string `data` (a string has no properties). Any other non-object `data` throws. |
| ClientIdValidator.Accept | src/Validators/ClientIdValidator.php:82-97 | No error iff the id is a non-empty string naming no existing resource. An existing one is a 409 resource-exists at "/data/id". |
| ClientIdValidator.Errors | src/Validators/ClientIdValidator.php:52-75 | Nothing when the endpoint expects an id or `data.id` is absent. Otherwise the unsupported-client-ids error appears iff the type does not take client ids; at most two errors, all at "/data/id". |
| ClientIdValidator.Checks | src/Validators/ClientIdValidator.php:52-56 | The client-id stage looks at `data.id` exactly when the endpoint expects no id. |
| ClientIdValidator.Validate | src/Validators/ClientIdValidator.php:52-75 | Never stops and records exactly `Errors`. When it checks, a string `data` passes unchanged; a `data` that is neither an object nor a string throws. |
| IdValidator.Accept | src/Validators/IdValidator.php:76-91 | No error iff the value is the expected non-empty id; a different id is a 409 at "/data/id". |
| IdValidator.CheckErrors | src/Validators/IdValidator.php:58-66 | One error iff `data.id` is missing, differs from the expected id, or the expected id is empty. A missing id is member-required at "/data". |
| IdValidator.Errors | src/Validators/IdValidator.php:52-69 | No error iff the endpoint expects no id or `data.id` equals it (gate corrected to `expectsId()`). |
| IdValidator.ErrorsAsWritten | src/Validators/IdValidator.php:52-69 | As written, the id is compared only when the expected id is truthy in PHP. |
| IdValidator.ChecksAsWritten | src/Validators/IdValidator.php:54 | As written, the id stage runs exactly when an id is expected and it is truthy in PHP, so not for "" or "0". |
| IdValidator.NonObjectData | src/Validators/IdValidator.php:58-66 | When the checks run on non-object `data`: a string gives member-required at "/data" and continues; anything else throws. |
| IdValidator.Validate | src/Validators/IdValidator.php:52-69 | Never stops and records exactly `Errors` (corrected gate). When it checks, a string `data` records member-required at "/data"; a `data` that is neither an object nor a string throws. |
| IdValidator.ValidateAsWritten | src/Validators/IdValidator.php:52-69 | Never stops and records exactly `ErrorsAsWritten`. String and other non-object `data` behave as in `Validate`, behind the gate as written. |
| IdValidator.WhereTheGatesDisagree | src/Validators/IdValidator.php:54-56 | Only the corrected gate opens exactly for resource "0". Only the written gate opens exactly for a truthy id that `idIsEmpty` calls empty, such as " " or " 0 ". Where the gates agree, the two stages coincide. |
| IdValidator.ZeroIdSkippedAsWritten | src/Validators/IdValidator.php:54-56 | For resource "0", neither id stage runs as written and both record nothing; the corrected stage runs. |
| IdValidator.OtherIdIsAConflict | src/Validators/IdValidator.php:76-91 | When the stage runs, a non-empty `data.id` other than the expected id is exactly one 409 error. |
| IdValidator.ZeroIdIsNeverCompared | src/Validators/IdValidator.php:54-56 | For an update of resource "0", neither id stage checks `data.id` as written, so a mismatched id passes. The corrected gate reports it. |
| IdValidator.ZeroIdUpdateIsAccepted | tests/Integration/ResourceTest.php:1036-1055 | Updating resource "0" with `data.id` "0" records no id error, as written or corrected. |
| FieldsValidator.CastName | src/Validators/FieldsValidator.php:41-42 | A member name becomes an integer key iff PHP reads it as a canonical decimal integer in the 64-bit range; otherwise it stays the name. |
| FieldsValidator.CastNameInjective | src/Validators/FieldsValidator.php:41-42 | Distinct names cast to distinct keys. |
| FieldsValidator.CastKeys | src/Validators/FieldsValidator.php:41-42 | `(array)` gives an object its member names as keys, each cast (so "1" becomes the integer 1). It gives a list its indices, a scalar the key 0, and null nothing. |
| PhpStrings.IntegerKey | src/Validators/FieldsValidator.php:41-42 | An integer key lies in the 64-bit range and is non-negative iff the name starts with a digit. Such names are canonical decimals, optionally with a minus sign; "-0" and leading zeros are excluded. |
| PhpStrings.CanonicalRoundTrip | src/Validators/FieldsValidator.php:41-42 | Printing the value of a canonical decimal gives the name back. |
| PhpStrings.NatToStringRoundTrip | src/Validators/FieldsValidator.php:41-42 | Every printed natural number is canonical and reads back as itself. |
| PhpStrings.IntegerKeyInjective | src/Validators/FieldsValidator.php:41-42 | Two names with the same integer key are the same name. |
| PhpStrings.IntegerKeyOfIndex | src/Validators/FieldsValidator.php:41-42 | A printed list index reads back as that index. |
| PhpStrings.IntegerKeyExamples | src/Validators/FieldsValidator.php:41-42 | "1" and "-5" are integer keys; "01", "-0", "1.0" and "" are not. |
| FieldsValidator.Common | src/Validators/FieldsValidator.php:41-43 | The keys of the first collection that also occur in the second, in the first's order. |
| FieldsValidator.ValidateAsWritten | src/Validators/FieldsValidator.php:39-49 | As written, the stage throws iff some shared key is an integer, which the string-typed `$field` parameter at src/Translator.php:407 rejects. It never stops. |
| FieldsValidator.DuplicateNames | src/Validators/FieldsValidator.php:41-43 | The names present as members of both the `attributes` object and the `relationships` object. |
| FieldsValidator.Errors | src/Validators/FieldsValidator.php:41-44 | Corrected: one 400 duplicate-field error at "/data" per duplicated name, in order. |
| FieldsValidator.Validate | src/Validators/FieldsValidator.php:39-49 | Corrected (as written: `FieldsValidator.ValidateAsWritten`, which throws on a shared integer key): records exactly those errors and continues; the result is valid iff it was valid and no name is duplicated. |
| FieldsValidator.AsWrittenAgreesOnObjects | src/Validators/FieldsValidator.php:39-49 | When both members are objects or absent, the stage as written throws iff the two share an integer-like name, and otherwise coincides with the corrected stage. |
| FieldsValidator.AsWrittenAgreesUnlessItThrows | src/Validators/FieldsValidator.php:39-49 | Whatever the shapes, the stage as written either throws or records exactly what the corrected stage records. |
| FieldsValidator.SharedIntegerNameCrashesAsWritten | src/Validators/FieldsValidator.php:41-46 | Two objects sharing an integer-like name such as "1" crash the stage as written. Corrected, that name is reported as a duplicate. |
| FieldsValidator.ScalarMembersCrashAsWritten | src/Validators/FieldsValidator.php:41-46 | Scalar `attributes` and `relationships` (both cast to the key 0) crash the stage as written; corrected, the document passes unchanged. |
| FieldsValidator.StringMembersReadAsScalars | src/Validators/FieldsValidator.php:41-42 | `data_get` reads the string members `attributes` and `relationships` of `data` as those strings. |
| FieldsValidator.CommonOfNames | src/Validators/FieldsValidator.php:41-43 | On two objects, the shared cast keys are exactly the shared member names, each cast, in order. |
| FieldsValidator.CastNameIn | src/Validators/FieldsValidator.php:41-42 | A name's cast is among an object's cast keys iff the name is a member name. |
| AttributesValidator.Outside | src/Validators/AttributesValidator.php:90-94 | `diff`: exactly the elements of the first list that are not in the second. |
| AttributesValidator.UnsupportedNames | src/Validators/AttributesValidator.php:85-92 | Exactly the member names other than `type`/`id` that are not declared attributes. |
| AttributesValidator.ReservedNames | src/Validators/AttributesValidator.php:80-83 | Exactly the reserved names `type`/`id` present, `type` first. |
| AttributesValidator.NotAllowedErrors | src/Validators/AttributesValidator.php:80-83 | One 400 not-allowed error at "/data/attributes" per name, for exactly those names. |
| AttributesValidator.NotSupportedErrors | src/Validators/AttributesValidator.php:94-96 | One 400 not-supported error at "/data/attributes" per name, for exactly those names. |
| AttributesValidator.Accept | src/Validators/AttributesValidator.php:70-97 | Corrected: a non-object is one not-an-object error. Otherwise no error iff every member is a declared attribute other than `type`/`id`. Not-allowed errors name exactly the reserved members and come first; not-supported errors name exactly the undeclared ones. |
| AttributesValidator.ObjectErrorsAreClassified | src/Validators/AttributesValidator.php:70-97 | Corrected: for an object, all errors are 400s at "/data/attributes"; none iff every member is a declared attribute other than `type`/`id`; each kind names exactly its names; not-allowed errors come first. |
| AttributesValidator.NoNamesExactlyWhenAllDeclared | src/Validators/AttributesValidator.php:80-96 | No reserved and no unsupported names iff every member is a declared attribute other than `type`/`id`. |
| AttributesValidator.ErrorsNameTheirMembers | src/Validators/AttributesValidator.php:80-96 | Not-allowed errors name exactly the reserved names and not-supported errors exactly the unsupported ones. |
| AttributesValidator.ReservedErrorsComeFirst | src/Validators/AttributesValidator.php:80-96 | No not-allowed error follows a not-supported one. |
| AttributesValidator.Errors | src/Validators/AttributesValidator.php:52-63 | Corrected: no error iff `attributes` is absent, or an object whose members are all acceptable. |
| AttributesValidator.Validate | src/Validators/AttributesValidator.php:52-63 | Corrected (as written: `AttributesValidator.ValidateAsWritten`, which also throws on an undeclared integer-like name): never stops. Throws iff `data` is truthy and neither an object nor a string. Otherwise records `Errors` for object data and leaves other documents unchanged. |
| AttributesValidator.AcceptCrashesAsWritten | src/Validators/AttributesValidator.php:85-96 | As written, `accept()` on an object throws exactly when some undeclared member other than `type`/`id` has a name PHP reads as an integer. |
| AttributesValidator.CrashesAsWritten | src/Validators/AttributesValidator.php:52-63 | As written, the stage throws on object `data` exactly when it has an `attributes` member on which `accept()` throws. |
| AttributesValidator.ValidateAsWritten | src/Validators/AttributesValidator.php:85-96 | As written, the stage throws iff the corrected one throws or `data.attributes` has an undeclared member whose name is integer-like, as `get_object_vars` makes it an integer key. Otherwise it is the corrected stage. |
| AttributesValidator.UndeclaredIntegerNameCrashesAsWritten | src/Validators/AttributesValidator.php:90-96 | An undeclared attribute named like "1" crashes the stage as written. Corrected, it is reported as not supported. |
| RelationshipsValidator.MemberErrors | src/Validators/RelationshipsValidator.php:91-103 | Corrected to-one linkage: none iff the member is acceptable. `type`/`id` are not allowed; an undeclared name is not supported; a declared relation reports its relationship object's errors at `/data/relationships/{name}`. |
| RelationshipsValidator.MembersErrors | src/Validators/RelationshipsValidator.php:87-106 | Corrected to-one linkage: no error iff every member is acceptable. |
| RelationshipsValidator.Accept | src/Validators/RelationshipsValidator.php:78-107 | Corrected to-one linkage. A non-object is one 400 not-an-object error at "/data/relationships"; otherwise the members' errors, none iff all are acceptable. |
| RelationshipsValidator.ErrorsFollowMemberOrder | src/Validators/RelationshipsValidator.php:87-106 | The errors of a split member list are those of the first part followed by those of the second. |
| RelationshipsValidator.SingleMember | src/Validators/RelationshipsValidator.php:87-106 | A one-member object reports exactly that member's errors. |
| RelationshipsValidator.Errors | src/Validators/RelationshipsValidator.php:60-71 | Corrected to-one linkage: no error iff `relationships` is absent, or an object whose members are all acceptable. |
| RelationshipsValidator.Validate | src/Validators/RelationshipsValidator.php:60-71 | Corrected to-one linkage. Never stops. Throws iff `data` is truthy and neither an object nor a string. Otherwise records `Errors` for object data and leaves other documents unchanged. |
| RelationshipsValidator.MemberCrashIsLinkageCrash | src/Validators/RelationshipsValidator.php:91-103 | A member crashes as written iff it names a declared relation whose linkage crashes as written. |
| RelationshipsValidator.ValidateAsWritten | src/Validators/RelationshipsValidator.php:60-71 | As written, the stage throws iff the corrected one throws or some member is a to-one relation whose `data` is neither null nor a list. Otherwise it is the corrected stage. |
| RelationValidator.Validate | src/Validators/RelationValidator.php:54-99 | Corrected to-one linkage. Never stops. Throws iff the relation name is falsy or undeclared. Otherwise it records the errors of the whole document as that relation's relationship object at "/"; the result is valid iff it was valid and the object is acceptable. |
| RelationValidator.ValidateAsWritten | src/Validators/RelationValidator.php:54-99 | As written, the stage never stops. It throws iff the corrected one throws or the relation is to-one and the document's `data` is neither null nor a list. Otherwise it is the corrected stage. |
| Builder.Apply | src/Builder.php:84-97 | The corrected stages. A caller's stage is its own function. A built-in stage given the wrong document kind throws. A built-in stage that does not throw keeps the document's kind, body and expectations and only appends errors. |
| Builder.Through | src/Builder.php:84-97 | No stages hands the document on. Built-in stages only ever append errors. |
| Builder.Finish | src/Builder.php:92-96 | The pipeline returns a document iff no stage threw, whether it finished or stopped early. |
| Builder.ThroughStep | src/Builder.php:92-96 | A stage that hands on feeds the rest of the pipeline; one that stops or throws ends it. |
| Builder.ThroughConcat | src/Builder.php:89-96 | Running two stage lists in sequence equals running their concatenation. |
| Builder.ResourceStages | src/ResourceBuilder.php:63-74 | The resource pipeline is the seven built-in stages, data first. |
| Builder.RelationStages | src/RelationBuilder.php:71-76 | The relationship pipeline is the one relationship stage. |
| Builder.ResourceErrors | src/ResourceBuilder.php:63-74 | The reference error list of the corrected stages: one error when `data` is not an object or has the wrong type; otherwise the five checking stages' errors in pipeline order. |
| Builder.FiveStagesErrors | src/Builder.php:92-96 | Five checking stages append each stage's errors, in stage order. |
| Builder.CheckingStagesErrors | src/ResourceBuilder.php:63-74 | Corrected: the five checking stages append the client-id, id, duplicate-field, attribute and relationship errors, in that order. |
| Builder.CheckingStagesAppend | src/Builder.php:92-96 | Corrected: once `data` is an object of the right type, the checking stages only append their own errors, whatever was recorded before. |
| Builder.ResourcePipelineRecordsResourceErrors | src/ResourceBuilder.php:63-74 | The seven corrected stages record exactly the reference error list. They continue iff `data` is an object of the expected type, and stop otherwise. |
| Builder.CallerStagesRunLast | src/Builder.php:89-96 | With the corrected stages, caller stages run after the built-in ones, only when those did not stop, and see their errors. |
| Builder.NewBuilder | src/Builder.php:62-66 | A new builder expects nothing and has no caller stages. |
| Builder.ExpectsResource | src/ResourceBuilder.php:36-42 | Sets the expected type and id, nothing else. |
| Builder.ExpectsRelation | src/RelationBuilder.php:44-50 | Sets the expected type and relation name, nothing else. |
| Builder.Using | src/Builder.php:72-77 | Appends the caller's stages, nothing else. |
| Builder.UsingTwice | src/Builder.php:72-77 | Two calls to `using` add the stages of both, in order. |
| Builder.Pipes | src/Builder.php:89 | The built-in stages of the builder's kind come first, then the caller's. |
| Builder.PipesBuiltIn | src/Builder.php:90 | With only built-in caller stages, every stage of the pipeline is built in. |
| Builder.Create | src/ResourceBuilder.php:47-58 | A document is created iff the expected type is set and truthy (and, for a relationship, the relation name is set). It is valid, carries the body and expectations, and the failure is a crash. |
| Builder.Build | src/Builder.php:84-97 | A decode failure is thrown as a JSON:API exception, and only a decode failure is. A built document implies the body decoded and the document was created; with built-in caller stages, the result extends the created document. |
| Builder.BuildRunsPipes | src/Builder.php:84-97 | A decodable body whose document is created is built by running the pipes over that document; a throw becomes a crash. |
| Builder.RelationPipeline | src/RelationBuilder.php:71-76 | The relationship pipeline is the relationship stage alone. |
| Builder.ResourceBuildRecordsResourceErrors | src/Builder.php:84-97 | With the corrected stages, building a resource document from a decodable body yields the new document with exactly the reference error list. |
| Builder.RelationBuildValidatesTheBody | src/RelationBuilder.php:55-76 | With the corrected stage, building a relationship document for a declared relation succeeds; its errors are those of the body as that relation's relationship object, and it is valid iff the body is acceptable. |
| Builder.UndeclaredRelationThrows | src/Validators/RelationValidator.php:72-76 | Building a relationship document for an undeclared relation throws a logic exception. |
| Builder.ApplyAsWritten | src/Builder.php:84-97 | A stage as written. Only the id, duplicate-field, attribute, relationships and relationship-document stages differ from the corrected ones. Except for the id gate, a stage as written that does not throw does what the corrected stage does; where the id gates agree, the id stage is the corrected one. |
| Builder.LastChecksAsWritten | src/ResourceBuilder.php:63-74 | The attribute and relationships stages as written, after any recorded errors: the attribute throw comes first, then the relationships throw; otherwise both append their errors in order. |
| Builder.TrailingChecksAsWritten | src/ResourceBuilder.php:63-74 | The duplicate-field, attribute and relationships stages as written, after any recorded errors: the first to throw ends the run; otherwise the three append their errors in order. |
| Builder.ThroughAsWrittenStep | src/Builder.php:92-96 | In the pipeline as written, a stage that hands on feeds the rest; one that stops or throws ends it. |
| Builder.AsWrittenOnlyAddsThrows | src/Builder.php:84-97 | A pipeline without an id stage that does not throw as written does exactly what the corrected pipeline does. |
| Builder.ResourcePipelineAsWritten | src/ResourceBuilder.php:63-74 | The seven stages as written stop on a `data` or `type` error as before. Past those, the duplicate-field, attribute and relationships stages throw, in that order, on a shared integer key (for example an integer-like name shared by two objects, two scalar members, two non-empty lists, or a list and an object with a member such as "0"), an undeclared integer-like attribute and a to-one member holding linkage. Otherwise they record the reference list, with the id check behind the written gate. |
| Builder.ResourceRunAsWritten | src/ResourceBuilder.php:63-74 | An account of the resource stages as written. The run throws iff `data` and `type` pass and the duplicate-field stage throws, or an undeclared integer-like attribute or a to-one member holding linkage is present. It stops iff `data` or `type` fails. |
| Builder.ResourceRunAsWrittenOnlyAddsThrows | src/ResourceBuilder.php:63-74 | Where the id gates agree, the resource stages as written either throw or return exactly what the corrected stages return. |
| Builder.RelationPipelineAsWritten | src/RelationBuilder.php:71-76 | The relationship pipeline as written is the relationship stage as written. |
| Builder.BuildAsWritten | src/Builder.php:84-97 | Building as written decodes and creates the document as `Build` does. A decode or creation failure gives the same result, and only a decode failure is a JSON:API exception. |
| Builder.ResourceBuildAsWritten | src/Builder.php:84-97 | Building a resource document as written from a decodable body returns or throws as the stages as written do. Where the id gates agree, a document it returns is the one the corrected builder returns. |
| Builder.RelationBuildAsWritten | src/RelationBuilder.php:55-76 | Building a relationship document as written for a declared relation throws the factory's type error exactly when the relation is to-one and `data` is neither null nor a list. Otherwise it returns what the corrected builder returns. |

## Left out

- Titles, details and localisation: errors carry the translation key, status, pointer and detail parameters. The language files and `Str::singular` are not modelled.
- The JSON parser itself, its depth limit and its flags are a parameter of `JsonDecoder.Decode`.
- Laravel's `Pipeline` is modelled as a fold over stages. Caller stages are pure functions from document to outcome. A caller stage that mutates a shared error list, or calls `$next` twice, is not modelled.
- `ServiceProvider`, `Factory` (beyond its dispatch by cardinality), `JsonApiSpec` and the compliance checkers are wiring around the core. They are not part of this model.
- Member names PHP reads as integers ("1", "-5") become integer keys under `(array)` and `get_object_vars`. `FieldsValidator.CastName` and `AttributesValidator.AcceptCrashesAsWritten` model the two places where that happens. Everywhere else names are only looked up or iterated as strings, so they stay strings.
- RFC 6901 escaping of `~` and `/` in pointers is not done by the source and is not modelled. Member names with `/` are excluded from the pointer lemmas.
- `data_get` on lists: the validators only use named segments. A list yields the default in `Documents.DataGet`.
- Error lists are values, not shared mutable `ErrorList` objects, so aliasing between a value's cached errors and a document's list is not modelled.
- `RelationDocument::relation()` and `ResourceDocument::id()` accessors are record fields.
- Duplicate member names in a decoded object: PHP keeps the last one. The model assumes distinct names; `Lookup` takes the first.
- JSON numbers are kept as their literal text. `JsonValues.Truthy` reads a literal as zero when its digits before any exponent are all zero.
- AttributesValidator.Validate: a truthy non-object, non-string `data` is modelled as an exception. It never reaches the stage in the fixed pipeline, because `DataValidator` stops first.
- RelationshipsValidator.Validate: the same exception model as the attributes stage, for the same reason.
- Linkage.AllErrors: states the corrected to-one linkage, which reports a wrong type as a 422 error instead of throwing (first finding). `Linkage.AllErrorsAsWritten` and `Linkage.CrashesAsWritten` state the source's behaviour.
- RelationshipsValidator.MemberErrors: corrected to-one linkage; the code as written is `RelationshipsValidator.MemberCrashIsLinkageCrash`.
- RelationshipsValidator.MembersErrors: corrected to-one linkage; the code as written is `RelationshipsValidator.ValidateAsWritten`.
- RelationshipsValidator.Accept: corrected to-one linkage; the code as written is `RelationshipsValidator.ValidateAsWritten`.
- RelationshipsValidator.Errors: corrected to-one linkage; the code as written is `RelationshipsValidator.ValidateAsWritten`.
- RelationValidator.Validate: corrected to-one linkage; the code as written is `RelationValidator.ValidateAsWritten`.
- FieldsValidator.CommonOfNames: gives the shared keys, which the corrected stage reports. As written, an integer key among them throws instead (`FieldsValidator.ValidateAsWritten`).
- FieldsValidator.Errors: the errors of the corrected stage. As written, a shared integer key throws instead (`FieldsValidator.ValidateAsWritten`).
- AttributesValidator.Accept: the corrected `accept()`. As written, an undeclared integer-like name throws instead (`AttributesValidator.AcceptCrashesAsWritten`, `AttributesValidator.ValidateAsWritten`).
- AttributesValidator.ObjectErrorsAreClassified: about the corrected `accept()`; as written, an undeclared integer-like name throws instead (`AttributesValidator.ValidateAsWritten`).
- AttributesValidator.Errors: the errors of the corrected stage; as written, an undeclared integer-like name throws instead (`AttributesValidator.ValidateAsWritten`).
- Builder.CheckingStagesErrors: about the corrected checking stages; as written they can throw instead (`Builder.TrailingChecksAsWritten`, `Builder.ResourceRunAsWritten`).
- Builder.CheckingStagesAppend: about the corrected checking stages; as written they append the same errors or throw (`Builder.TrailingChecksAsWritten`, `Builder.ResourceRunAsWritten`).
- Identifier.ValidateType: a type is recognised only when it equals a declared type exactly. The source uses `contains`, a loose `in_array`, and under PHP 8 two numeric strings compare as numbers, so with a declared type "1" the types "01", "1.0" and "1e0" are recognised too. PHP's numeric-string syntax and float comparison are not modelled. The gap reaches every member built on the type check: `Identifier.StructuralErrors`, `Identifier.Validate`, `Identifier.TypeAndIdObjectIsWellFormed`, `ToOne.AllErrors`, `ToMany.ElementErrorsEmpty`, `ToMany.AllErrors`, `Linkage.AllErrors` and the relationships and relationship-document stages. For type names that are not numeric strings, the two comparisons agree.
- ToOne.Data: the corrected `data()`; as written, it throws (`ToOne.AllErrorsAsWritten`).
- ToOne.AllErrors: the corrected `allErrors()`; as written, non-null to-one data throws (`ToOne.AllErrorsAsWritten`).
- FieldsValidator.Validate: the corrected stage; as written, a shared integer key throws (`FieldsValidator.ValidateAsWritten`).
- AttributesValidator.Validate: the corrected stage; as written, an undeclared integer-like name throws (`AttributesValidator.ValidateAsWritten`).
- Builder.Apply: runs the corrected stages (all four findings). `Builder.ApplyAsWritten` runs the stages as written.
- Builder.ResourceErrors: the reference list of the corrected stages. As written, the pipeline can throw instead, or run the id check behind the other gate (`Builder.ResourcePipelineAsWritten`).
- Builder.ResourcePipelineRecordsResourceErrors: about the corrected stages; `Builder.ResourcePipelineAsWritten` and `Builder.ResourceRunAsWrittenOnlyAddsThrows` state the pipeline as written.
- Builder.CallerStagesRunLast: about the corrected stages; as written, a throwing built-in stage also keeps caller stages from running (`Builder.ThroughAsWrittenStep`).
- Builder.ResourceBuildRecordsResourceErrors: about the corrected stages; `Builder.ResourceBuildAsWritten` states the builder as written.
- Builder.RelationBuildValidatesTheBody: about the corrected stage; as written, a to-one relationship document with non-null `data` throws (`Builder.RelationBuildAsWritten`).

## Findings

| source | as written | input that shows it | evidently intended | confidence | as-written member | corrected member |
|---|---|---|---|---|---|---|
| src/Values/ToOne.php:90-94 | `data()` passes `expected()`, an array of type names, as the `?Relation` argument of `createIdentifierValue` (src/Factory.php:62-65). Under strict types that is a `TypeError` for any non-null, non-list to-one linkage, whatever its type. | any non-null to-one linkage, e.g. the relationship document `{"data":{"type":"users","id":"1"}}` for a to-one relation to `users` (`Builder.RelationBuildAsWritten`) | pass the relation itself, as `ToMany` does, so a wrong type is a 422 validation error | medium, not executed | ToOne.AllErrorsAsWritten | ToOne.AllErrors |
| src/Validators/FieldsValidator.php:41-46 | `(array)` turns integer-like member names, and the contents of a non-object `attributes` or `relationships`, into integer keys. A shared integer key is passed to the `string $field` parameter of `resourceFieldExistsInAttributesAndRelationships` (src/Translator.php:407), which rejects it under strict types. | `data` with `"attributes":{"1":true}` and `"relationships":{"1":{}}`, or with `"attributes":"x"` and `"relationships":"y"` | compare only the member names of two objects; other shapes are left to the attributes and relationships stages | medium, not executed | FieldsValidator.ValidateAsWritten | FieldsValidator.Validate |
| src/Validators/IdValidator.php:54-56 | the stage runs only when the expected id is truthy in PHP. `ClientIdValidator` skips whenever an id is expected, so for resource "0" nobody compares `data.id`. | update of `posts` "0" with `data.id` "1"; also an expected id " " or " 0 ", which the stage checks while `ClientIdValidator` also runs (`IdValidator.WhereTheGatesDisagree`) | gate on `expectsId()`, so exactly one of the two id stages checks `data.id` | medium, not executed | IdValidator.ValidateAsWritten | IdValidator.Validate |
| src/Validators/AttributesValidator.php:90-96 | `get_object_vars` turns an integer-like attribute name into an integer key. When that name is undeclared, it is passed to the `string $field` parameter of `memberFieldNotSupported` (src/Translator.php:184), which rejects it under strict types. | `data` with `"attributes":{"1":true}` for a type without a field "1" | report the member as not supported, a 400 error | medium, not executed | AttributesValidator.ValidateAsWritten | AttributesValidator.Validate |

=== FILE: attributes_validator.dfy ===
/** The resource-document stage for `data.attributes`: when present it must
    be an object, must not use the reserved names `type` and `id`, and may
    only name attributes the resource type declares. Never stops. */
module AttributesValidator {
  import opened Wrappers
  import opened JsonValues
  import opened Schema
  import opened Translator
  import opened Documents

  /** The elements of `xs` not in `ys`, in the order of `xs` (`diff`). */
  function Outside(xs: seq<string>, ys: seq<string>): (r: seq<string>)
    ensures forall x :: x in r <==> x in xs && x !in ys
    ensures |r| <= |xs|
  {
    if xs == [] then []
    else
      assert xs == [xs[0]] + xs[1..];
      (if xs[0] in ys then [] else [xs[0]]) + Outside(xs[1..], ys)
  }

  /** Member names that are neither reserved nor declared attributes, in
      member order (`forget(['type', 'id'])->diff($fields)`). */
  function UnsupportedNames(fields: seq<Field>, ms: Members): (r: seq<string>)
    ensures forall n :: n in r <==> Has(ms, n) && n != "type" && n != "id" && Attribute(n) !in fields
  {
    Outside(Keys(ms), ["type", "id"] + AttributeNames(fields))
  }

  /** The reserved names present among the members, `type` before `id`. */
  function ReservedNames(ms: Members): (r: seq<string>)
    ensures forall n :: n in r <==> (n == "type" || n == "id") && Has(ms, n)
    ensures |r| == 2 ==> r == ["type", "id"]
  {
    (if Has(ms, "type") then ["type"] else []) + (if Has(ms, "id") then ["id"] else [])
  }

  /** One `member_field_not_allowed` error per name, at `/data/attributes`. */
  function NotAllowedErrors(names: seq<string>): (r: seq<Error>)
    ensures |r| == |names|
    ensures forall e :: e in r ==> (e.key == "member_field_not_allowed"
                                   && e.pointer == Some("/data/attributes") && e.status == 400)
    ensures forall n :: MemberFieldNotAllowed("/data", "attributes", n) in r <==> n in names
  {
    assert PhpStrings.TrimTrailingSlashes("/data") == "/data";
    assert "/data" + "/" + "attributes" == "/data/attributes";
    var r := seq(|names|, i requires 0 <= i < |names| => MemberFieldNotAllowed("/data", "attributes", names[i]));
    forall n ensures MemberFieldNotAllowed("/data", "attributes", n) in r <==> n in names {
      var e := MemberFieldNotAllowed("/data", "attributes", n);
      if e in r {
        var i :| 0 <= i < |r| && r[i] == e;
        assert e.params["field"] == names[i];
      }
      if n in names {
        var i :| 0 <= i < |names| && names[i] == n;
        assert r[i] == e;
      }
    }
    r
  }

  /** One `member_field_not_supported` error per name, at `/data/attributes`. */
  function NotSupportedErrors(names: seq<string>): (r: seq<Error>)
    ensures |r| == |names|
    ensures forall e :: e in r ==> (e.key == "member_field_not_supported"
                                   && e.pointer == Some("/data/attributes") && e.status == 400)
    ensures forall n :: MemberFieldNotSupported("/data", "attributes", n) in r <==> n in names
  {
    assert PhpStrings.TrimTrailingSlashes("/data") == "/data";
    assert "/data" + "/" + "attributes" == "/data/attributes";
    var r := seq(|names|, i requires 0 <= i < |names| => MemberFieldNotSupported("/data", "attributes", names[i]));
    forall n ensures MemberFieldNotSupported("/data", "attributes", n) in r <==> n in names {
      var e := MemberFieldNotSupported("/data", "attributes", n);
      if e in r {
        var i :| 0 <= i < |r| && r[i] == e;
        assert e.params["field"] == names[i];
      }
      if n in names {
        var i :| 0 <= i < |names| && names[i] == n;
        assert r[i] == e;
      }
    }
    r
  }

  /** `accept`: one error for a non-object; else one per reserved name, then
      one per unsupported name. Every error points at `/data/attributes`. */
  function Accept(fields: seq<Field>, attributes: Json): (r: seq<Error>)
    ensures !attributes.JObj? ==> r == [MemberNotObject("/data", "attributes")]
    ensures forall e :: e in r ==> e.pointer == Some("/data/attributes") && e.status == 400
    ensures attributes.JObj? ==> (r == [] <==> forall n :: Has(attributes.members, n)
                                                  ==> n != "type" && n != "id" && Attribute(n) in fields)
    ensures attributes.JObj? ==> forall n :: MemberFieldNotSupported("/data", "attributes", n) in r
                                             <==> n in UnsupportedNames(fields, attributes.members)
    ensures attributes.JObj? ==> forall n :: MemberFieldNotAllowed("/data", "attributes", n) in r
                                             <==> n in ReservedNames(attributes.members)
    ensures forall i, j :: 0 <= i < j < |r| && r[j].key == "member_field_not_allowed"
                           ==> r[i].key == "member_field_not_allowed"
  {
    match attributes
    case JObj(ms) =>
      ObjectErrorsAreClassified(fields, ms);
      NotAllowedErrors(ReservedNames(ms)) + NotSupportedErrors(UnsupportedNames(fields, ms))
    case _ =>
      assert PhpStrings.TrimTrailingSlashes("/data") == "/data";
      assert "/data" + "/" + "attributes" == "/data/attributes";
      [MemberNotObject("/data", "attributes")]
  }

  /** For an object, the reserved-name errors followed by the
      unsupported-name errors: each name reported is one of its kind, and
      there are none exactly when every member is a declared attribute. */
  lemma ObjectErrorsAreClassified(fields: seq<Field>, ms: Members)
    ensures var r := NotAllowedErrors(ReservedNames(ms)) + NotSupportedErrors(UnsupportedNames(fields, ms));
            && (forall e :: e in r ==> e.pointer == Some("/data/attributes") && e.status == 400)
            && (r == [] <==> forall n :: Has(ms, n) ==> n != "type" && n != "id" && Attribute(n) in fields)
            && (forall n :: MemberFieldNotSupported("/data", "attributes", n) in r <==> n in UnsupportedNames(fields, ms))
            && (forall n :: MemberFieldNotAllowed("/data", "attributes", n) in r <==> n in ReservedNames(ms))
            && (forall i, j :: 0 <= i < j < |r| && r[j].key == "member_field_not_allowed"
                               ==> r[i].key == "member_field_not_allowed")
  {
    var reserved := ReservedNames(ms);
    var unsupported := UnsupportedNames(fields, ms);
    NoNamesExactlyWhenAllDeclared(fields, ms);
    ErrorsNameTheirMembers(reserved, unsupported);
    ReservedErrorsComeFirst(reserved, unsupported);
  }

  /** No reserved and no unsupported names exactly when every member is a
      declared attribute. */
  lemma NoNamesExactlyWhenAllDeclared(fields: seq<Field>, ms: Members)
    ensures ReservedNames(ms) == [] && UnsupportedNames(fields, ms) == []
        <==> forall n :: Has(ms, n) ==> n != "type" && n != "id" && Attribute(n) in fields
  {
    var reserved := ReservedNames(ms);
    var unsupported := UnsupportedNames(fields, ms);
    assert unsupported == [] <==> forall n :: Has(ms, n) && n != "type" && n != "id" ==> Attribute(n) in fields by {
      if unsupported != [] {
        assert unsupported[0] in unsupported;
      }
    }
    assert reserved == [] <==> !Has(ms, "type") && !Has(ms, "id") by {
      if reserved != [] {
        assert reserved[0] in reserved;
      }
    }
  }

  /** Each kind of error names exactly the names of its own list. */
  lemma ErrorsNameTheirMembers(reserved: seq<string>, unsupported: seq<string>)
    ensures var r := NotAllowedErrors(reserved) + NotSupportedErrors(unsupported);
            && (forall n :: MemberFieldNotSupported("/data", "attributes", n) in r <==> n in unsupported)
            && (forall n :: MemberFieldNotAllowed("/data", "attributes", n) in r <==> n in reserved)
  {
    var notAllowed := NotAllowedErrors(reserved);
    var notSupported := NotSupportedErrors(unsupported);
    forall n ensures MemberFieldNotSupported("/data", "attributes", n) !in notAllowed { }
    forall n ensures MemberFieldNotAllowed("/data", "attributes", n) !in notSupported { }
  }

  /** The reserved-name errors all come before the others. */
  lemma ReservedErrorsComeFirst(reserved: seq<string>, unsupported: seq<string>)
    ensures var r := NotAllowedErrors(reserved) + NotSupportedErrors(unsupported);
            forall i, j :: 0 <= i < j < |r| && r[j].key == "member_field_not_allowed"
                           ==> r[i].key == "member_field_not_allowed"
  {
    var notAllowed := NotAllowedErrors(reserved);
    var notSupported := NotSupportedErrors(unsupported);
    var r := notAllowed + notSupported;
    forall k | |notAllowed| <= k < |r| ensures r[k].key == "member_field_not_supported" {
      assert r[k] == notSupported[k - |notAllowed|];
    }
    forall i, j | 0 <= i < j < |r| && r[j].key == "member_field_not_allowed"
      ensures r[i].key == "member_field_not_allowed"
    {
      assert r[i] == notAllowed[i];
    }
  }

  /** The errors the stage records for object `data`: none without a
      `attributes` member. */
  function Errors(spec: Specification, doc: Document): (r: seq<Error>)
    requires doc.ResourceDocument? && HasObjectData(doc)
    ensures var ms := DataMember(doc).members;
            r == [] <==> (|| !Has(ms, "attributes")
                          || (&& Lookup(ms, "attributes").value.JObj?
                              && forall n :: Has(Lookup(ms, "attributes").value.members, n)
                                             ==> n != "type" && n != "id" && Attribute(n) in spec.fields(doc.resourceType)))
  {
    var ms := DataMember(doc).members;
    if Has(ms, "attributes") then Accept(spec.fields(doc.resourceType), Lookup(ms, "attributes").value) else []
  }

  /** `validate`: when `data` is an object with an `attributes` member (even
      null), records its errors; always hands the document on. Falsy data and
      a string (taken as a class name, which has no such property) are
      passed over; any other truthy non-object cannot be asked for a
      property and raises. */
  function Validate(spec: Specification, doc: Document): (r: Outcome)
    requires doc.ResourceDocument?
    ensures r.Raise? <==> Truthy(DataMember(doc)) && !DataMember(doc).JObj? && !DataMember(doc).JStr?
    ensures !r.Stop?
    ensures r.Next? && HasObjectData(doc) ==> r.doc == doc.WithErrors(Errors(spec, doc))
    ensures r.Next? && !(HasObjectData(doc) && Has(DataMember(doc).members, "attributes")) ==> r.doc == doc
  {
    var data := DataMember(doc);
    if !Truthy(data) then Next(doc)
    else match data
      case JObj(ms) =>
        Next(doc.WithErrors(Errors(spec, doc)))
      case JStr(_) => Next(doc)
      case _ => Raise("TypeError: property_exists() needs an object or class name")
  }

  // ---- as written ----

  /** `accept` as written on an object: `get_object_vars` gives a member
      whose name PHP reads as a decimal integer an integer key, and handing
      such an unsupported name to the string-typed error constructor throws
      under strict types. A declared or reserved name never reaches it. */
  predicate AcceptCrashesAsWritten(fields: seq<Field>, attributes: Json) {
    attributes.JObj? && exists n :: n in UnsupportedNames(fields, attributes.members) && PhpStrings.IntegerKey(n).Some?
  }

  /** The stage as written throws on `data.attributes` exactly when `accept`
      does. */
  predicate CrashesAsWritten(spec: Specification, doc: Document)
    requires doc.ResourceDocument?
  {
    && HasObjectData(doc)
    && var ms := DataMember(doc).members;
       Has(ms, "attributes") && AcceptCrashesAsWritten(spec.fields(doc.resourceType), Lookup(ms, "attributes").value)
  }

  /** What the error constructor throws when handed an integer name. */
  const IntFieldTypeError := "TypeError: memberFieldNotSupported() expects a string field, int given"

  /** `validate` as written: throws where `accept` throws, and otherwise is
      the corrected stage. */
  function ValidateAsWritten(spec: Specification, doc: Document): (r: Outcome)
    requires doc.ResourceDocument?
    ensures r.Raise? <==> Validate(spec, doc).Raise? || CrashesAsWritten(spec, doc)
    ensures !r.Raise? ==> r == Validate(spec, doc)
  {
    if CrashesAsWritten(spec, doc) then Raise(IntFieldTypeError) else Validate(spec, doc)
  }

  /** An undeclared attribute with an integer-like name, such as
      `{"attributes": {"1": ...}}`: as written the stage throws; corrected,
      it reports the name as not supported. */
  lemma UndeclaredIntegerNameCrashesAsWritten(spec: Specification, doc: Document, n: string)
    requires doc.ResourceDocument? && HasObjectData(doc)
    requires Has(DataMember(doc).members, "attributes")
    requires var a := Lookup(DataMember(doc).members, "attributes").value;
             a.JObj? && Has(a.members, n)
    requires Attribute(n) !in spec.fields(doc.resourceType)
    requires PhpStrings.IntegerKey(n).Some?
    ensures ValidateAsWritten(spec, doc).Raise?
    ensures MemberFieldNotSupported("/data", "attributes", n) in Validate(spec, doc).doc.errors
  {
    var a := Lookup(DataMember(doc).members, "attributes").value;
    assert PhpStrings.IntegerKey("type").None? && PhpStrings.IntegerKey("id").None?;
    assert n in UnsupportedNames(spec.fields(doc.resourceType), a.members);
  }
}

=== FILE: builder.dfy ===
/** The builders: decode the body, wrap it in the document the endpoint
    expects, and send it through the validation stages, the built-in ones
    first and then any the caller added with `using`. The stages form a
    pipeline in which each one either hands the document on, returns it
    early, or throws. */
module Builder {
  import opened Wrappers
  import opened PhpStrings
  import opened JsonValues
  import opened Schema
  import opened Translator
  import opened Documents
  import JsonDecoder
  import DataValidator
  import TypeValidator
  import ClientIdValidator
  import IdValidator
  import FieldsValidator
  import AttributesValidator
  import RelationshipsValidator
  import RelationValidator
  import Linkage
  import ToOne

  /** A pipeline stage: one of the built-in validators, or a caller's own
      stage (a function of the document). */
  datatype Stage =
    | DataStage
    | TypeStage
    | ClientIdStage
    | IdStage
    | FieldsStage
    | AttributesStage
    | RelationshipsStage
    | RelationStage
    | CustomStage(run: Document -> Outcome)

  /** `later` is `earlier` with errors appended and nothing else changed. */
  predicate Extends(later: Document, earlier: Document) {
    && later.ResourceDocument? == earlier.ResourceDocument?
    && later.body == earlier.body
    && later.resourceType == earlier.resourceType
    && (later.ResourceDocument? ==> later.resourceId == earlier.resourceId)
    && (later.RelationDocument? ==> later.relation == earlier.relation)
    && earlier.errors <= later.errors
  }

  /** One stage applied to a document. A built-in stage given the other kind
      of document fails the `validate` signature and raises; a built-in stage
      that does not raise only ever appends errors. */
  function Apply(spec: Specification, stage: Stage, doc: Document): (r: Outcome)
    ensures stage.CustomStage? ==> r == stage.run(doc)
    ensures stage.RelationStage? && doc.ResourceDocument? ==> r.Raise?
    ensures !stage.CustomStage? && !stage.RelationStage? && doc.RelationDocument? ==> r.Raise?
    ensures !stage.CustomStage? && !r.Raise? ==> Extends(r.doc, doc)
  {
    match stage
    case CustomStage(run) => run(doc)
    case RelationStage =>
      if doc.RelationDocument? then RelationValidator.Validate(spec, doc) else Raise(NotARelationDocument)
    case DataStage =>
      if doc.ResourceDocument? then DataValidator.Validate(doc) else Raise(NotAResourceDocument)
    case TypeStage =>
      if doc.ResourceDocument? then TypeValidator.Validate(doc) else Raise(NotAResourceDocument)
    case ClientIdStage =>
      if doc.ResourceDocument? then ClientIdValidator.Validate(spec, doc) else Raise(NotAResourceDocument)
    case IdStage =>
      if doc.ResourceDocument? then IdValidator.Validate(doc) else Raise(NotAResourceDocument)
    case FieldsStage =>
      if doc.ResourceDocument? then FieldsValidator.Validate(doc) else Raise(NotAResourceDocument)
    case AttributesStage =>
      if doc.ResourceDocument? then AttributesValidator.Validate(spec, doc) else Raise(NotAResourceDocument)
    case RelationshipsStage =>
      if doc.ResourceDocument? then RelationshipsValidator.Validate(spec, doc) else Raise(NotAResourceDocument)
  }

  const NotAResourceDocument := "TypeError: validate() expects a resource document"
  const NotARelationDocument := "TypeError: validate() expects a relationship document"

  /** No stage is a caller's own. */
  predicate AllBuiltIn(stages: seq<Stage>) {
    forall i :: 0 <= i < |stages| ==> !stages[i].CustomStage?
  }

  /** The pipeline (`send`/`through`/`via('validate')`): stages run in
      order while each hands the document on; the first that returns early or
      throws ends the run. `Next` means every stage handed the document on.
      Built-in stages only append errors. */
  function Through(spec: Specification, stages: seq<Stage>, doc: Document): (r: Outcome)
    ensures stages == [] ==> r == Next(doc)
    ensures AllBuiltIn(stages) && !r.Raise? ==> Extends(r.doc, doc)
    decreases |stages|
  {
    if stages == [] then Next(doc)
    else match Apply(spec, stages[0], doc)
      case Next(d) =>
        var r := Through(spec, stages[1..], d);
        assert AllBuiltIn(stages) ==> AllBuiltIn(stages[1..]) by {
          if AllBuiltIn(stages) {
            forall i | 0 <= i < |stages[1..]| ensures !stages[1..][i].CustomStage? {
              assert stages[1..][i] == stages[i + 1];
            }
          }
        }
        r
      case Stop(d) => Stop(d)
      case Raise(reason) => Raise(reason)
  }

  /** `thenReturn()`: the document that comes out, whether the last stage
      handed it on or a stage returned it early; or what was thrown. */
  function Finish(o: Outcome): (r: Result<Document, Thrown>)
    ensures r.Success? <==> !o.Raise?
    ensures r.Success? ==> r.value == o.doc
    ensures r.Failure? ==> r.error == Crash(o.reason)
  {
    match o
    case Next(d) => Success(d)
    case Stop(d) => Success(d)
    case Raise(reason) => Failure(Crash(reason))
  }

  /** The pipeline's first step: the first stage decides whether the rest
      runs, and on what. */
  lemma ThroughStep(spec: Specification, stage: Stage, rest: seq<Stage>, doc: Document)
    ensures var o := Apply(spec, stage, doc);
            Through(spec, [stage] + rest, doc) == if o.Next? then Through(spec, rest, o.doc) else o
  {
    assert ([stage] + rest)[0] == stage;
    assert ([stage] + rest)[1..] == rest;
  }

  /** Running two lists of stages back to back is running their
      concatenation: the second list runs only when the first handed the
      document on, and starts from the document it handed on. */
  lemma {:induction false} ThroughConcat(spec: Specification, s1: seq<Stage>, s2: seq<Stage>, doc: Document)
    ensures var o := Through(spec, s1, doc);
            Through(spec, s1 + s2, doc) == if o.Next? then Through(spec, s2, o.doc) else o
    decreases |s1|
  {
    if s1 == [] {
      assert s1 + s2 == s2;
    } else {
      ThroughStep(spec, s1[0], s1[1..] + s2, doc);
      assert [s1[0]] + (s1[1..] + s2) == s1 + s2;
      ThroughStep(spec, s1[0], s1[1..], doc);
      assert [s1[0]] + s1[1..] == s1;
      var o := Apply(spec, s1[0], doc);
      if o.Next? {
        ThroughConcat(spec, s1[1..], s2, o.doc);
      }
    }
  }

  /** The resource stages, in the order `ResourceBuilder::pipes()` lists them
      (with the corrected id stage). */
  function ResourceStages(): (r: seq<Stage>)
    ensures AllBuiltIn(r) && |r| == 7 && r[0] == DataStage
  {
    [DataStage, TypeStage, ClientIdStage, IdStage, FieldsStage, AttributesStage, RelationshipsStage]
  }

  /** The relationship stages (`RelationBuilder::pipes()`). */
  function RelationStages(): (r: seq<Stage>)
    ensures AllBuiltIn(r) && |r| == 1 && r[0] == RelationStage
  {
    [RelationStage]
  }

  // ---- what the resource pipeline records ----

  /** An independent account of the errors a resource document collects: a
      `data` error alone; else a `type` error alone; else the errors of the
      client-id, id, duplicate-field, attribute and relationship checks, in
      that order. */
  function ResourceErrors(spec: Specification, doc: Document): (r: seq<Error>)
    requires doc.ResourceDocument?
    ensures !HasObjectData(doc) ==> |r| == 1
    ensures HasObjectData(doc) && TypeValidator.Check(doc).Some? ==> |r| == 1
  {
    match DataValidator.Check(doc.body)
    case Some(e) => [e]
    case None =>
      match TypeValidator.Check(doc)
      case Some(e) => [e]
      case None =>
        ClientIdValidator.Errors(spec, doc) + (IdValidator.Errors(doc) + (FieldsValidator.Errors(doc)
        + (AttributesValidator.Errors(spec, doc) + RelationshipsValidator.Errors(spec, doc))))
  }

  /** The stages that never stop: they only append errors. */
  predicate Checking(stage: Stage) {
    stage.ClientIdStage? || stage.IdStage? || stage.FieldsStage? || stage.AttributesStage?
    || stage.RelationshipsStage?
  }

  /** What a checking stage appends to a resource document with object `data`. */
  function StageErrors(spec: Specification, stage: Stage, doc: Document): seq<Error>
    requires Checking(stage) && doc.ResourceDocument? && HasObjectData(doc)
  {
    match stage
    case ClientIdStage => ClientIdValidator.Errors(spec, doc)
    case IdStage => IdValidator.Errors(doc)
    case FieldsStage => FieldsValidator.Errors(doc)
    case AttributesStage => AttributesValidator.Errors(spec, doc)
    case RelationshipsStage => RelationshipsValidator.Errors(spec, doc)
  }

  /** What a list of checking stages appends, in stage order. */
  function AllStageErrors(spec: Specification, stages: seq<Stage>, doc: Document): seq<Error>
    requires forall i :: 0 <= i < |stages| ==> Checking(stages[i])
    requires doc.ResourceDocument? && HasObjectData(doc)
    decreases |stages|
  {
    if stages == [] then [] else StageErrors(spec, stages[0], doc) + AllStageErrors(spec, stages[1..], doc)
  }

  /** The stages' error lists depend on the request, not on the errors
      already recorded. */
  lemma ChecksIgnoreRecordedErrors(spec: Specification, stage: Stage, doc: Document, es: seq<Error>)
    requires Checking(stage) && doc.ResourceDocument? && HasObjectData(doc)
    ensures HasObjectData(doc.WithErrors(es))
    ensures StageErrors(spec, stage, doc.WithErrors(es)) == StageErrors(spec, stage, doc)
  {
    var d := doc.WithErrors(es);
    assert DataMember(d) == DataMember(doc);
    assert d.ExpectsId() == doc.ExpectsId();
  }

  /** A checking stage applied to a resource document with object `data`
      appends its errors and hands the document on. */
  lemma CheckingStageAppends(spec: Specification, stage: Stage, doc: Document, es: seq<Error>)
    requires Checking(stage) && doc.ResourceDocument? && HasObjectData(doc)
    ensures Apply(spec, stage, doc.WithErrors(es)) == Next(doc.WithErrors(es + StageErrors(spec, stage, doc)))
  {
    var d := doc.WithErrors(es);
    ChecksIgnoreRecordedErrors(spec, stage, doc, es);
    var added := StageErrors(spec, stage, doc);
    assert StageErrors(spec, stage, d) == added;
    StageAppends(spec, stage, d);
    doc.WithErrorsTwice(es, added);
  }

  /** The same, for the document as it stands. */
  lemma StageAppends(spec: Specification, stage: Stage, d: Document)
    requires Checking(stage) && d.ResourceDocument? && HasObjectData(d)
    ensures Apply(spec, stage, d) == Next(d.WithErrors(StageErrors(spec, stage, d)))
  {
    match stage
    case ClientIdStage =>
      assert Apply(spec, stage, d) == ClientIdValidator.Validate(spec, d);
    case IdStage =>
      assert Apply(spec, stage, d) == IdValidator.Validate(d);
    case FieldsStage =>
      assert Apply(spec, stage, d) == FieldsValidator.Validate(d);
    case AttributesStage =>
      assert Apply(spec, stage, d) == AttributesValidator.Validate(spec, d);
    case RelationshipsStage =>
      assert Apply(spec, stage, d) == RelationshipsValidator.Validate(spec, d);
  }

  /** Checking stages run in sequence append their errors in stage order and
      never stop or throw. */
  lemma {:induction false} CheckingStagesAppend(spec: Specification, stages: seq<Stage>, doc: Document, es: seq<Error>)
    requires forall i :: 0 <= i < |stages| ==> Checking(stages[i])
    requires doc.ResourceDocument? && HasObjectData(doc)
    ensures Through(spec, stages, doc.WithErrors(es)) == Next(doc.WithErrors(es + AllStageErrors(spec, stages, doc)))
    decreases |stages|
  {
    var d := doc.WithErrors(es);
    if stages == [] {
      assert es + [] == es;
    } else {
      var first := StageErrors(spec, stages[0], doc);
      var rest := AllStageErrors(spec, stages[1..], doc);
      ConcatIsAssociative(es, first, rest);
      var next := doc.WithErrors(es + first);
      CheckingStageAppends(spec, stages[0], doc, es);
      ThroughStep(spec, stages[0], stages[1..], d);
      assert [stages[0]] + stages[1..] == stages;
      assert Through(spec, stages, d) == Through(spec, stages[1..], next);
      CheckingStagesAppend(spec, stages[1..], doc, es + first);
      assert Through(spec, stages[1..], next) == Next(doc.WithErrors((es + first) + rest));
      assert AllStageErrors(spec, stages, doc) == first + rest;
    }
  }

  /** Appending error lists is associative (kept as its own lemma: asserted
      inside an induction step, the fact is costly to prove). */
  lemma ConcatIsAssociative(a: seq<Error>, b: seq<Error>, c: seq<Error>)
    ensures (a + b) + c == a + (b + c)
  {
  }

  /** The five checking stages of a resource pipeline, in order. */
  function CheckingStages(): (r: seq<Stage>)
    ensures forall i :: 0 <= i < |r| ==> Checking(r[i])
  {
    [ClientIdStage, IdStage, FieldsStage, AttributesStage, RelationshipsStage]
  }

  /** What five checking stages append: each stage's errors, in order. */
  lemma FiveStagesErrors(spec: Specification, s: seq<Stage>, doc: Document)
    requires |s| == 5 && forall i :: 0 <= i < |s| ==> Checking(s[i])
    requires doc.ResourceDocument? && HasObjectData(doc)
    ensures AllStageErrors(spec, s, doc)
         == StageErrors(spec, s[0], doc) + (StageErrors(spec, s[1], doc)
            + (StageErrors(spec, s[2], doc) + (StageErrors(spec, s[3], doc)
            + StageErrors(spec, s[4], doc))))
  {
    assert AllStageErrors(spec, s[4..], doc) == StageErrors(spec, s[4], doc) by {
      assert s[4..][0] == s[4] && s[4..][1..] == [];
    }
    assert AllStageErrors(spec, s[3..], doc) == StageErrors(spec, s[3], doc) + AllStageErrors(spec, s[4..], doc) by {
      assert s[3..][0] == s[3] && s[3..][1..] == s[4..];
    }
    assert AllStageErrors(spec, s[2..], doc) == StageErrors(spec, s[2], doc) + AllStageErrors(spec, s[3..], doc) by {
      assert s[2..][0] == s[2] && s[2..][1..] == s[3..];
    }
    assert AllStageErrors(spec, s[1..], doc) == StageErrors(spec, s[1], doc) + AllStageErrors(spec, s[2..], doc) by {
      assert s[1..][0] == s[1] && s[1..][1..] == s[2..];
    }
  }

  /** What the five checking stages append to a document with object
      `data`: the client-id, id, duplicate-field, attribute and relationship
      errors, in that order. */
  lemma CheckingStagesErrors(spec: Specification, doc: Document)
    requires doc.ResourceDocument? && HasObjectData(doc)
    ensures AllStageErrors(spec, CheckingStages(), doc)
         == ClientIdValidator.Errors(spec, doc) + (IdValidator.Errors(doc) + (FieldsValidator.Errors(doc)
            + (AttributesValidator.Errors(spec, doc) + RelationshipsValidator.Errors(spec, doc))))
  {
    var s := CheckingStages();
    FiveStagesErrors(spec, s, doc);
    assert StageErrors(spec, s[0], doc) == ClientIdValidator.Errors(spec, doc) by {
      assert s[0] == ClientIdStage;
    }
    assert StageErrors(spec, s[1], doc) == IdValidator.Errors(doc) by {
      assert s[1] == IdStage;
    }
    assert StageErrors(spec, s[2], doc) == FieldsValidator.Errors(doc) by {
      assert s[2] == FieldsStage;
    }
    assert StageErrors(spec, s[3], doc) == AttributesValidator.Errors(spec, doc) by {
      assert s[3] == AttributesStage;
    }
    assert StageErrors(spec, s[4], doc) == RelationshipsValidator.Errors(spec, doc) by {
      assert s[4] == RelationshipsStage;
    }
  }

  /** A resource document gets past the `data` and `type` stages. */
  predicate ReachesChecks(doc: Document)
    requires doc.ResourceDocument?
  {
    HasObjectData(doc) && TypeValidator.Check(doc).None?
  }

  /** Running the resource stages over a resource document records exactly
      `ResourceErrors`; it returns early exactly when `data` or `type` is
      wrong, and never throws. */
  lemma ResourcePipelineRecordsResourceErrors(spec: Specification, doc: Document)
    requires doc.ResourceDocument?
    ensures Through(spec, ResourceStages(), doc)
         == if ReachesChecks(doc) then Next(doc.WithErrors(ResourceErrors(spec, doc)))
            else Stop(doc.WithErrors(ResourceErrors(spec, doc)))
  {
    var rest := CheckingStages();
    var errors := ResourceErrors(spec, doc);
    assert ResourceStages() == [DataStage] + ([TypeStage] + rest);
    ThroughStep(spec, DataStage, [TypeStage] + rest, doc);
    if !HasObjectData(doc) {
      assert Apply(spec, DataStage, doc) == Stop(doc.WithErrors(errors));
    } else {
      assert Apply(spec, DataStage, doc) == Next(doc);
      ThroughStep(spec, TypeStage, rest, doc);
      if TypeValidator.Check(doc).Some? {
        assert Apply(spec, TypeStage, doc) == Stop(doc.WithErrors(errors));
      } else {
        assert Apply(spec, TypeStage, doc) == Next(doc);
        assert Through(spec, rest, doc) == Next(doc.WithErrors(errors)) by {
          CheckingStagesAppend(spec, rest, doc, []);
          assert doc.WithErrors([]) == doc;
          CheckingStagesErrors(spec, doc);
          assert [] + AllStageErrors(spec, rest, doc) == AllStageErrors(spec, rest, doc);
        }
      }
    }
  }

  /** The caller's stages run after the resource stages, on the document
      they hand on, and only when `data` and `type` are right: a document
      that fails either never reaches them. */
  lemma CallerStagesRunLast(spec: Specification, extra: seq<Stage>, doc: Document)
    requires doc.ResourceDocument?
    ensures Through(spec, ResourceStages() + extra, doc)
         == if ReachesChecks(doc) then Through(spec, extra, doc.WithErrors(ResourceErrors(spec, doc)))
            else Stop(doc.WithErrors(ResourceErrors(spec, doc)))
  {
    ThroughConcat(spec, ResourceStages(), extra, doc);
    ResourcePipelineRecordsResourceErrors(spec, doc);
  }

  // ---- the pipeline as written ----

  /** One stage as the code is written: the id, duplicate-field,
      attribute, relationships and relationship-document stages take their
      modules' as-written forms, and every other stage is as in `Apply`. Apart from
      the id stage's gate, a stage as written does what the corrected stage
      does unless it throws. */
  function ApplyAsWritten(spec: Specification, stage: Stage, doc: Document): (r: Outcome)
    ensures !(|| stage.IdStage? || stage.FieldsStage? || stage.AttributesStage? || stage.RelationshipsStage?
              || stage.RelationStage?)
            ==> r == Apply(spec, stage, doc)
    ensures !r.Raise? && !stage.IdStage? ==> r == Apply(spec, stage, doc)
    ensures stage.IdStage? && doc.ResourceDocument? && IdValidator.ChecksAsWritten(doc) == IdValidator.Checks(doc)
            ==> r == Apply(spec, stage, doc)
  {
    match stage
    case IdStage =>
      if doc.ResourceDocument? then
        IdValidator.WhereTheGatesDisagree(doc);
        IdValidator.ValidateAsWritten(doc)
      else Raise(NotAResourceDocument)
    case FieldsStage =>
      if doc.ResourceDocument? then
        FieldsValidator.AsWrittenAgreesUnlessItThrows(doc);
        FieldsValidator.ValidateAsWritten(doc)
      else Raise(NotAResourceDocument)
    case AttributesStage =>
      if doc.ResourceDocument? then AttributesValidator.ValidateAsWritten(spec, doc) else Raise(NotAResourceDocument)
    case RelationshipsStage =>
      if doc.ResourceDocument? then RelationshipsValidator.ValidateAsWritten(spec, doc) else Raise(NotAResourceDocument)
    case RelationStage =>
      if doc.RelationDocument? then RelationValidator.ValidateAsWritten(spec, doc) else Raise(NotARelationDocument)
    case _ => Apply(spec, stage, doc)
  }

  /** The pipeline with every stage as written. */
  function ThroughAsWritten(spec: Specification, stages: seq<Stage>, doc: Document): (r: Outcome)
    ensures stages == [] ==> r == Next(doc)
    decreases |stages|
  {
    if stages == [] then Next(doc)
    else match ApplyAsWritten(spec, stages[0], doc)
      case Next(d) => ThroughAsWritten(spec, stages[1..], d)
      case Stop(d) => Stop(d)
      case Raise(reason) => Raise(reason)
  }

  /** The first step of the pipeline as written. */
  lemma ThroughAsWrittenStep(spec: Specification, stage: Stage, rest: seq<Stage>, doc: Document)
    ensures var o := ApplyAsWritten(spec, stage, doc);
            ThroughAsWritten(spec, [stage] + rest, doc) == if o.Next? then ThroughAsWritten(spec, rest, o.doc) else o
  {
    assert ([stage] + rest)[0] == stage;
    assert ([stage] + rest)[1..] == rest;
  }

  /** Without an id stage, a pipeline as written that does not throw does
      exactly what the corrected pipeline does. */
  lemma {:induction false} AsWrittenOnlyAddsThrows(spec: Specification, stages: seq<Stage>, doc: Document)
    requires forall i :: 0 <= i < |stages| ==> !stages[i].IdStage?
    ensures !ThroughAsWritten(spec, stages, doc).Raise? ==> ThroughAsWritten(spec, stages, doc) == Through(spec, stages, doc)
    decreases |stages|
  {
    if stages != [] {
      var o := ApplyAsWritten(spec, stages[0], doc);
      if o.Next? {
        forall i | 0 <= i < |stages[1..]| ensures !stages[1..][i].IdStage? {
          assert stages[1..][i] == stages[i + 1];
        }
        AsWrittenOnlyAddsThrows(spec, stages[1..], o.doc);
      }
    }
  }

  /** An independent account of the resource stages as written: a `data` or
      `type` error stops the run as before; past those, the first of these
      throws: the duplicate-field stage on a shared integer key (for example
      an integer-like name shared by two objects, two scalar members, which
      both cast to key 0, or a list and an object with a member such as "0"), the
      attribute stage on an undeclared integer-like name, the relationships
      stage on a to-one member holding an identifier. Otherwise the document
      collects the errors `ResourceErrors` lists, with the id check behind
      the gate as written. */
  function ResourceRunAsWritten(spec: Specification, doc: Document): (r: Outcome)
    requires doc.ResourceDocument?
    ensures r.Raise? <==> && ReachesChecks(doc)
                          && (|| FieldsValidator.ValidateAsWritten(doc).Raise?
                              || AttributesValidator.CrashesAsWritten(spec, doc)
                              || RelationshipsValidator.CrashesAsWritten(spec, doc))
    ensures r.Stop? <==> !ReachesChecks(doc)
  {
    if !ReachesChecks(doc) then Stop(doc.WithErrors(ResourceErrors(spec, doc)))
    else if FieldsValidator.ValidateAsWritten(doc).Raise? then Raise(FieldsValidator.IntFieldTypeError)
    else if AttributesValidator.CrashesAsWritten(spec, doc) then Raise(AttributesValidator.IntFieldTypeError)
    else if RelationshipsValidator.CrashesAsWritten(spec, doc) then Raise(ToOne.FactoryTypeError)
    else Next(doc.WithErrors(ClientIdValidator.Errors(spec, doc) + (IdValidator.ErrorsAsWritten(doc)
              + (FieldsValidator.Errors(doc) + (AttributesValidator.Errors(spec, doc)
              + RelationshipsValidator.Errors(spec, doc))))))
  }

  /** The id stage as written appends its errors to a document with object
      `data`, whatever it already recorded. */
  lemma IdStageAsWritten(spec: Specification, doc: Document, es: seq<Error>)
    requires doc.ResourceDocument? && HasObjectData(doc)
    ensures ApplyAsWritten(spec, IdStage, doc.WithErrors(es)) == Next(doc.WithErrors(es + IdValidator.ErrorsAsWritten(doc)))
  {
    var d := doc.WithErrors(es);
    assert DataMember(d) == DataMember(doc);
    assert IdValidator.ErrorsAsWritten(d) == IdValidator.ErrorsAsWritten(doc);
    doc.WithErrorsTwice(es, IdValidator.ErrorsAsWritten(doc));
  }

  /** The duplicate-field stage as written throws or appends, whatever the
      document already recorded. */
  lemma FieldsStageAsWritten(spec: Specification, doc: Document, es: seq<Error>)
    requires doc.ResourceDocument? && HasObjectData(doc)
    ensures ApplyAsWritten(spec, FieldsStage, doc.WithErrors(es))
         == if FieldsValidator.ValidateAsWritten(doc).Raise? then Raise(FieldsValidator.IntFieldTypeError)
            else Next(doc.WithErrors(es + FieldsValidator.Errors(doc)))
  {
    var d := doc.WithErrors(es);
    assert FieldsValidator.DuplicateKeysAsWritten(d) == FieldsValidator.DuplicateKeysAsWritten(doc) by {
      assert DataMember(d) == DataMember(doc);
    }
    CheckingStageAppends(spec, FieldsStage, doc, es);
  }

  /** The attribute stage as written throws or appends, whatever the
      document already recorded. */
  lemma AttributesStageAsWritten(spec: Specification, doc: Document, es: seq<Error>)
    requires doc.ResourceDocument? && HasObjectData(doc)
    ensures ApplyAsWritten(spec, AttributesStage, doc.WithErrors(es))
         == if AttributesValidator.CrashesAsWritten(spec, doc) then Raise(AttributesValidator.IntFieldTypeError)
            else Next(doc.WithErrors(es + AttributesValidator.Errors(spec, doc)))
  {
    var d := doc.WithErrors(es);
    assert AttributesValidator.CrashesAsWritten(spec, d) == AttributesValidator.CrashesAsWritten(spec, doc) by {
      assert DataMember(d) == DataMember(doc);
    }
    CheckingStageAppends(spec, AttributesStage, doc, es);
  }

  /** The relationships stage as written throws or appends, whatever the
      document already recorded. */
  lemma RelationshipsStageAsWritten(spec: Specification, doc: Document, es: seq<Error>)
    requires doc.ResourceDocument? && HasObjectData(doc)
    ensures ApplyAsWritten(spec, RelationshipsStage, doc.WithErrors(es))
         == if RelationshipsValidator.CrashesAsWritten(spec, doc) then Raise(ToOne.FactoryTypeError)
            else Next(doc.WithErrors(es + RelationshipsValidator.Errors(spec, doc)))
  {
    var d := doc.WithErrors(es);
    assert RelationshipsValidator.CrashesAsWritten(spec, d) == RelationshipsValidator.CrashesAsWritten(spec, doc) by {
      assert DataMember(d) == DataMember(doc);
    }
    CheckingStageAppends(spec, RelationshipsStage, doc, es);
  }

  /** The client-id and id stages as written append their errors and hand
      the document on. */
  lemma LeadingChecksAsWritten(spec: Specification, doc: Document, rest: seq<Stage>)
    requires doc.ResourceDocument? && HasObjectData(doc)
    ensures ThroughAsWritten(spec, [ClientIdStage, IdStage] + rest, doc)
         == ThroughAsWritten(spec, rest, doc.WithErrors(ClientIdValidator.Errors(spec, doc) + IdValidator.ErrorsAsWritten(doc)))
  {
    var c := ClientIdValidator.Errors(spec, doc);
    assert [ClientIdStage, IdStage] + rest == [ClientIdStage] + ([IdStage] + rest);
    ThroughAsWrittenStep(spec, ClientIdStage, [IdStage] + rest, doc);
    CheckingStageAppends(spec, ClientIdStage, doc, []);
    assert doc.WithErrors([]) == doc && [] + c == c;
    ThroughAsWrittenStep(spec, IdStage, rest, doc.WithErrors(c));
    IdStageAsWritten(spec, doc, c);
  }

  /** The attribute and relationships stages as written, after errors `es`:
      the first of them that throws ends the run, and otherwise each appends
      its errors. */
  lemma LastChecksAsWritten(spec: Specification, doc: Document, es: seq<Error>)
    requires doc.ResourceDocument? && HasObjectData(doc)
    ensures ThroughAsWritten(spec, [AttributesStage, RelationshipsStage], doc.WithErrors(es))
         == if AttributesValidator.CrashesAsWritten(spec, doc) then Raise(AttributesValidator.IntFieldTypeError)
            else if RelationshipsValidator.CrashesAsWritten(spec, doc) then Raise(ToOne.FactoryTypeError)
            else Next(doc.WithErrors(es + (AttributesValidator.Errors(spec, doc) + RelationshipsValidator.Errors(spec, doc))))
  {
    var a := AttributesValidator.Errors(spec, doc);
    var d := doc.WithErrors(es);
    var o := ApplyAsWritten(spec, AttributesStage, d);
    assert [AttributesStage, RelationshipsStage] == [AttributesStage] + [RelationshipsStage];
    assert ThroughAsWritten(spec, [AttributesStage] + [RelationshipsStage], d)
        == if o.Next? then ThroughAsWritten(spec, [RelationshipsStage], o.doc) else o by {
      ThroughAsWrittenStep(spec, AttributesStage, [RelationshipsStage], d);
    }
    AttributesStageAsWritten(spec, doc, es);
    if !AttributesValidator.CrashesAsWritten(spec, doc) {
      assert [RelationshipsStage] == [RelationshipsStage] + [];
      ThroughAsWrittenStep(spec, RelationshipsStage, [], doc.WithErrors(es + a));
      RelationshipsStageAsWritten(spec, doc, es + a);
      ConcatIsAssociative(es, a, RelationshipsValidator.Errors(spec, doc));
    }
  }

  /** The duplicate-field, attribute and relationships stages as written,
      after errors `es`: the first of them that throws ends the run, and
      otherwise each appends its errors. */
  lemma TrailingChecksAsWritten(spec: Specification, doc: Document, es: seq<Error>)
    requires doc.ResourceDocument? && HasObjectData(doc)
    ensures ThroughAsWritten(spec, [FieldsStage, AttributesStage, RelationshipsStage], doc.WithErrors(es))
         == if FieldsValidator.ValidateAsWritten(doc).Raise? then Raise(FieldsValidator.IntFieldTypeError)
            else if AttributesValidator.CrashesAsWritten(spec, doc) then Raise(AttributesValidator.IntFieldTypeError)
            else if RelationshipsValidator.CrashesAsWritten(spec, doc) then Raise(ToOne.FactoryTypeError)
            else Next(doc.WithErrors(es + (FieldsValidator.Errors(doc) + (AttributesValidator.Errors(spec, doc)
                                           + RelationshipsValidator.Errors(spec, doc)))))
  {
    var f := FieldsValidator.Errors(doc);
    var tail := [AttributesStage, RelationshipsStage];
    var d := doc.WithErrors(es);
    var o := ApplyAsWritten(spec, FieldsStage, d);
    assert [FieldsStage, AttributesStage, RelationshipsStage] == [FieldsStage] + tail;
    assert ThroughAsWritten(spec, [FieldsStage] + tail, d) == if o.Next? then ThroughAsWritten(spec, tail, o.doc) else o by {
      ThroughAsWrittenStep(spec, FieldsStage, tail, d);
    }
    assert o == if FieldsValidator.ValidateAsWritten(doc).Raise? then Raise(FieldsValidator.IntFieldTypeError)
                else Next(doc.WithErrors(es + f)) by {
      FieldsStageAsWritten(spec, doc, es);
    }
    if !FieldsValidator.ValidateAsWritten(doc).Raise? {
      LastChecksAsWritten(spec, doc, es + f);
      ConcatIsAssociative(es, f, AttributesValidator.Errors(spec, doc) + RelationshipsValidator.Errors(spec, doc));
    }
  }

  /** The five checking stages as written, on a document that reached them. */
  lemma CheckingStagesAsWritten(spec: Specification, doc: Document)
    requires doc.ResourceDocument? && ReachesChecks(doc)
    ensures ThroughAsWritten(spec, CheckingStages(), doc) == ResourceRunAsWritten(spec, doc)
  {
    var c := ClientIdValidator.Errors(spec, doc);
    var i := IdValidator.ErrorsAsWritten(doc);
    var trailing := [FieldsStage, AttributesStage, RelationshipsStage];
    assert CheckingStages() == [ClientIdStage, IdStage] + trailing;
    LeadingChecksAsWritten(spec, doc, trailing);
    TrailingChecksAsWritten(spec, doc, c + i);
    ConcatIsAssociative(c, i, FieldsValidator.Errors(doc) + (AttributesValidator.Errors(spec, doc)
                                                           + RelationshipsValidator.Errors(spec, doc)));
  }

  /** The resource stages as written run as `ResourceRunAsWritten` says. */
  lemma ResourcePipelineAsWritten(spec: Specification, doc: Document)
    requires doc.ResourceDocument?
    ensures ThroughAsWritten(spec, ResourceStages(), doc) == ResourceRunAsWritten(spec, doc)
  {
    var rest := CheckingStages();
    assert ResourceStages() == [DataStage] + ([TypeStage] + rest);
    ThroughAsWrittenStep(spec, DataStage, [TypeStage] + rest, doc);
    ResourcePipelineRecordsResourceErrors(spec, doc);
    if HasObjectData(doc) {
      ThroughAsWrittenStep(spec, TypeStage, rest, doc);
      if TypeValidator.Check(doc).None? {
        CheckingStagesAsWritten(spec, doc);
      }
    }
  }

  /** Where the two id gates agree, the resource stages as written either
      throw or record exactly what the corrected stages record. */
  lemma ResourceRunAsWrittenOnlyAddsThrows(spec: Specification, doc: Document)
    requires doc.ResourceDocument? && IdValidator.ChecksAsWritten(doc) == IdValidator.Checks(doc)
    ensures !ResourceRunAsWritten(spec, doc).Raise? ==> ResourceRunAsWritten(spec, doc) == Through(spec, ResourceStages(), doc)
  {
    ResourcePipelineRecordsResourceErrors(spec, doc);
  }

  /** The relationship stages as written are the relationship stage as
      written. */
  lemma RelationPipelineAsWritten(spec: Specification, doc: Document)
    requires doc.RelationDocument?
    ensures ThroughAsWritten(spec, RelationStages(), doc) == RelationValidator.ValidateAsWritten(spec, doc)
  {
    assert RelationStages() == [RelationStage] + [];
    ThroughAsWrittenStep(spec, RelationStage, [], doc);
  }

  // ---- the builders ----

  /** Which document a builder makes. */
  datatype Kind = ResourceKind | RelationKind

  /** A builder: its kind, what `expects` recorded (the relationship builder
      keeps the relation name where the resource builder keeps the id), and
      the stages added with `using`. */
  datatype Builder = Builder(kind: Kind, expectedType: Option<string>, expectedId: Option<string>, extra: seq<Stage>)

  /** A new builder has no expectations and no extra stages. */
  function NewBuilder(kind: Kind): (b: Builder)
    ensures b.kind == kind && b.expectedType.None? && b.extra == []
  {
    Builder(kind, None, None, [])
  }

  /** `ResourceBuilder::expects($type, $id)`. */
  function ExpectsResource(b: Builder, resourceType: string, resourceId: Option<string>): (r: Builder)
    requires b.kind.ResourceKind?
    ensures r.kind == b.kind && r.extra == b.extra
    ensures r.expectedType == Some(resourceType) && r.expectedId == resourceId
  {
    b.(expectedType := Some(resourceType), expectedId := resourceId)
  }

  /** `RelationBuilder::expects($type, $relation)`. */
  function ExpectsRelation(b: Builder, resourceType: string, relation: string): (r: Builder)
    requires b.kind.RelationKind?
    ensures r.kind == b.kind && r.extra == b.extra
    ensures r.expectedType == Some(resourceType) && r.expectedId == Some(relation)
  {
    b.(expectedType := Some(resourceType), expectedId := Some(relation))
  }

  /** `using($pipes)`: the stages go after those added before. */
  function Using(b: Builder, stages: seq<Stage>): (r: Builder)
    ensures r.kind == b.kind && r.expectedType == b.expectedType && r.expectedId == b.expectedId
    ensures r.extra == b.extra + stages
  {
    b.(extra := b.extra + stages)
  }

  /** Adding stages in two calls is adding them in one. */
  lemma UsingTwice(b: Builder, p: seq<Stage>, q: seq<Stage>)
    ensures Using(Using(b, p), q) == Using(b, p + q)
  {
    assert (b.extra + p) + q == b.extra + (p + q);
  }

  /** The stages `build` runs: the kind's own, then the caller's. */
  function Pipes(b: Builder): (r: seq<Stage>)
    ensures b.kind.ResourceKind? ==> r == ResourceStages() + b.extra
    ensures b.kind.RelationKind? ==> r == RelationStages() + b.extra
  {
    (if b.kind.ResourceKind? then ResourceStages() else RelationStages()) + b.extra
  }

  /** What `build` can throw: the decoder's JSON:API exception, or a logic or
      type error of the server's own making. */
  datatype Thrown = JsonApiException(error: Error) | Crash(message: string)

  /** `create`: a document of the builder's kind for the decoded object; a
      falsy or missing expected type is a logic error. */
  function Create(b: Builder, body: Members): (r: Result<Document, Thrown>)
    ensures r.Success? <==> b.expectedType.Some? && !Falsy(b.expectedType.value)
                            && (b.kind.RelationKind? ==> b.expectedId.Some?)
    ensures r.Success? ==> && r.value.Valid() && r.value.body == body
                           && r.value.resourceType == b.expectedType.value
                           && r.value.ResourceDocument? == b.kind.ResourceKind?
    ensures r.Success? && b.kind.ResourceKind? ==> r.value.resourceId == b.expectedId
    ensures r.Success? && b.kind.RelationKind? ==> r.value.relation == b.expectedId.value
    ensures r.Failure? ==> r.error.Crash?
  {
    match b.expectedType
    case Some(t) =>
      if Falsy(t) then Failure(Crash(NoExpectedType(b.kind)))
      else if b.kind.ResourceKind? then Success(NewResourceDocument(body, t, b.expectedId))
      else if b.expectedId.Some? then Success(NewRelationDocument(body, t, b.expectedId.value))
      else Failure(Crash("TypeError: the relation name must be a string, null given"))
    case None => Failure(Crash(NoExpectedType(b.kind)))
  }

  function NoExpectedType(kind: Kind): string {
    if kind.ResourceKind? then "LogicException: No expected resource type set."
    else "LogicException: No expected resource type and relation name set."
  }

  /** With only built-in caller stages, the whole pipeline is built in. */
  lemma PipesBuiltIn(b: Builder)
    requires AllBuiltIn(b.extra)
    ensures AllBuiltIn(Pipes(b))
  {
    var own := if b.kind.ResourceKind? then ResourceStages() else RelationStages();
    forall i | 0 <= i < |Pipes(b)| ensures !Pipes(b)[i].CustomStage? {
      if i < |own| {
        assert Pipes(b)[i] == own[i];
      } else {
        assert Pipes(b)[i] == b.extra[i - |own|];
      }
    }
  }

  /** `build`: decode (the decoder's exception propagates), create the
      document, and send it through the stages. */
  function Build(spec: Specification, parse: string -> JsonDecoder.ParseResult, b: Builder, text: string)
    : (r: Result<Document, Thrown>)
    ensures JsonDecoder.Decode(text, parse).Failure?
            ==> r == Failure(JsonApiException(JsonDecoder.Decode(text, parse).error))
    ensures r.Failure? && r.error.JsonApiException? ==> JsonDecoder.Decode(text, parse).Failure?
    ensures r.Success? ==> && JsonDecoder.Decode(text, parse).Success?
                           && Create(b, JsonDecoder.Decode(text, parse).value).Success?
    ensures r.Success? && AllBuiltIn(b.extra)
            ==> Extends(r.value, Create(b, JsonDecoder.Decode(text, parse).value).value)
  {
    match JsonDecoder.Decode(text, parse)
    case Failure(e) => Failure(JsonApiException(e))
    case Success(body) =>
      match Create(b, body)
      case Failure(thrown) => Failure(thrown)
      case Success(doc) =>
        assert AllBuiltIn(b.extra) ==> AllBuiltIn(Pipes(b)) by {
          if AllBuiltIn(b.extra) {
            PipesBuiltIn(b);
          }
        }
        Finish(Through(spec, Pipes(b), doc))
  }

  /** Once the body decodes and the document is created, building is running
      the builder's stages over it. */
  lemma BuildRunsPipes(spec: Specification, parse: string -> JsonDecoder.ParseResult, b: Builder, text: string,
                       body: Members)
    requires JsonDecoder.Decode(text, parse) == Success(body) && Create(b, body).Success?
    ensures var o := Through(spec, Pipes(b), Create(b, body).value);
            Build(spec, parse, b, text) == if o.Raise? then Failure(Crash(o.reason)) else Success(o.doc)
  {
  }

  /** The relationship pipeline is the relationship stage. */
  lemma RelationPipeline(spec: Specification, doc: Document)
    requires doc.RelationDocument?
    ensures Through(spec, RelationStages(), doc) == RelationValidator.Validate(spec, doc)
  {
    assert RelationStages() == [RelationStage] + [];
    ThroughStep(spec, RelationStage, [], doc);
  }

  /** A resource endpoint with an expected type: once the body decodes to an
      object, building never throws, and the document carries exactly
      `ResourceErrors`. */
  lemma ResourceBuildRecordsResourceErrors(spec: Specification, parse: string -> JsonDecoder.ParseResult,
                                           resourceType: string, resourceId: Option<string>, text: string,
                                           body: Members)
    requires !Falsy(resourceType)
    requires JsonDecoder.Decode(text, parse) == Success(body)
    ensures var b := ExpectsResource(NewBuilder(ResourceKind), resourceType, resourceId);
            var doc := NewResourceDocument(body, resourceType, resourceId);
            Build(spec, parse, b, text) == Success(doc.WithErrors(ResourceErrors(spec, doc)))
  {
    var b := ExpectsResource(NewBuilder(ResourceKind), resourceType, resourceId);
    var doc := NewResourceDocument(body, resourceType, resourceId);
    assert Create(b, body) == Success(doc);
    var o := Through(spec, Pipes(b), doc);
    assert !o.Raise? && o.doc == doc.WithErrors(ResourceErrors(spec, doc)) by {
      assert Pipes(b) == ResourceStages() + [];
      CallerStagesRunLast(spec, [], doc);
    }
    BuildRunsPipes(spec, parse, b, text, body);
  }

  /** A relationship endpoint for a declared relation: once the body decodes
      to an object, building never throws, and the document carries exactly
      the errors of the body as that relation's relationship object at "/". */
  lemma RelationBuildValidatesTheBody(spec: Specification, parse: string -> JsonDecoder.ParseResult,
                                      resourceType: string, relation: string, text: string, body: Members)
    requires !Falsy(resourceType) && !Falsy(relation)
    requires FirstRelationNamed(spec.fields(resourceType), relation).Some?
    requires JsonDecoder.Decode(text, parse) == Success(body)
    ensures var b := ExpectsRelation(NewBuilder(RelationKind), resourceType, relation);
            var field := FirstRelationNamed(spec.fields(resourceType), relation).value;
            var r := Build(spec, parse, b, text);
            && r.Success?
            && r.value.errors == Linkage.AllErrors(spec, field, "/", JObj(body))
            && (r.value.Valid() <==> Linkage.Acceptable(spec, field, JObj(body)))
  {
    var b := ExpectsRelation(NewBuilder(RelationKind), resourceType, relation);
    var doc := NewRelationDocument(body, resourceType, relation);
    assert Create(b, body) == Success(doc);
    var o := RelationValidator.Validate(spec, doc);
    assert Through(spec, Pipes(b), doc) == o by {
      assert Pipes(b) == RelationStages() + [];
      assert RelationStages() + [] == RelationStages();
      RelationPipeline(spec, doc);
    }
    assert o.Next?;
    BuildRunsPipes(spec, parse, b, text, body);
  }

  /** A relationship endpoint whose relation the type does not declare is the
      server's mistake: building throws instead of reporting to the client. */
  lemma UndeclaredRelationThrows(spec: Specification, parse: string -> JsonDecoder.ParseResult,
                                 resourceType: string, relation: string, text: string, body: Members)
    requires !Falsy(resourceType)
    requires FirstRelationNamed(spec.fields(resourceType), relation).None?
    requires JsonDecoder.Decode(text, parse) == Success(body)
    ensures var b := ExpectsRelation(NewBuilder(RelationKind), resourceType, relation);
            Build(spec, parse, b, text).Failure? && Build(spec, parse, b, text).error.Crash?
  {
    var b := ExpectsRelation(NewBuilder(RelationKind), resourceType, relation);
    var doc := NewRelationDocument(body, resourceType, relation);
    assert Create(b, body) == Success(doc);
    var o := RelationValidator.Validate(spec, doc);
    assert Through(spec, Pipes(b), doc) == o by {
      assert Pipes(b) == RelationStages() + [];
      assert RelationStages() + [] == RelationStages();
      RelationPipeline(spec, doc);
    }
    assert o.Raise?;
    BuildRunsPipes(spec, parse, b, text, body);
  }

  /** `build` as written: decoding and creating the document are as in
      `Build`, and the stages are the stages as written. */
  function BuildAsWritten(spec: Specification, parse: string -> JsonDecoder.ParseResult, b: Builder, text: string)
    : (r: Result<Document, Thrown>)
    ensures JsonDecoder.Decode(text, parse).Failure? || Create(b, JsonDecoder.Decode(text, parse).value).Failure?
            ==> r == Build(spec, parse, b, text)
    ensures r.Failure? && r.error.JsonApiException? ==> JsonDecoder.Decode(text, parse).Failure?
  {
    match JsonDecoder.Decode(text, parse)
    case Failure(e) => Failure(JsonApiException(e))
    case Success(body) =>
      match Create(b, body)
      case Failure(thrown) => Failure(thrown)
      case Success(doc) => Finish(ThroughAsWritten(spec, Pipes(b), doc))
  }

  /** A resource endpoint with an expected type, as written: once the body
      decodes to an object, building returns or throws as
      `ResourceRunAsWritten` says; where the two id gates agree and it does
      not throw, it returns what the corrected builder returns. */
  lemma ResourceBuildAsWritten(spec: Specification, parse: string -> JsonDecoder.ParseResult,
                               resourceType: string, resourceId: Option<string>, text: string, body: Members)
    requires !Falsy(resourceType)
    requires JsonDecoder.Decode(text, parse) == Success(body)
    ensures var b := ExpectsResource(NewBuilder(ResourceKind), resourceType, resourceId);
            var doc := NewResourceDocument(body, resourceType, resourceId);
            BuildAsWritten(spec, parse, b, text) == Finish(ResourceRunAsWritten(spec, doc))
    ensures var b := ExpectsResource(NewBuilder(ResourceKind), resourceType, resourceId);
            var doc := NewResourceDocument(body, resourceType, resourceId);
            IdValidator.ChecksAsWritten(doc) == IdValidator.Checks(doc) && BuildAsWritten(spec, parse, b, text).Success?
            ==> BuildAsWritten(spec, parse, b, text) == Build(spec, parse, b, text)
  {
    var b := ExpectsResource(NewBuilder(ResourceKind), resourceType, resourceId);
    var doc := NewResourceDocument(body, resourceType, resourceId);
    assert Create(b, body) == Success(doc);
    assert Pipes(b) == ResourceStages() by {
      assert ResourceStages() + [] == ResourceStages();
    }
    ResourcePipelineAsWritten(spec, doc);
    if IdValidator.ChecksAsWritten(doc) == IdValidator.Checks(doc) {
      ResourceRunAsWrittenOnlyAddsThrows(spec, doc);
      ResourceBuildRecordsResourceErrors(spec, parse, resourceType, resourceId, text, body);
      ResourcePipelineRecordsResourceErrors(spec, doc);
    }
  }

  /** A relationship endpoint for a declared relation, as written: once the
      body decodes to an object, building throws exactly when the linkage
      crashes as written (a to-one relation whose `data` is neither null nor
      a list), and otherwise returns what the corrected builder returns. */
  lemma RelationBuildAsWritten(spec: Specification, parse: string -> JsonDecoder.ParseResult,
                               resourceType: string, relation: string, text: string, body: Members)
    requires !Falsy(resourceType) && !Falsy(relation)
    requires FirstRelationNamed(spec.fields(resourceType), relation).Some?
    requires JsonDecoder.Decode(text, parse) == Success(body)
    ensures var b := ExpectsRelation(NewBuilder(RelationKind), resourceType, relation);
            var field := FirstRelationNamed(spec.fields(resourceType), relation).value;
            var r := BuildAsWritten(spec, parse, b, text);
            && (r.Failure? <==> Linkage.CrashesAsWritten(field, JObj(body)))
            && (r.Failure? ==> r.error == Crash(ToOne.FactoryTypeError))
            && (r.Success? ==> r == Build(spec, parse, b, text))
  {
    var b := ExpectsRelation(NewBuilder(RelationKind), resourceType, relation);
    var doc := NewRelationDocument(body, resourceType, relation);
    assert Create(b, body) == Success(doc);
    assert Pipes(b) == RelationStages() by {
      assert RelationStages() + [] == RelationStages();
    }
    RelationPipelineAsWritten(spec, doc);
    RelationPipeline(spec, doc);
    assert doc.ToBase() == JObj(body);
  }
}

=== FILE: client_id_validator.dfy ===
/** The resource-document stage for client-generated ids (JSON:API 1.0,
    "Client-Generated IDs"): when the endpoint creates a resource and the
    document carries an `id`, the type must allow client ids and the id must
    be a non-empty string naming no existing resource. Never stops. */
module ClientIdValidator {
  import opened Wrappers
  import opened JsonValues
  import opened Schema
  import opened Translator
  import opened Documents
  import Identifier

  /** The stage looks at the `id` member only when the endpoint does not
      name an existing resource. */
  predicate Checks(doc: Document)
    requires doc.ResourceDocument?
  {
    !doc.ExpectsId()
  }

  /** `accept`: the error for a client id, checked in order: not a string,
      empty, already taken. */
  function Accept(spec: Specification, resourceType: string, value: Json): (r: Option<Error>)
    ensures r.None? <==> value.JStr? && !Identifier.IdIsEmpty(Some(value.s))
                         && !spec.resourceExists(resourceType, value.s)
    ensures r.Some? ==> r.value.pointer == Some("/data/id")
    ensures r.Some? && value.JStr? && !Identifier.IdIsEmpty(Some(value.s))
            ==> r.value == ResourceExists(resourceType, value.s, "/data/id") && r.value.status == 409
  {
    assert PhpStrings.TrimTrailingSlashes("/data") == "/data";
    assert "/data" + "/" + "id" == "/data/id";
    match value
    case JStr(s) =>
      if Identifier.IdIsEmpty(Some(s)) then Some(MemberEmpty("/data", "id"))
      else if spec.resourceExists(resourceType, s) then Some(ResourceExists(resourceType, s, "/data/id"))
      else None
    case _ => Some(MemberNotString("/data", "id"))
  }

  /** The errors the stage records: the client-id policy error, then (not
      instead) the error of the id itself. */
  function Errors(spec: Specification, doc: Document): (r: seq<Error>)
    requires doc.ResourceDocument? && (Checks(doc) ==> HasObjectData(doc))
    ensures !Checks(doc) ==> r == []
    ensures Checks(doc) && !Has(DataMember(doc).members, "id") ==> r == []
    ensures |r| <= 2
    ensures forall e :: e in r ==> e.pointer == Some("/data/id")
    ensures Checks(doc) && Has(DataMember(doc).members, "id")
            ==> (ResourceDoesNotSupportClientIds(doc.resourceType, "/data") in r
                 <==> !spec.clientIds(doc.resourceType))
    ensures r == [] <==> !Checks(doc) || !Has(DataMember(doc).members, "id")
                         || (spec.clientIds(doc.resourceType)
                             && Accept(spec, doc.resourceType, Lookup(DataMember(doc).members, "id").value).None?)
  {
    if !Checks(doc) then []
    else
      var ms := DataMember(doc).members;
      if !Has(ms, "id") then []
      else
        var policy := ResourceDoesNotSupportClientIds(doc.resourceType, "/data");
        assert policy.pointer == Some("/data/id") by {
          assert PhpStrings.TrimTrailingSlashes("/data") == "/data";
          assert "/data" + "/" + "id" == "/data/id";
        }
        var accepted := Accept(spec, doc.resourceType, Lookup(ms, "id").value);
        assert accepted.Some? ==> accepted.value.key != policy.key;
        (if spec.clientIds(doc.resourceType) then [] else [policy])
        + (if accepted.Some? then [accepted.value] else [])
  }

  /** `validate`: records the errors and always hands the document on. A
      string `data` has no `id` (`property_exists` looks for a class of that
      name), so it passes unchanged; any other non-object throws. */
  function Validate(spec: Specification, doc: Document): (r: Outcome)
    requires doc.ResourceDocument?
    ensures r.Raise? <==> Checks(doc) && !HasObjectData(doc) && !DataMember(doc).JStr?
    ensures !r.Stop?
    ensures r.Next? && (Checks(doc) ==> HasObjectData(doc)) ==> r.doc == doc.WithErrors(Errors(spec, doc))
    ensures Checks(doc) && DataMember(doc).JStr? ==> r == Next(doc)
  {
    if Checks(doc) && !HasObjectData(doc) then
      if DataMember(doc).JStr? then Next(doc) else Raise("TypeError: property_exists() needs an object")
    else Next(doc.WithErrors(Errors(spec, doc)))
  }
}

=== FILE: data_validator.dfy ===
/** The first resource-document stage: `data` must be present, non-null and
    an object, or validation stops with one error. */
module DataValidator {
  import opened Wrappers
  import opened JsonValues
  import opened Translator
  import opened Documents

  /** The one error for a `data` member that is absent, null, or not an
      object, or None when `data` is an object. */
  function Check(body: Members): (r: Option<Error>)
    ensures r.None? <==> IsSet(body, "data") && Lookup(body, "data").value.JObj?
    ensures r.Some? && !IsSet(body, "data") ==> r.value == MemberRequired("/", "data")
    ensures r.Some? && IsSet(body, "data") ==> r.value == MemberNotObject("/", "data")
  {
    if !IsSet(body, "data") then Some(MemberRequired("/", "data"))
    else if Lookup(body, "data").value.JObj? then None
    else Some(MemberNotObject("/", "data"))
  }

  /** `validate`: hands the document on unchanged exactly when `data` is an
      object; otherwise records one error and stops the pipeline. */
  function Validate(doc: Document): (r: Outcome)
    requires doc.ResourceDocument?
    ensures !r.Raise?
    ensures r.Next? <==> HasObjectData(doc)
    ensures r.Next? ==> r.doc == doc
    ensures r.Stop? ==> r.doc == doc.WithErrors([Check(doc.body).value])
  {
    match Check(doc.body)
    case None => Next(doc)
    case Some(e) => Stop(doc.WithErrors([e]))
  }

  /** A missing or null `data` is reported at the document root, any other
      non-object at `/data`. */
  lemma ErrorPointers(body: Members)
    ensures Check(body).Some? && !IsSet(body, "data") ==> Check(body).value.pointer == Some("/")
    ensures Check(body).Some? && IsSet(body, "data") ==> Check(body).value.pointer == Some("/data")
  {
    assert PhpStrings.TrimTrailingSlashes("/") == "";
    assert "" + "/" + "data" == "/data";
  }
}

=== FILE: documents.dfy ===
/** The two inbound documents and what a validation stage can do with one.
    A document wraps the decoded top-level object and accumulates errors;
    a resource document also knows the type and (optional) id the endpoint
    expects, a relationship document the type and relation name. */
module Documents {
  import opened Wrappers
  import opened JsonValues
  import opened Translator
  import Identifier
  import PhpStrings

  datatype Document =
    | ResourceDocument(body: Members, errors: seq<Error>, resourceType: string, resourceId: Option<string>)
    | RelationDocument(body: Members, errors: seq<Error>, resourceType: string, relation: string)
  {
    /** `valid()`: no error has been recorded. */
    predicate Valid() {
      errors == []
    }

    /** `invalid()`. */
    predicate Invalid() {
      !Valid()
    }

    /** `expectsId()`: the endpoint names an existing resource, i.e. the
        expected id is not empty in the sense of `idIsEmpty`. */
    predicate ExpectsId()
      requires ResourceDocument?
    {
      !Identifier.IdIsEmpty(resourceId)
    }

    /** Records errors (`push` or `merge`): they go at the end, and nothing
        else about the document changes. */
    function WithErrors(es: seq<Error>): (d: Document)
      ensures d.errors == errors + es
      ensures d.body == body && d.resourceType == resourceType
      ensures d.ResourceDocument? <==> ResourceDocument?
      ensures ResourceDocument? ==> d.resourceId == resourceId
      ensures RelationDocument? ==> d.relation == relation
    {
      this.(errors := errors + es)
    }

    /** Recording two lists one after the other is recording their concatenation. */
    lemma WithErrorsTwice(a: seq<Error>, b: seq<Error>)
      ensures WithErrors(a).WithErrors(b) == WithErrors(a + b)
    {
      assert (errors + a) + b == errors + (a + b);
    }

    /** `toBase()`: a copy of the decoded top-level object. */
    function ToBase(): Json {
      JObj(body)
    }

    /** `invalid()` is the negation of `valid()`; recording errors leaves a
        document valid exactly when it was valid and nothing was recorded,
        and the copy `toBase()` returns never depends on what was recorded. */
    lemma RecordingAndValidity(es: seq<Error>)
      ensures Invalid() <==> errors != []
      ensures WithErrors(es).Valid() <==> Valid() && es == []
      ensures WithErrors(es).ToBase() == ToBase() && ToBase() == JObj(body)
    {
    }

    /** `expectsId()`: no expected id, or one `idIsEmpty` calls empty (such as
        "" or " "), means the endpoint creates a resource; "0" and any id
        with a non-blank character other than a lone "0" name one. */
    lemma ExpectsIdCases()
      requires ResourceDocument?
      ensures resourceId.None? ==> !ExpectsId()
      ensures resourceId == Some("0") ==> ExpectsId()
      ensures resourceId.Some? && PhpStrings.AllTrimChars(resourceId.value) ==> !ExpectsId()
      ensures resourceId.Some? && resourceId.value != "0" && PhpStrings.Trim(resourceId.value) == "0" ==> !ExpectsId()
      ensures ExpectsId() ==> resourceId.Some? && !PhpStrings.AllTrimChars(resourceId.value)
    {
    }
  }

  /** A new resource document has recorded no errors. */
  function NewResourceDocument(body: Members, resourceType: string, resourceId: Option<string>): (d: Document)
    ensures d.ResourceDocument? && d.Valid()
    ensures d.body == body && d.resourceType == resourceType && d.resourceId == resourceId
  {
    ResourceDocument(body, [], resourceType, resourceId)
  }

  /** A new relationship document has recorded no errors. */
  function NewRelationDocument(body: Members, resourceType: string, relation: string): (d: Document)
    ensures d.RelationDocument? && d.Valid()
    ensures d.body == body && d.resourceType == resourceType && d.relation == relation
  {
    RelationDocument(body, [], resourceType, relation)
  }

  /** `$document->data`: the top-level `data` member; an absent member reads
      as null. */
  function DataMember(d: Document): Json {
    match Lookup(d.body, "data")
    case Some(v) => v
    case None => JNull
  }

  /** The `data` member is present and is an object. */
  predicate HasObjectData(d: Document) {
    DataMember(d).JObj?
  }

  /** `data_get($target, 'a.b', $default)` over objects: each segment must
      name a set (non-null) member of an object, or the default comes back.
      Arrays never hold the named segments the validators use, so a list
      also yields the default. */
  function DataGet(target: Json, segments: seq<string>, default: Json): (r: Json)
    ensures segments == [] ==> r == target
    ensures segments != [] && r != default ==> !r.JNull?
    decreases |segments|
  {
    if segments == [] then target
    else match target
      case JObj(ms) =>
        if IsSet(ms, segments[0]) then DataGet(Lookup(ms, segments[0]).value, segments[1..], default)
        else default
      case _ => default
  }

  /** `data_get` along a two-segment path reaches the member exactly when
      both members are set. */
  lemma DataGetTwoSegments(body: Members, a: string, b: string, default: Json)
    ensures DataGet(JObj(body), [a, b], default)
         == if IsSet(body, a) && Lookup(body, a).value.JObj? && IsSet(Lookup(body, a).value.members, b)
            then Lookup(Lookup(body, a).value.members, b).value
            else default
  {
    assert [a, b][1..] == [b];
    assert [b][1..] == [];
  }

  /** What a stage does with the document: hand it on (`$next($document)`),
      return it without calling the rest of the pipeline, or throw. */
  datatype Outcome = Next(doc: Document) | Stop(doc: Document) | Raise(reason: string)
}

=== FILE: fields_validator.dfy ===
/** The resource-document stage that forbids a field from appearing both in
    `attributes` and in `relationships` (JSON:API 1.0, "Fields": a resource
    cannot have an attribute and a relationship with the same name). Never
    stops.

    As written the two members are read with `data_get` and cast with
    `(array)`; a scalar casts to a one-element array with key 0, a list to
    its indices, and an object member whose name is a decimal integer ("1")
    to an integer key. A shared integer key is then passed as the field name
    to the error constructor, whose parameter is a `string` under strict
    types, and that throws. The corrected stage compares the
    member names of two objects and reports nothing otherwise, leaving
    non-object members to the attributes and relationships stages. */
module FieldsValidator {
  import opened Wrappers
  import opened PhpStrings
  import opened JsonValues
  import opened Translator
  import opened Documents

  /** A key of a PHP array: a string or an integer. */
  datatype Key = NameKey(name: string) | IntKey(value: int)

  /** The key an object member name becomes under `(array)`: an integer for
      a decimal integer name, the name itself otherwise. */
  function CastName(n: string): (k: Key)
    ensures k.IntKey? <==> IntegerKey(n).Some?
    ensures k.NameKey? ==> k.name == n
  {
    match IntegerKey(n)
    case Some(i) => IntKey(i)
    case None => NameKey(n)
  }

  /** Different member names become different keys. */
  lemma CastNameInjective(a: string, b: string)
    requires CastName(a) == CastName(b)
    ensures a == b
  {
    if IntegerKey(a).Some? {
      IntegerKeyInjective(a, b);
    }
  }

  /** `(array) $value` for a value read by `data_get(..., [])`. */
  function CastKeys(v: Json): (r: seq<Key>)
    ensures v.JObj? ==> |r| == |v.members| && forall i :: 0 <= i < |r| ==> r[i] == CastName(v.members[i].0)
    ensures v.JList? ==> |r| == |v.items| && forall i :: 0 <= i < |r| ==> r[i] == IntKey(i)
    ensures !v.JObj? && !v.JList? && !v.JNull? ==> r == [IntKey(0)]
    ensures v.JNull? ==> r == []
  {
    match v
    case JNull => []
    case JObj(ms) => seq(|ms|, i requires 0 <= i < |ms| => CastName(ms[i].0))
    case JList(items) => seq(|items|, i requires 0 <= i < |items| => IntKey(i))
    case _ => [IntKey(0)]
  }

  /** The elements of `xs` that also occur in `ys`, in the order of `xs`
      (`intersectByKeys(...)->keys()`). */
  function Common<T(==,!new)>(xs: seq<T>, ys: seq<T>): (r: seq<T>)
    ensures forall x :: x in r <==> x in xs && x in ys
    ensures |r| <= |xs|
    ensures ys == [] ==> r == []
  {
    if xs == [] then []
    else
      assert xs == [xs[0]] + xs[1..];
      (if xs[0] in ys then [xs[0]] else []) + Common(xs[1..], ys)
  }

  /** `data.attributes` and `data.relationships` as `data_get` reads them:
      the member when set, else the default `[]`. */
  function Attributes(doc: Document): Json {
    DataGet(doc.ToBase(), ["data", "attributes"], JList([]))
  }

  function Relationships(doc: Document): Json {
    DataGet(doc.ToBase(), ["data", "relationships"], JList([]))
  }

  /** The duplicated keys as written: shared array keys of the two casts. */
  function DuplicateKeysAsWritten(doc: Document): seq<Key> {
    Common(CastKeys(Attributes(doc)), CastKeys(Relationships(doc)))
  }

  /** `validate` as written: an error per shared name, and a type error as
      soon as a shared key is an integer. */
  function ValidateAsWritten(doc: Document): (r: Outcome)
    requires doc.ResourceDocument?
    ensures r.Raise? <==> exists k :: k in DuplicateKeysAsWritten(doc) && k.IntKey?
    ensures !r.Stop?
  {
    var dups := DuplicateKeysAsWritten(doc);
    if exists i :: 0 <= i < |dups| && dups[i].IntKey? then Raise(IntFieldTypeError)
    else Next(doc.WithErrors(seq(|dups|, i requires 0 <= i < |dups| =>
      ResourceFieldExistsInAttributesAndRelationships(dups[i].name, "/data"))))
  }

  /** What the error constructor throws when handed an integer key. */
  const IntFieldTypeError := "TypeError: field name must be a string, int given"

  /** The names both objects declare, in attribute order; nothing unless
      both members are objects. */
  function DuplicateNames(attributes: Json, relationships: Json): (r: seq<string>)
    ensures forall n :: n in r <==> attributes.JObj? && relationships.JObj?
                                    && Has(attributes.members, n) && Has(relationships.members, n)
  {
    if attributes.JObj? && relationships.JObj? then Common(Keys(attributes.members), Keys(relationships.members))
    else []
  }

  /** The errors the corrected stage records: one per duplicated name, each
      at `/data`. */
  function Errors(doc: Document): (r: seq<Error>)
    ensures |r| == |DuplicateNames(Attributes(doc), Relationships(doc))|
    ensures forall i :: 0 <= i < |r| ==> r[i] == ResourceFieldExistsInAttributesAndRelationships(
                                                   DuplicateNames(Attributes(doc), Relationships(doc))[i], "/data")
    ensures forall e :: e in r ==> e.pointer == Some("/data") && e.status == 400
  {
    var names := DuplicateNames(Attributes(doc), Relationships(doc));
    seq(|names|, i requires 0 <= i < |names| => ResourceFieldExistsInAttributesAndRelationships(names[i], "/data"))
  }

  /** `validate` (corrected): records the errors and hands the document on. */
  function Validate(doc: Document): (r: Outcome)
    requires doc.ResourceDocument?
    ensures r == Next(doc.WithErrors(Errors(doc)))
    ensures r.doc.Valid() <==> (doc.Valid() && DuplicateNames(Attributes(doc), Relationships(doc)) == [])
  {
    var es := Errors(doc);
    assert es == [] <==> DuplicateNames(Attributes(doc), Relationships(doc)) == [];
    Next(doc.WithErrors(es))
  }

  /** When both members are objects, or absent or null, the stage as written
      throws exactly when the two share a decimal integer name, and otherwise
      agrees with the corrected stage. */
  lemma AsWrittenAgreesOnObjects(doc: Document)
    requires doc.ResourceDocument?
    requires Attributes(doc).JObj? || Attributes(doc) == JList([])
    requires Relationships(doc).JObj? || Relationships(doc) == JList([])
    ensures ValidateAsWritten(doc).Raise?
            <==> exists n :: n in DuplicateNames(Attributes(doc), Relationships(doc)) && IntegerKey(n).Some?
    ensures !ValidateAsWritten(doc).Raise? ==> ValidateAsWritten(doc) == Validate(doc)
  {
    var dups := DuplicateKeysAsWritten(doc);
    var names := DuplicateNames(Attributes(doc), Relationships(doc));
    SameDuplicates(Attributes(doc), Relationships(doc));
    CastsOfNames(dups, names);
    if !(exists n :: n in names && IntegerKey(n).Some?) {
      NameKeysAgree(doc);
    }
  }

  /** A list of cast names holds an integer key exactly when one of the
      names is integer-like; otherwise every key is the name itself. */
  lemma CastsOfNames(keys: seq<Key>, names: seq<string>)
    requires |keys| == |names| && forall i :: 0 <= i < |keys| ==> keys[i] == CastName(names[i])
    ensures (exists k :: k in keys && k.IntKey?) <==> exists n :: n in names && IntegerKey(n).Some?
    ensures !(exists n :: n in names && IntegerKey(n).Some?) ==> forall i :: 0 <= i < |keys| ==> keys[i] == NameKey(names[i])
  {
    if exists n :: n in names && IntegerKey(n).Some? {
      var n :| n in names && IntegerKey(n).Some?;
      var i :| 0 <= i < |names| && names[i] == n;
      assert keys[i] in keys;
    } else {
      forall i | 0 <= i < |keys| ensures keys[i] == NameKey(names[i]) {
        assert names[i] in names;
      }
    }
  }

  /** When every shared key is a name key, the stage as written records the
      corrected stage's errors. */
  lemma NameKeysAgree(doc: Document)
    requires doc.ResourceDocument?
    requires var dups := DuplicateKeysAsWritten(doc);
             var names := DuplicateNames(Attributes(doc), Relationships(doc));
             |dups| == |names| && forall i :: 0 <= i < |dups| ==> dups[i] == NameKey(names[i])
    ensures ValidateAsWritten(doc) == Validate(doc)
  {
    var dups := DuplicateKeysAsWritten(doc);
    assert !(exists i :: 0 <= i < |dups| && dups[i].IntKey?);
    var errors := seq(|dups|, i requires 0 <= i < |dups| =>
      ResourceFieldExistsInAttributesAndRelationships(dups[i].name, "/data"));
    assert errors == Errors(doc);
  }

  /** Whenever the stage as written does not throw, it records what the
      corrected stage records: a list or a scalar casts to integer keys
      only, so it can share no key without a throw. */
  lemma AsWrittenAgreesUnlessItThrows(doc: Document)
    requires doc.ResourceDocument?
    ensures !ValidateAsWritten(doc).Raise? ==> ValidateAsWritten(doc) == Validate(doc)
  {
    var a, rel := Attributes(doc), Relationships(doc);
    if a.JObj? && rel.JObj? {
      AsWrittenAgreesOnObjects(doc);
    } else {
      var dups := DuplicateKeysAsWritten(doc);
      assert a.JNull? ==> a == JList([]);
      assert rel.JNull? ==> rel == JList([]);
      var other := if a.JObj? then rel else a;
      assert forall k :: k in dups ==> k in CastKeys(other);
      assert forall k :: k in CastKeys(other) ==> k.IntKey?;
      if dups != [] {
        assert dups[0] in dups;
        assert ValidateAsWritten(doc).Raise?;
      } else {
        assert DuplicateNames(a, rel) == [];
        assert Errors(doc) == [];
      }
    }
  }

  /** Two objects that share a decimal integer name, such as
      `{"attributes": {"1": ...}, "relationships": {"1": ...}}`: as written
      the stage throws; corrected, it reports the name as a duplicate. */
  lemma SharedIntegerNameCrashesAsWritten(doc: Document, n: string)
    requires doc.ResourceDocument?
    requires Attributes(doc).JObj? && Has(Attributes(doc).members, n)
    requires Relationships(doc).JObj? && Has(Relationships(doc).members, n)
    requires IntegerKey(n).Some?
    ensures ValidateAsWritten(doc).Raise?
    ensures ResourceFieldExistsInAttributesAndRelationships(n, "/data") in Validate(doc).doc.errors
  {
    var names := DuplicateNames(Attributes(doc), Relationships(doc));
    assert n in names;
    AsWrittenAgreesOnObjects(doc);
    var i :| 0 <= i < |names| && names[i] == n;
    assert Errors(doc)[i] == ResourceFieldExistsInAttributesAndRelationships(n, "/data");
  }

  /** On objects (or the empty default) the shared keys are the shared names,
      cast. */
  lemma SameDuplicates(a: Json, rel: Json)
    requires a.JObj? || a == JList([])
    requires rel.JObj? || rel == JList([])
    ensures var dups := Common(CastKeys(a), CastKeys(rel));
            var names := DuplicateNames(a, rel);
            |dups| == |names| && forall i :: 0 <= i < |dups| ==> dups[i] == CastName(names[i])
  {
    var dups := Common(CastKeys(a), CastKeys(rel));
    if a.JObj? && rel.JObj? {
      CommonOfNames(a.members, rel.members);
    } else {
      assert CastKeys(a) == [] || CastKeys(rel) == [];
    }
  }

  /** On objects, the shared cast keys are the shared member names, each
      cast. */
  lemma {:induction false} CommonOfNames(xs: Members, ys: Members)
    ensures var ks := Common(CastKeys(JObj(xs)), CastKeys(JObj(ys)));
            var ns := Common(Keys(xs), Keys(ys));
            |ks| == |ns| && forall i :: 0 <= i < |ks| ==> ks[i] == CastName(ns[i])
    decreases |xs|
  {
    if xs != [] {
      var cx, cy := CastKeys(JObj(xs)), CastKeys(JObj(ys));
      var kx, ky := Keys(xs), Keys(ys);
      var first := xs[0].0;
      var tail := CastKeys(JObj(xs[1..]));
      assert cx[0] == CastName(first) && cx[1..] == tail;
      assert kx[0] == first && kx[1..] == Keys(xs[1..]);
      assert CastName(first) in cy <==> first in ky by {
        CastNameIn(first, ys);
      }
      var hk := if CastName(first) in cy then [CastName(first)] else [];
      var hn := if first in ky then [first] else [];
      assert Common(cx, cy) == hk + Common(tail, cy);
      assert Common(kx, ky) == hn + Common(Keys(xs[1..]), ky);
      CommonOfNames(xs[1..], ys);
      NamesMatchAppend(hk, Common(tail, cy), hn, Common(Keys(xs[1..]), ky));
    }
  }

  /** Key lists that match name lists pointwise still do once appended. */
  lemma NamesMatchAppend(k1: seq<Key>, k2: seq<Key>, n1: seq<string>, n2: seq<string>)
    requires |k1| == |n1| && forall i :: 0 <= i < |k1| ==> k1[i] == CastName(n1[i])
    requires |k2| == |n2| && forall i :: 0 <= i < |k2| ==> k2[i] == CastName(n2[i])
    ensures |k1 + k2| == |n1 + n2| && forall i :: 0 <= i < |k1 + k2| ==> (k1 + k2)[i] == CastName((n1 + n2)[i])
  {
  }

  /** A name's key is among an object's cast keys exactly when the name is a
      member name. */
  lemma CastNameIn(n: string, ys: Members)
    ensures CastName(n) in CastKeys(JObj(ys)) <==> n in Keys(ys)
  {
    var cy, ky := CastKeys(JObj(ys)), Keys(ys);
    if CastName(n) in cy {
      var j :| 0 <= j < |cy| && cy[j] == CastName(n);
      CastNameInjective(ky[j], n);
    }
    if n in ky {
      var j :| 0 <= j < |ky| && ky[j] == n;
      assert cy[j] == CastName(n);
    }
  }

  /** A document whose `attributes` and `relationships` are both scalars
      (strings, numbers or booleans) makes the stage as written throw, since
      both cast to arrays with the integer key 0, while the corrected stage
      records nothing (the attributes and relationships stages report
      them). */
  lemma ScalarMembersCrashAsWritten(doc: Document)
    requires doc.ResourceDocument?
    requires !Attributes(doc).JObj? && !Attributes(doc).JList? && !Attributes(doc).JNull?
    requires !Relationships(doc).JObj? && !Relationships(doc).JList? && !Relationships(doc).JNull?
    ensures ValidateAsWritten(doc).Raise? && Validate(doc) == Next(doc)
  {
    assert CastKeys(Attributes(doc)) == [IntKey(0)];
    assert CastKeys(Relationships(doc)) == [IntKey(0)];
    assert IntKey(0) in DuplicateKeysAsWritten(doc);
    assert DuplicateNames(Attributes(doc), Relationships(doc)) == [];
    assert doc.WithErrors([]) == doc;
  }

  /** For instance `{"data": {"type": "posts", "attributes": "x",
      "relationships": "y"}}`. */
  lemma StringMembersReadAsScalars()
    ensures var data := JObj([("type", JStr("posts")), ("attributes", JStr("x")), ("relationships", JStr("y"))]);
            var doc := NewResourceDocument([("data", data)], "posts", None);
            Attributes(doc) == JStr("x") && Relationships(doc) == JStr("y")
  {
    var data := JObj([("type", JStr("posts")), ("attributes", JStr("x")), ("relationships", JStr("y"))]);
    var doc := NewResourceDocument([("data", data)], "posts", None);
    assert IsSet(doc.body, "data") && Lookup(doc.body, "data") == Some(data);
    assert Lookup(data.members, "attributes") == Some(JStr("x")) by {
      assert data.members[1..][0] == ("attributes", JStr("x"));
    }
    assert Lookup(data.members, "relationships") == Some(JStr("y")) by {
      assert data.members[1..][1..][0] == ("relationships", JStr("y"));
    }
    DataGetTwoSegments(doc.body, "data", "attributes", JList([]));
    DataGetTwoSegments(doc.body, "data", "relationships", JList([]));
  }
}

=== FILE: id_validator.dfy ===
/** The resource-document stage for updates: when the endpoint names an
    existing resource, `data.id` must be present and equal to its id.
    Never stops.

    As written the stage is skipped when the expected id is falsy in PHP,
    which includes "0" — a value `idIsEmpty` deliberately treats as a real
    id — so for resource "0" neither this stage nor the client-id stage
    looks at `data.id`. The corrected stage runs exactly when the document
    `expectsId()`, the complement of the client-id stage. */
module IdValidator {
  import opened Wrappers
  import opened PhpStrings
  import opened JsonValues
  import opened Schema
  import opened Translator
  import opened Documents
  import Identifier
  import ClientIdValidator

  /** As written: `if (!$expected = $document->id())` skips null, "" and "0". */
  predicate ChecksAsWritten(doc: Document)
    requires doc.ResourceDocument?
  {
    doc.resourceId.Some? && !Falsy(doc.resourceId.value)
  }

  /** Corrected: the stage runs exactly when the endpoint names a resource. */
  predicate Checks(doc: Document)
    requires doc.ResourceDocument?
  {
    doc.ExpectsId()
  }

  /** `accept`: the error for the `id` value, checked in order: not a
      string, empty, not the expected id. */
  function Accept(expected: string, value: Json): (r: Option<Error>)
    ensures r.None? <==> value == JStr(expected) && !Identifier.IdIsEmpty(Some(expected))
    ensures r.Some? ==> r.value.pointer == Some("/data/id")
    ensures r.Some? && value.JStr? && !Identifier.IdIsEmpty(Some(value.s))
            ==> r.value == ResourceIdNotSupported(value.s, "/data") && r.value.status == 409
  {
    assert TrimTrailingSlashes("/data") == "/data";
    assert "/data" + "/" + "id" == "/data/id";
    match value
    case JStr(s) =>
      if Identifier.IdIsEmpty(Some(s)) then Some(MemberEmpty("/data", "id"))
      else if expected != s then Some(ResourceIdNotSupported(s, "/data"))
      else None
    case _ => Some(MemberNotString("/data", "id"))
  }

  /** The errors of the checks themselves: a missing `id` (reported at
      `/data`), or the error of its value. */
  function CheckErrors(doc: Document): (r: seq<Error>)
    requires doc.ResourceDocument? && doc.resourceId.Some? && HasObjectData(doc)
    ensures |r| == 1 <==> !Has(DataMember(doc).members, "id")
                          || Lookup(DataMember(doc).members, "id") != Some(JStr(doc.resourceId.value))
                          || Identifier.IdIsEmpty(doc.resourceId)
    ensures |r| <= 1
    ensures !Has(DataMember(doc).members, "id") ==> r == [MemberRequired("/data", "id")]
  {
    var ms := DataMember(doc).members;
    if !Has(ms, "id") then [MemberRequired("/data", "id")]
    else match Accept(doc.resourceId.value, Lookup(ms, "id").value)
      case Some(e) => [e]
      case None => []
  }

  /** The errors the corrected stage records. */
  function Errors(doc: Document): (r: seq<Error>)
    requires doc.ResourceDocument? && (Checks(doc) ==> HasObjectData(doc))
    ensures r == [] <==> !Checks(doc) || Lookup(DataMember(doc).members, "id") == Some(JStr(doc.resourceId.value))
  {
    if Checks(doc) then CheckErrors(doc) else []
  }

  /** The errors the stage records as written. */
  function ErrorsAsWritten(doc: Document): (r: seq<Error>)
    requires doc.ResourceDocument? && (ChecksAsWritten(doc) ==> HasObjectData(doc))
    ensures !ChecksAsWritten(doc) ==> r == []
    ensures ChecksAsWritten(doc) ==> r == CheckErrors(doc)
  {
    if ChecksAsWritten(doc) then CheckErrors(doc) else []
  }

  /** What the checks do with a `data` that is not an object: a string has
      no `id` (`property_exists` looks for a class of that name), anything
      else throws. */
  function NonObjectData(doc: Document): (r: Outcome)
    requires doc.ResourceDocument? && !HasObjectData(doc)
    ensures r.Raise? <==> !DataMember(doc).JStr?
    ensures r.Next? ==> r.doc == doc.WithErrors([MemberRequired("/data", "id")])
  {
    if DataMember(doc).JStr? then Next(doc.WithErrors([MemberRequired("/data", "id")]))
    else Raise("TypeError: property_exists() needs an object")
  }

  /** `validate` (corrected): records the errors and always hands the document on. */
  function Validate(doc: Document): (r: Outcome)
    requires doc.ResourceDocument?
    ensures r.Raise? <==> Checks(doc) && !HasObjectData(doc) && !DataMember(doc).JStr?
    ensures !r.Stop?
    ensures r.Next? && (Checks(doc) ==> HasObjectData(doc)) ==> r.doc == doc.WithErrors(Errors(doc))
    ensures Checks(doc) && DataMember(doc).JStr? ==> r == Next(doc.WithErrors([MemberRequired("/data", "id")]))
  {
    if Checks(doc) && !HasObjectData(doc) then NonObjectData(doc)
    else Next(doc.WithErrors(Errors(doc)))
  }

  /** `validate` as written. */
  function ValidateAsWritten(doc: Document): (r: Outcome)
    requires doc.ResourceDocument?
    ensures r.Raise? <==> ChecksAsWritten(doc) && !HasObjectData(doc) && !DataMember(doc).JStr?
    ensures !r.Stop?
    ensures r.Next? && (ChecksAsWritten(doc) ==> HasObjectData(doc)) ==> r.doc == doc.WithErrors(ErrorsAsWritten(doc))
    ensures ChecksAsWritten(doc) && DataMember(doc).JStr?
            ==> r == Next(doc.WithErrors([MemberRequired("/data", "id")]))
  {
    if ChecksAsWritten(doc) && !HasObjectData(doc) then NonObjectData(doc)
    else Next(doc.WithErrors(ErrorsAsWritten(doc)))
  }

  /** Where the two gates disagree: "0" passes only the corrected gate, and
      an id that is not falsy but trims to nothing or to "0" (" ", " 0 ")
      passes only the gate as written. Anywhere else the stage as written is
      the corrected stage. */
  lemma WhereTheGatesDisagree(doc: Document)
    requires doc.ResourceDocument?
    ensures Checks(doc) && !ChecksAsWritten(doc) <==> doc.resourceId == Some("0")
    ensures ChecksAsWritten(doc) && !Checks(doc)
            <==> doc.resourceId.Some? && !Falsy(doc.resourceId.value) && Identifier.IdIsEmpty(doc.resourceId)
    ensures ChecksAsWritten(doc) == Checks(doc) ==> ValidateAsWritten(doc) == Validate(doc)
  {
  }

  /** Corrected, exactly one of the two id stages looks at `data.id`, and
      only the expected resource's own id passes an update. */
  lemma ExactlyOneStageChecksTheId(doc: Document)
    requires doc.ResourceDocument? && HasObjectData(doc)
    ensures ClientIdValidator.Checks(doc) != Checks(doc)
    ensures Checks(doc) ==> (Errors(doc) == [] <==> Lookup(DataMember(doc).members, "id") == Some(JStr(doc.resourceId.value)))
  {
  }

  /** For resource "0" neither id stage runs as written, while the
      corrected stage does. */
  lemma ZeroIdSkippedAsWritten(spec: Specification, doc: Document)
    requires doc.ResourceDocument? && doc.resourceId == Some("0") && HasObjectData(doc)
    ensures Checks(doc) && !ClientIdValidator.Checks(doc) && !ChecksAsWritten(doc)
    ensures ClientIdValidator.Errors(spec, doc) == [] && ErrorsAsWritten(doc) == []
  {
    assert !Identifier.IdIsEmpty(Some("0"));
  }

  /** When the stage runs, a non-empty id other than the expected one is a
      409 conflict at `/data/id`, and the only error. */
  lemma OtherIdIsAConflict(doc: Document, id: string)
    requires doc.ResourceDocument? && HasObjectData(doc) && Checks(doc)
    requires Lookup(DataMember(doc).members, "id") == Some(JStr(id))
    requires id != doc.resourceId.value && !Identifier.IdIsEmpty(Some(id))
    ensures Errors(doc) == [ResourceIdNotSupported(id, "/data")]
  {
    assert Has(DataMember(doc).members, "id");
    assert Accept(doc.resourceId.value, JStr(id)) == Some(ResourceIdNotSupported(id, "/data"));
  }

  /** As written, updating resource "0" with a document for resource "1"
      passes both id stages without an error; corrected, it is rejected
      with a 409 at `/data/id`. */
  lemma ZeroIdIsNeverCompared(spec: Specification)
    ensures var doc := NewResourceDocument([("data", JObj([("type", JStr("posts")), ("id", JStr("1"))]))], "posts", Some("0"));
            && !ClientIdValidator.Checks(doc) && !ChecksAsWritten(doc)
            && ClientIdValidator.Errors(spec, doc) == []
            && ErrorsAsWritten(doc) == []
            && Errors(doc) == [ResourceIdNotSupported("1", "/data")]
  {
    var data := JObj([("type", JStr("posts")), ("id", JStr("1"))]);
    var doc := NewResourceDocument([("data", data)], "posts", Some("0"));
    assert DataMember(doc) == data;
    ZeroIdSkippedAsWritten(spec, doc);
    assert !Identifier.IdIsEmpty(Some("1")) by {
      assert !IsTrimChar("1"[0]);
    }
    assert Lookup(data.members, "id") == Some(JStr("1")) by {
      assert data.members[1..] == [("id", JStr("1"))];
    }
    OtherIdIsAConflict(doc, "1");
  }

  /** Updating resource "0" with a document for resource "0" passes both id
      stages, as written and corrected alike. */
  lemma ZeroIdUpdateIsAccepted(spec: Specification, data: Members)
    requires Lookup(data, "id") == Some(JStr("0"))
    ensures var doc := NewResourceDocument([("data", JObj(data))], "posts", Some("0"));
            && ClientIdValidator.Errors(spec, doc) == []
            && ErrorsAsWritten(doc) == []
            && Errors(doc) == []
  {
    var doc := NewResourceDocument([("data", JObj(data))], "posts", Some("0"));
    assert DataMember(doc) == JObj(data);
    ZeroIdSkippedAsWritten(spec, doc);
  }
}

=== FILE: identifier.dfy ===
/** A resource identifier object `{type, id}` (JSON:API 1.0, "Resource
    Identifier Objects"), optionally scoped to the relation it appears in,
    which restricts the acceptable types to the relation's inverse types. */
module Identifier {
  import opened Wrappers
  import opened PhpStrings
  import opened JsonValues
  import opened Schema
  import opened Translator
  import Value

  /** An identifier value: the raw fragment, where it sits, and the relation
      (if any) that scopes it. */
  datatype IdentifierValue = IdentifierValue(path: string, value: Json, relation: Option<Relation>)

  /** `idIsEmpty`: null is empty, "0" never is, and any other string is empty
      when trimming leaves nothing or only "0" (so "", "   " and " 0 " are). */
  function IdIsEmpty(id: Option<string>): (r: bool)
    ensures id.None? ==> r
    ensures id == Some("0") ==> !r
    ensures id.Some? && AllTrimChars(id.value) ==> r
    ensures !r ==> id.Some? && !AllTrimChars(id.value)
    ensures r && id.Some? && !AllTrimChars(id.value) ==> id.value != "0" && Trim(id.value) == "0"
  {
    match id
    case None => true
    case Some(s) =>
      if s == "0" then assert !IsTrimChar(s[0]); false
      else Falsy(Trim(s))
  }

  /** "0" surrounded by trim characters is empty exactly when the padding is
      not itself empty: " 0 " and "\t0\n" are empty ids, "0" is not. */
  lemma PaddedZeroIdIsEmpty(before: string, after: string)
    requires AllTrimChars(before) && AllTrimChars(after)
    ensures IdIsEmpty(Some(before + "0" + after)) <==> before != "" || after != ""
  {
    var s := before + "0" + after;
    TrimPaddedZero(before, after);
    assert s == "0" <==> before == "" && after == "";
  }

  /** `validateType`: at most one error, checked in order: missing, not a
      string, falsy ("" or "0"), not a recognised type. */
  function ValidateType(spec: Specification, path: string, ms: Members): (r: Option<Error>)
    ensures r.None? <==> (var t := StringMember(ms, "type"); t.Some? && !Falsy(t.value) && t.value in spec.types)
    ensures r.Some? ==> r.value.status == 400
    ensures r.Some? ==> (r.value.key == "member_required" <==> !Has(ms, "type"))
    ensures r.Some? && !Has(ms, "type") ==> r.value.pointer == Some(path)
    ensures r.Some? && Has(ms, "type") ==> r.value.pointer == Some(Pointer(path, Some("type")))
    ensures r.Some? && Has(ms, "type") && StringMember(ms, "type").None? ==> r.value.key == "member_string_expected"
    ensures r.Some? ==> r.value.key in {"member_required", "member_string_expected", "member_empty", "resource_type_not_recognised"}
  {
    if !Has(ms, "type") then Some(MemberRequired(path, "type"))
    else match Lookup(ms, "type").value
      case JStr(t) =>
        if Falsy(t) then Some(MemberEmpty(path, "type"))
        else if t !in spec.types then Some(ResourceTypeNotRecognised(t, path))
        else None
      case _ => Some(MemberNotString(path, "type"))
  }

  /** `validateId`: at most one error, checked in order: missing, not a
      string, empty by `idIsEmpty`. */
  function ValidateId(path: string, ms: Members): (r: Option<Error>)
    ensures r.None? <==> (var id := StringMember(ms, "id"); id.Some? && !IdIsEmpty(id))
    ensures r.Some? ==> r.value.status == 400
    ensures r.Some? ==> (r.value.key == "member_required" <==> !Has(ms, "id"))
    ensures r.Some? && !Has(ms, "id") ==> r.value.pointer == Some(path)
    ensures r.Some? && Has(ms, "id") ==> r.value.pointer == Some(Pointer(path, Some("id")))
    ensures r.Some? ==> r.value.key in {"member_required", "member_string_expected", "member_empty"}
  {
    if !Has(ms, "id") then Some(MemberRequired(path, "id"))
    else match Lookup(ms, "id").value
      case JStr(id) =>
        if IdIsEmpty(Some(id)) then Some(MemberEmpty(path, "id")) else None
      case _ => Some(MemberNotString(path, "id"))
  }

  /** `pathForTypeAndId`: a list element reports at its own path; otherwise an
      identifier inside `/relationships/` reports at its relationship object
      (its parent); otherwise at its own path. */
  function PathForTypeAndId(path: string): string {
    if IsNumeric(Value.Member(path)) then path
    else if Contains(path, "/relationships/") then Value.Parent(path)
    else path
  }

  /** `validateTypeAndId`: the relation-inverse check first, and only when the
      type is accepted is the existence of the resource consulted. */
  function ValidateTypeAndId(spec: Specification, path: string, t: string, id: string,
                             relation: Option<Relation>): (r: Option<Error>)
    ensures r.None? <==> (relation.None? || t in relation.value.allInverse) && spec.resourceExists(t, id)
    ensures r.Some? ==> r.value.pointer == Some(PathForTypeAndId(path))
    ensures r.Some? && relation.Some? && t !in relation.value.allInverse
            ==> r.value == ResourceTypeNotSupportedByRelationship(relation.value, PathForTypeAndId(path))
    ensures r.Some? && (relation.None? || t in relation.value.allInverse) ==> r.value.key == "resource_not_found"
    ensures r.Some? ==> r.value.status == 404 || r.value.status == 422
  {
    if relation.Some? && t !in relation.value.allInverse then
      Some(ResourceTypeNotSupportedByRelationship(relation.value, PathForTypeAndId(path)))
    else if !spec.resourceExists(t, id) then
      Some(ResourceDoesNotExist(PathForTypeAndId(path)))
    else None
  }

  function OptionToSeq(e: Option<Error>): (r: seq<Error>)
    ensures |r| <= 1
  {
    if e.Some? then [e.value] else []
  }

  /** What a compliant identifier is, stated independently of the order of
      the checks: an object whose type is a recognised non-empty string and
      whose id is a non-empty string, with no resource-object members, whose
      type the relation accepts, and which names an existing resource. */
  predicate Acceptable(spec: Specification, value: Json, relation: Option<Relation>) {
    match value
    case JObj(ms) =>
      var t := StringMember(ms, "type");
      var id := StringMember(ms, "id");
      && t.Some? && !Falsy(t.value) && t.value in spec.types
      && id.Some? && !IdIsEmpty(id)
      && !Has(ms, "attributes") && !Has(ms, "relationships")
      && (relation.None? || t.value in relation.value.allInverse)
      && spec.resourceExists(t.value, id.value)
    case _ => false
  }

  /** The errors of the structural checks: type, id, then resource-object members. */
  function StructuralErrors(spec: Specification, path: string, ms: Members): (r: seq<Error>)
    ensures r == [] <==> ValidateType(spec, path, ms).None? && ValidateId(path, ms).None?
                         && !Has(ms, "attributes") && !Has(ms, "relationships")
    ensures |r| <= 3
    ensures forall e :: e in r ==> e.status == 400
    ensures MemberNotIdentifier(Value.Parent(path), Value.Member(path)) in r
            <==> Has(ms, "attributes") || Has(ms, "relationships")
  {
    var te := ValidateType(spec, path, ms);
    var ie := ValidateId(path, ms);
    var notIdentifier := MemberNotIdentifier(Value.Parent(path), Value.Member(path));
    var head := OptionToSeq(te) + OptionToSeq(ie);
    assert forall e :: e in head ==> e.status == 400 && e.key != notIdentifier.key;
    assert head == [] <==> te.None? && ie.None?;
    head + (if Has(ms, "attributes") || Has(ms, "relationships") then [notIdentifier] else [])
  }

  /** `validate`: a non-object gets exactly one error and nothing else is
      checked; otherwise the type, id and resource-object checks each add at
      most one error, and the relation/existence check runs only when they
      found nothing. */
  function Validate(spec: Specification, path: string, value: Json, relation: Option<Relation>): (r: seq<Error>)
    ensures r == [] <==> Acceptable(spec, value, relation)
    ensures |r| <= 3
    ensures !value.JObj? ==> r == [MemberNotObject(Value.Parent(path), Value.Member(path))]
    ensures value.JObj? ==> (MemberNotIdentifier(Value.Parent(path), Value.Member(path)) in r
                             <==> Has(value.members, "attributes") || Has(value.members, "relationships"))
    ensures forall e :: e in r && (e.status == 404 || e.status == 422) ==> r == [e]
  {
    match value
    case JObj(ms) =>
      var structural := StructuralErrors(spec, path, ms);
      if structural != [] then structural
      else
        var t := StringMember(ms, "type").value;
        var id := StringMember(ms, "id").value;
        OptionToSeq(ValidateTypeAndId(spec, path, t, id, relation))
    case _ => [MemberNotObject(Value.Parent(path), Value.Member(path))]
  }

  /** The errors of an identifier value. */
  function Errors(spec: Specification, iv: IdentifierValue): seq<Error> {
    Validate(spec, iv.path, iv.value, iv.relation)
  }

  /** `type()`, defined only for a valid identifier. */
  function Type(spec: Specification, iv: IdentifierValue): (t: string)
    requires Errors(spec, iv) == []
    ensures iv.value.JObj? && Lookup(iv.value.members, "type") == Some(JStr(t))
    ensures !Falsy(t) && t in spec.types
    ensures iv.relation.Some? ==> t in iv.relation.value.allInverse
  {
    StringMember(iv.value.members, "type").value
  }

  /** `id()`, defined only for a valid identifier. */
  function Id(spec: Specification, iv: IdentifierValue): (id: string)
    requires Errors(spec, iv) == []
    ensures iv.value.JObj? && Lookup(iv.value.members, "id") == Some(JStr(id))
    ensures !IdIsEmpty(Some(id))
    ensures spec.resourceExists(Type(spec, iv), id)
  {
    StringMember(iv.value.members, "id").value
  }

  /** An object holding exactly a recognised type and a non-empty id passes
      every structural check, wherever it sits. */
  lemma TypeAndIdObjectIsWellFormed(spec: Specification, path: string, t: string, id: string)
    requires t in spec.types && !Falsy(t) && !IdIsEmpty(Some(id))
    ensures StructuralErrors(spec, path, [("type", JStr(t)), ("id", JStr(id))]) == []
  {
    var ms: Members := [("type", JStr(t)), ("id", JStr(id))];
    assert ValidateType(spec, path, ms).None? by {
      assert Lookup(ms, "type") == Some(JStr(t));
    }
    assert ValidateId(path, ms).None? by {
      assert Lookup(ms, "id") == Some(JStr(id)) by {
        assert ms[1..] == [("id", JStr(id))];
      }
    }
    assert !Has(ms, "attributes") && !Has(ms, "relationships") by {
      assert Keys(ms) == ["type", "id"];
    }
  }

  // ---- where type-and-id errors point ----

  /** An element of a to-many list (its last segment is an index) reports a
      relation mismatch or a missing resource at its own path. */
  lemma ListElementReportsAtOwnPath(base: string, i: nat)
    ensures PathForTypeAndId(base + "/" + NatToString(i)) == base + "/" + NatToString(i)
  {
    Value.ChildPath(base, NatToString(i));
  }

  /** The error points at `p` or somewhere below it. */
  predicate PointsWithin(e: Error, p: string) {
    e.pointer.Some? && StartsWith(e.pointer.value, p)
  }

  /** Every error of an identifier whose last segment is an index points at
      the identifier itself or below it, so a list element's errors never
      spill onto its neighbours. */
  lemma ElementErrorsPointWithin(spec: Specification, base: string, m: string, value: Json,
                                 relation: Option<Relation>)
    requires IsNumeric(m) && '/' !in m
    requires !Falsy(base) && base[|base| - 1] != '/'
    ensures forall e :: e in Validate(spec, base + "/" + m, value, relation) ==> PointsWithin(e, base + "/" + m)
  {
    var path := base + "/" + m;
    Value.ChildPath(base, m);
    assert TrimTrailingSlashes(base) == base;
    assert TrimTrailingSlashes(path) == path by {
      assert path[|path| - 1] == m[|m| - 1];
      assert IsDigit(m[|m| - 1]);
    }
    assert Pointer(Value.Parent(path), Some(Value.Member(path))) == path;
    assert PathForTypeAndId(path) == path;
    if value.JObj? {
      StructuralErrorsPointWithin(spec, path, value.members);
    }
  }

  lemma StructuralErrorsPointWithin(spec: Specification, path: string, ms: Members)
    requires TrimTrailingSlashes(path) == path
    requires Pointer(Value.Parent(path), Some(Value.Member(path))) == path
    ensures forall e :: e in StructuralErrors(spec, path, ms) ==> PointsWithin(e, path)
  {
    var te := ValidateType(spec, path, ms);
    var ie := ValidateId(path, ms);
    var notIdentifier := MemberNotIdentifier(Value.Parent(path), Value.Member(path));
    assert PointsWithin(notIdentifier, path) by {
      assert path[..|path|] == path;
    }
    MemberErrorPointsWithin(path, "type", te);
    MemberErrorPointsWithin(path, "id", ie);
    var extra := if Has(ms, "attributes") || Has(ms, "relationships") then [notIdentifier] else [];
    assert StructuralErrors(spec, path, ms) == OptionToSeq(te) + OptionToSeq(ie) + extra;
    AllPointWithin(OptionToSeq(te), OptionToSeq(ie), extra, path);
  }

  /** Three lists whose errors all lie within `p` concatenate to one. */
  lemma AllPointWithin(a: seq<Error>, b: seq<Error>, c: seq<Error>, p: string)
    requires forall e :: e in a ==> PointsWithin(e, p)
    requires forall e :: e in b ==> PointsWithin(e, p)
    requires forall e :: e in c ==> PointsWithin(e, p)
    ensures forall e :: e in a + b + c ==> PointsWithin(e, p)
  {
  }

  /** An error at the value itself or at one of its members lies within it. */
  lemma MemberErrorPointsWithin(path: string, member: string, e: Option<Error>)
    requires TrimTrailingSlashes(path) == path && member != ""
    requires e.Some? ==> e.value.pointer == Some(path) || e.value.pointer == Some(Pointer(path, Some(member)))
    ensures e.Some? ==> PointsWithin(e.value, path)
  {
    assert path[..|path|] == path;
    assert (path + "/" + member)[..|path|] == path;
  }

  /** A to-one identifier in a resource document (at
      `/data/relationships/{name}/data`) reports at its relationship object. */
  lemma ToOneInResourceReportsAtRelationship(name: string)
    requires '/' !in name
    ensures PathForTypeAndId("/data/relationships/" + name + "/data") == "/data/relationships/" + name
  {
    var base := "/data/relationships/" + name;
    var p := base + "/" + "data";
    assert p == "/data/relationships/" + name + "/data";
    RelationshipDataPathSplits(base);
    RelationshipDataPathIsBelowRelationships(name);
  }

  lemma RelationshipDataPathSplits(base: string)
    requires |base| > 1
    ensures Value.Member(base + "/" + "data") == "data"
    ensures Value.Parent(base + "/" + "data") == base
    ensures !IsNumeric("data")
  {
    Value.ChildPath(base, "data");
    assert !IsDigit("data"[0]);
  }

  lemma RelationshipDataPathIsBelowRelationships(name: string)
    ensures Contains("/data/relationships/" + name + "/" + "data", "/relationships/")
  {
    assert "/data/relationships/" + name + "/" + "data" == "/data" + "/relationships/" + (name + "/data");
    ContainsInfix("/data", "/relationships/", name + "/data");
  }

  /** A to-one identifier in a relationship document (at `/data`) reports at
      `/data`. */
  lemma ToOneInRelationDocumentReportsAtData()
    ensures PathForTypeAndId("/data") == "/data"
  {
    Value.ChildPath("", "data");
    assert "" + "/" + "data" == "/data";
    assert !IsNumeric("data") by { assert !IsDigit("data"[0]); }
    ShortDoesNotContain("/data", "/relationships/");
  }

  // ---- what is consulted ----

  /** When the relation does not accept the type, the answer of `exists()`
      cannot change the result: it is not consulted. */
  lemma InverseMismatchDoesNotConsultExists(spec1: Specification, spec2: Specification, path: string,
                                            value: Json, relation: Relation)
    requires spec1.types == spec2.types
    requires value.JObj? && StringMember(value.members, "type").Some?
    requires StringMember(value.members, "type").value !in relation.allInverse
    ensures Validate(spec1, path, value, Some(relation)) == Validate(spec2, path, value, Some(relation))
  {
  }

  /** A recognised type outside the relation's inverse types, on an otherwise
      well-formed identifier, gives exactly the relation-type error. */
  lemma InverseMismatchIsTheOnlyError(spec: Specification, path: string, value: Json, relation: Relation)
    requires value.JObj?
    requires StructuralErrors(spec, path, value.members) == []
    requires StringMember(value.members, "type").value !in relation.allInverse
    ensures Validate(spec, path, value, Some(relation))
         == [ResourceTypeNotSupportedByRelationship(relation, PathForTypeAndId(path))]
  {
  }
}

=== FILE: json_decoder.dfy ===
/** Turning the request body into the top-level JSON object. The JSON parser
    itself (`json_decode` with a nesting limit of 512) is a parameter: the
    model fixes only what is done with its answer. */
module JsonDecoder {
  import opened Wrappers
  import opened PhpStrings
  import opened JsonValues
  import opened Translator

  /** What the parser returns: a value, or its failure code and message. */
  datatype ParseResult = Parsed(value: Json) | ParseFailed(code: nat, message: string)

  /** `decode`: a body that trims to "" or "0" is empty and is never parsed;
      a parse failure carries the parser's code and message; anything but an
      object is rejected; an object is returned as parsed. */
  function Decode(text: string, parse: string -> ParseResult): (r: Result<Members, Error>)
    ensures Falsy(Trim(text)) ==> r == Failure(JsonEmpty())
    ensures !Falsy(Trim(text)) && parse(text).ParseFailed?
            ==> r == Failure(JsonError(parse(text).code, parse(text).message))
    ensures r.Success? <==> !Falsy(Trim(text)) && parse(text).Parsed? && parse(text).value.JObj?
    ensures r.Success? ==> parse(text) == Parsed(JObj(r.value))
    ensures r.Failure? ==> r.error.status == 400 && r.error.pointer.None?
  {
    if Falsy(Trim(text)) then Failure(JsonEmpty())
    else match parse(text)
      case ParseFailed(code, message) => Failure(JsonError(code, message))
      case Parsed(JObj(ms)) => Success(ms)
      case Parsed(_) => Failure(JsonNotObject())
  }

  /** An empty body is rejected whatever the parser would say. */
  lemma BlankTextIsNeverParsed(text: string, parse1: string -> ParseResult, parse2: string -> ParseResult)
    requires AllTrimChars(text)
    ensures Decode(text, parse1) == Decode(text, parse2) == Failure(JsonEmpty())
  {
  }

  /** The body `0`, padded or not, is reported as empty rather than as a
      non-object, because "0" is falsy in PHP. */
  lemma ZeroBodyIsReportedEmpty(before: string, after: string, parse: string -> ParseResult)
    requires AllTrimChars(before) && AllTrimChars(after)
    ensures Decode(before + "0" + after, parse) == Failure(JsonEmpty())
  {
    TrimPaddedZero(before, after);
  }
}

=== FILE: json_values.dfy ===
/** The decoded JSON tree the validators inspect: what `json_decode($json, false)`
    yields, as a tagged union. Objects keep their members in document order,
    because error order follows key order. A decoded object never repeats a
    key; lookups take the first occurrence. */
module JsonValues {
  import opened Wrappers

  datatype Json =
    | JNull
    | JBool(b: bool)
    | JNum(literal: string)
    | JStr(s: string)
    | JList(items: seq<Json>)
    | JObj(members: Members)

  /** The members of an object (`stdClass`), in document order. */
  type Members = seq<(string, Json)>

  /** The member names of an object, in document order (`get_object_vars`'s keys). */
  function Keys(ms: Members): (r: seq<string>)
    ensures |r| == |ms|
    ensures forall i :: 0 <= i < |ms| ==> r[i] == ms[i].0
  {
    if |ms| == 0 then [] else [ms[0].0] + Keys(ms[1..])
  }

  /** `property_exists($object, $k)`: the member is present, whatever its value. */
  predicate Has(ms: Members, k: string) {
    k in Keys(ms)
  }

  /** `$object->{$k}`: the value of the first member named `k`. */
  function Lookup(ms: Members, k: string): (r: Option<Json>)
    ensures r.Some? <==> Has(ms, k)
    ensures r.Some? ==> (k, r.value) in ms
  {
    if |ms| == 0 then None
    else if ms[0].0 == k then Some(ms[0].1)
    else
      var r := Lookup(ms[1..], k);
      assert Keys(ms) == [ms[0].0] + Keys(ms[1..]);
      r
  }

  /** `isset($object->{$k})`: the member is present AND not null. */
  predicate IsSet(ms: Members, k: string) {
    var v := Lookup(ms, k);
    v.Some? && !v.value.JNull?
  }

  /** The member's value when it is a JSON string (`is_string`), else None. */
  function StringMember(ms: Members, k: string): (r: Option<string>)
    ensures r.Some? <==> (Has(ms, k) && Lookup(ms, k).value.JStr?)
  {
    match Lookup(ms, k)
    case Some(JStr(s)) => Some(s)
    case _ => None
  }

  /** A member present with value null is set for `property_exists` and not for `isset`. */
  lemma NullMemberIsPresentButNotSet(ms: Members, k: string)
    requires Lookup(ms, k) == Some(JNull)
    ensures Has(ms, k) && !IsSet(ms, k)
  {
  }

  /** A JSON number literal denotes zero: no digit other than `0` comes
      before the exponent. */
  predicate NumIsZero(literal: string) {
    || literal == []
    || literal[0] == 'e' || literal[0] == 'E'
    || (!('1' <= literal[0] <= '9') && NumIsZero(literal[1..]))
  }

  /** PHP truthiness of a decoded value (`if ($data)`): null, false, zero, the
      strings "" and "0" and the empty array are falsy; every object is truthy. */
  predicate Truthy(v: Json) {
    match v
    case JNull => false
    case JBool(b) => b
    case JNum(literal) => !NumIsZero(literal)
    case JStr(s) => s != "" && s != "0"
    case JList(items) => items != []
    case JObj(_) => true
  }
}

=== FILE: linkage.dfy ===
/** Validating a relationship object for a known relation: the factory
    builds a to-many or to-one value, by the relation's cardinality, at the
    given path, and its `allErrors()` is the answer. */
module Linkage {
  import opened Wrappers
  import opened JsonValues
  import opened Schema
  import opened Translator
  import ToOne
  import ToMany
  import Identifier

  /** A relationship object the relation accepts: the right shape for its
      cardinality, and every identifier in it acceptable. */
  predicate Acceptable(spec: Specification, relation: Relation, value: Json) {
    && value.JObj? && Has(value.members, "data")
    && var d := Lookup(value.members, "data").value;
       if relation.ToMany() then d.JList? && ToMany.AllAcceptable(spec, d.items, relation)
       else !d.JList? && (d.JNull? || Identifier.Acceptable(spec, d, Some(relation)))
  }

  /** `createToManyValue(...)->allErrors()` or `createToOneValue(...)->allErrors()`. */
  function AllErrors(spec: Specification, relation: Relation, path: string, value: Json): (r: seq<Error>)
    ensures r == [] <==> Acceptable(spec, relation, value)
    ensures relation.ToMany() ==> r == ToMany.AllErrors(spec, ToMany.Make(relation, path, value))
    ensures !relation.ToMany() ==> r == ToOne.AllErrors(spec, ToOne.Make(relation, path, value))
  {
    if relation.ToMany() then ToMany.AllErrors(spec, ToMany.Make(relation, path, value))
    else ToOne.AllErrors(spec, ToOne.Make(relation, path, value))
  }

  /** As written, a to-one relationship object of the right shape holding an
      identifier (not null) throws: see `ToOne.AllErrorsAsWritten`. */
  predicate CrashesAsWritten(relation: Relation, value: Json) {
    && !relation.ToMany() && value.JObj? && Has(value.members, "data")
    && var d := Lookup(value.members, "data").value;
       !d.JList? && !d.JNull?
  }

  /** `allErrors()` as written: the to-one value may throw; otherwise the
      errors are those of `AllErrors`. */
  function AllErrorsAsWritten(spec: Specification, relation: Relation, path: string, value: Json)
    : (r: Result<seq<Error>, string>)
    ensures r.Failure? <==> CrashesAsWritten(relation, value)
    ensures r.Failure? ==> r.error == ToOne.FactoryTypeError
    ensures r.Success? ==> r.value == AllErrors(spec, relation, path, value)
  {
    if relation.ToMany() then Success(ToMany.AllErrors(spec, ToMany.Make(relation, path, value)))
    else ToOne.AllErrorsAsWritten(spec, ToOne.Make(relation, path, value))
  }
}

=== FILE: php_strings.dfy ===
/** The PHP and Laravel string primitives the validators rely on, with their
    exact PHP semantics: `empty()`/`?:` falsiness, `trim`, `rtrim($s, '/')`,
    `Str::beforeLast`/`Str::afterLast`, `Str::contains`, `is_numeric` on a
    path segment, integer-to-string conversion and `implode`. */
module PhpStrings {
  import opened Wrappers

  /** PHP treats exactly two strings as falsy (`empty()` and the `?:`
      operator): the empty string and "0". */
  predicate Falsy(s: string) {
    s == "" || s == "0"
  }

  /** The characters PHP's `trim` strips by default:
      space, tab, line feed, carriage return, NUL and vertical tab. */
  predicate IsTrimChar(c: char) {
    c == ' ' || c == '\t' || c == '\n' || c == '\r' || c == '\0' || c == '\U{0B}'
  }

  /** Every character of `s` is one that `trim` strips. */
  predicate AllTrimChars(s: string) {
    forall i :: 0 <= i < |s| ==> IsTrimChar(s[i])
  }

  /** `ltrim($s)`: drops the leading trim characters. */
  function TrimStart(s: string): (r: string)
    ensures |r| <= |s| && r == s[|s| - |r|..]
    ensures AllTrimChars(s[..|s| - |r|])
    ensures r == [] || !IsTrimChar(r[0])
  {
    if |s| > 0 && IsTrimChar(s[0]) then
      var r := TrimStart(s[1..]);
      assert s[..|s| - |r|] == [s[0]] + s[1..][..|s[1..]| - |r|];
      r
    else s
  }

  /** `rtrim($s)`: drops the trailing trim characters. */
  function TrimEnd(s: string): (r: string)
    ensures |r| <= |s| && r == s[..|r|]
    ensures AllTrimChars(s[|r|..])
    ensures r == [] || !IsTrimChar(r[|r| - 1])
  {
    if |s| > 0 && IsTrimChar(s[|s| - 1]) then
      var r := TrimEnd(s[..|s| - 1]);
      assert s[|r|..] == s[..|s| - 1][|r|..] + [s[|s| - 1]];
      r
    else s
  }

  /** `trim($s)`: the longest infix of `s` that neither starts nor ends with a
      trim character; it is empty exactly when `s` consists of trim characters. */
  function Trim(s: string): (r: string)
    ensures |r| <= |s|
    ensures r == [] <==> AllTrimChars(s)
    ensures r != [] ==> !IsTrimChar(r[0]) && !IsTrimChar(r[|r| - 1])
  {
    var left := TrimStart(s);
    var r := TrimEnd(left);
    if r == [] then
      assert AllTrimChars(left);
      assert s == s[..|s| - |left|] + left;
      r
    else
      assert !AllTrimChars(s) by {
        assert !IsTrimChar(left[0]);
        assert s[|s| - |left|] == left[0];
      }
      r
  }

  /** `ltrim` skips any prefix of trim characters. */
  lemma {:induction false} TrimStartSkipsPrefix(pad: string, s: string)
    requires AllTrimChars(pad)
    ensures TrimStart(pad + s) == TrimStart(s)
    decreases |pad|
  {
    if |pad| > 0 {
      assert (pad + s)[1..] == pad[1..] + s;
      TrimStartSkipsPrefix(pad[1..], s);
    } else {
      assert pad + s == s;
    }
  }

  /** `rtrim` skips any suffix of trim characters. */
  lemma {:induction false} TrimEndSkipsSuffix(s: string, pad: string)
    requires AllTrimChars(pad)
    ensures TrimEnd(s + pad) == TrimEnd(s)
    decreases |pad|
  {
    if |pad| > 0 {
      assert (s + pad)[..|s + pad| - 1] == s + pad[..|pad| - 1];
      TrimEndSkipsSuffix(s, pad[..|pad| - 1]);
    } else {
      assert s + pad == s;
    }
  }

  /** `trim` of "0" wrapped in trim characters is "0". */
  lemma TrimPaddedZero(before: string, after: string)
    requires AllTrimChars(before) && AllTrimChars(after)
    ensures Trim(before + "0" + after) == "0"
  {
    var zero := "0" + after;
    assert before + "0" + after == before + zero;
    TrimStartSkipsPrefix(before, zero);
    assert zero[0] == '0';
    assert TrimStart(zero) == zero;
    TrimEndSkipsSuffix("0", after);
    assert "0"[0] == '0';
    assert TrimEnd("0") == "0";
  }

  /** `rtrim($s, '/')`: `s` without its trailing slashes. */
  function TrimTrailingSlashes(s: string): (r: string)
    ensures |r| <= |s| && r == s[..|r|]
    ensures forall k :: |r| <= k < |s| ==> s[k] == '/'
    ensures r == [] || r[|r| - 1] != '/'
  {
    if |s| > 0 && s[|s| - 1] == '/' then TrimTrailingSlashes(s[..|s| - 1]) else s
  }

  /** The position of the last occurrence of `c` in `s`, if any. */
  function LastIndexOf(s: string, c: char): (r: Option<nat>)
    ensures r.None? <==> c !in s
    ensures r.Some? ==> r.value < |s| && s[r.value] == c && c !in s[r.value + 1..]
  {
    if |s| == 0 then None
    else if s[|s| - 1] == c then Some(|s| - 1)
    else
      var r := LastIndexOf(s[..|s| - 1], c);
      assert s == s[..|s| - 1] + [s[|s| - 1]];
      r
  }

  /** `Str::beforeLast($s, $c)`: the text before the last `c`, or all of `s`
      when `c` does not occur. */
  function BeforeLast(s: string, c: char): string {
    match LastIndexOf(s, c)
    case None => s
    case Some(i) => s[..i]
  }

  /** `Str::afterLast($s, $c)`: the text after the last `c`, or all of `s`
      when `c` does not occur. */
  function AfterLast(s: string, c: char): string {
    match LastIndexOf(s, c)
    case None => s
    case Some(i) => s[i + 1..]
  }

  /** Splitting at the last `c` loses nothing: `s` is the text before it, `c`,
      and the text after it, and the text after it holds no `c`. */
  lemma SplitAtLast(s: string, c: char)
    requires c in s
    ensures s == BeforeLast(s, c) + [c] + AfterLast(s, c)
    ensures c !in AfterLast(s, c)
  {
    var i := LastIndexOf(s, c).value;
    assert s == s[..i] + [s[i]] + s[i + 1..];
  }

  /** The last `c` of `a + [c] + b` is the one between them when `b` holds no `c`. */
  lemma {:induction false} SplitAfter(a: string, c: char, b: string)
    requires c !in b
    ensures LastIndexOf(a + [c] + b, c) == Some(|a|)
    ensures BeforeLast(a + [c] + b, c) == a
    ensures AfterLast(a + [c] + b, c) == b
    decreases |b|
  {
    var s := a + [c] + b;
    if |b| == 0 {
      assert s[|s| - 1] == c;
    } else {
      assert s[|s| - 1] == b[|b| - 1];
      assert s[..|s| - 1] == a + [c] + b[..|b| - 1];
      SplitAfter(a, c, b[..|b| - 1]);
    }
    assert s[..|a|] == a;
    assert s[|a| + 1..] == b;
  }

  /** `s` begins with `prefix`. */
  predicate StartsWith(s: string, prefix: string) {
    |prefix| <= |s| && s[..|prefix|] == prefix
  }

  /** `Str::contains($s, $sub)`: `sub` occurs somewhere in `s`. */
  predicate Contains(s: string, sub: string)
    decreases |s|
  {
    StartsWith(s, sub) || (|s| > 0 && Contains(s[1..], sub))
  }

  /** Whatever surrounds it, an infix is contained. */
  lemma {:induction false} ContainsInfix(a: string, sub: string, b: string)
    ensures Contains(a + sub + b, sub)
    decreases |a|
  {
    var s := a + sub + b;
    if |a| == 0 {
      assert s[..|sub|] == sub;
    } else {
      assert s[1..] == a[1..] + sub + b;
      ContainsInfix(a[1..], sub, b);
    }
  }

  /** No string shorter than `sub` contains it. */
  lemma {:induction false} ShortDoesNotContain(s: string, sub: string)
    requires |s| < |sub|
    ensures !Contains(s, sub)
    decreases |s|
  {
    if |s| > 0 {
      ShortDoesNotContain(s[1..], sub);
    }
  }

  predicate IsDigit(c: char) {
    '0' <= c <= '9'
  }

  /** `is_numeric` on a path segment, restricted to the forms a list index
      can take: a non-empty string of decimal digits. */
  predicate IsNumeric(s: string) {
    |s| > 0 && forall i :: 0 <= i < |s| ==> IsDigit(s[i])
  }

  function DigitChar(d: nat): (c: char)
    requires d < 10
    ensures IsDigit(c)
  {
    "0123456789"[d]
  }

  /** PHP's decimal rendering of a non-negative integer, as used when a list
      index is interpolated into a path (`"{$path}/data/{$idx}"`). */
  function NatToString(n: nat): (r: string)
    ensures IsNumeric(r)
    ensures '/' !in r
  {
    if n < 10 then [DigitChar(n)]
    else NatToString(n / 10) + [DigitChar(n % 10)]
  }

  /** A number of two or more digits renders as at least two characters. */
  lemma {:induction false} NatToStringLength(n: nat)
    ensures n >= 10 ==> |NatToString(n)| >= 2
  {
  }

  /** Different numbers render differently, so list indices give distinct
      path segments. */
  lemma {:induction false} NatToStringInjective(a: nat, b: nat)
    requires NatToString(a) == NatToString(b)
    ensures a == b
    decreases a
  {
    var s := NatToString(a);
    NatToStringLength(a);
    NatToStringLength(b);
    assert DigitChar(a % 10) == DigitChar(b % 10) by {
      assert s[|s| - 1] == DigitChar(a % 10);
    }
    assert a % 10 == b % 10 by {
      DigitCharInjective(a % 10, b % 10);
    }
    if a >= 10 {
      assert NatToString(a / 10) == s[..|s| - 1] == NatToString(b / 10);
      NatToStringInjective(a / 10, b / 10);
    }
  }

  lemma DigitCharInjective(d: nat, e: nat)
    requires d < 10 && e < 10 && DigitChar(d) == DigitChar(e)
    ensures d == e
  {
  }

  function DigitValue(c: char): (d: nat)
    requires IsDigit(c)
    ensures d < 10
  {
    c as int - '0' as int
  }

  lemma DigitRoundTrip(c: char, d: nat)
    requires IsDigit(c) && d < 10
    ensures DigitChar(DigitValue(c)) == c
    ensures DigitValue(DigitChar(d)) == d
  {
  }

  /** The value of a string of decimal digits. */
  function DecimalValue(s: string): nat
    requires forall i :: 0 <= i < |s| ==> IsDigit(s[i])
    decreases |s|
  {
    if s == [] then 0 else 10 * DecimalValue(s[..|s| - 1]) + DigitValue(s[|s| - 1])
  }

  /** A decimal integer as PHP prints it: digits, and no leading zero
      unless the number is zero. */
  predicate IsCanonicalNat(s: string) {
    IsNumeric(s) && (s[0] == '0' ==> |s| == 1)
  }

  /** The largest PHP integer on a 64-bit build (`PHP_INT_MAX`). */
  const IntMax: int := 0x7FFF_FFFF_FFFF_FFFF

  /** The integer a string array key becomes (PHP's rule for numeric string
      keys, applied when an object is cast to an array): a canonical decimal
      integer, optionally negative but never "-0", within the 64-bit range.
      Any other string stays a string key. */
  function IntegerKey(s: string): (r: Option<int>)
    ensures r.Some? ==> -IntMax - 1 <= r.value <= IntMax
    ensures r.Some? ==> |s| > 0 && (IsDigit(s[0]) <==> r.value >= 0)
  {
    if IsCanonicalNat(s) && DecimalValue(s) <= IntMax then Some(DecimalValue(s))
    else if |s| >= 2 && s[0] == '-' && IsCanonicalNat(s[1..]) && s[1..] != "0" && DecimalValue(s[1..]) <= IntMax + 1
    then
      assert DecimalValue(s[1..]) >= 1 by {
        LeadingDigitBoundsValue(s[1..]);
      }
      var negative: int := 0 - DecimalValue(s[1..]) as int;
      Some(negative)
    else None
  }

  /** A digit string that does not start with zero has a positive value. */
  lemma {:induction false} LeadingDigitBoundsValue(s: string)
    requires IsNumeric(s) && s[0] != '0'
    ensures DecimalValue(s) >= 1
    decreases |s|
  {
    if |s| > 1 {
      LeadingDigitBoundsValue(s[..|s| - 1]);
    }
  }

  /** Reading a canonical decimal and printing the number gives the same
      text. */
  lemma {:induction false} CanonicalRoundTrip(s: string)
    requires IsCanonicalNat(s)
    ensures NatToString(DecimalValue(s)) == s
    decreases |s|
  {
    var d := DigitValue(s[|s| - 1]);
    DigitRoundTrip(s[|s| - 1], 0);
    if |s| == 1 {
      assert DecimalValue(s) == d by {
        assert s[..0] == [];
      }
    } else {
      var p := s[..|s| - 1];
      assert p[0] == s[0];
      LeadingDigitBoundsValue(p);
      CanonicalRoundTrip(p);
      var v := DecimalValue(s);
      assert v == 10 * DecimalValue(p) + d;
      assert v / 10 == DecimalValue(p) && v % 10 == d;
      assert s == p + [s[|s| - 1]];
    }
  }

  /** Printing a number gives a canonical decimal that reads back as the
      number. */
  lemma {:induction false} NatToStringRoundTrip(n: nat)
    ensures IsCanonicalNat(NatToString(n)) && DecimalValue(NatToString(n)) == n
    decreases n
  {
    var s := NatToString(n);
    DigitRoundTrip('0', n % 10);
    if n < 10 {
      assert s[..0] == [];
    } else {
      var p := NatToString(n / 10);
      NatToStringRoundTrip(n / 10);
      assert s[..|s| - 1] == p;
      assert p[..0] == [];
      assert p[0] != '0';
    }
  }

  /** Two strings that become the same integer key are the same string. */
  lemma IntegerKeyInjective(a: string, b: string)
    requires IntegerKey(a).Some? && IntegerKey(a) == IntegerKey(b)
    ensures a == b
  {
    if IntegerKey(a).value >= 0 {
      CanonicalRoundTrip(a);
      CanonicalRoundTrip(b);
    } else {
      CanonicalRoundTrip(a[1..]);
      CanonicalRoundTrip(b[1..]);
      assert a == [a[0]] + a[1..] && b == [b[0]] + b[1..];
    }
  }

  /** A list index, printed, is the key of that index. */
  lemma IntegerKeyOfIndex(n: nat)
    requires n <= IntMax
    ensures IntegerKey(NatToString(n)) == Some(n)
  {
    NatToStringRoundTrip(n);
  }

  /** "1" and "-5" become integer keys; "01", "-0", "1.0" and "" stay
      strings. */
  lemma IntegerKeyExamples()
    ensures IntegerKey("1") == Some(1) && IntegerKey("-5") == Some(-5)
    ensures IntegerKey("01").None? && IntegerKey("-0").None? && IntegerKey("1.0").None? && IntegerKey("").None?
  {
    assert "1"[..0] == [] && "5"[..0] == [];
    assert "-5"[1..] == "5";
    assert !IsDigit("1.0"[1]);
  }

  /** `implode($sep, $xs)`. */
  function Join(xs: seq<string>, sep: string): (r: string)
    ensures |xs| == 1 ==> r == xs[0]
  {
    if |xs| == 0 then ""
    else if |xs| == 1 then xs[0]
    else xs[0] + sep + Join(xs[1..], sep)
  }
}

=== FILE: relation_validator.dfy ===
/** The relationship-document stage: the whole document is the relationship
    object of the endpoint's relation, validated at the root. */
module RelationValidator {
  import opened Wrappers
  import opened PhpStrings
  import opened JsonValues
  import opened Schema
  import opened Translator
  import opened Documents
  import Linkage

  /** `validate`: a falsy relation name, or one the type does not declare, is
      a logic error of the caller; otherwise the document's errors gain those
      of the relationship object (the first relation of that name) at "/",
      and it is handed on. */
  function Validate(spec: Specification, doc: Document): (r: Outcome)
    requires doc.RelationDocument?
    ensures !r.Stop?
    ensures r.Raise? <==> Falsy(doc.relation) || FirstRelationNamed(spec.fields(doc.resourceType), doc.relation).None?
    ensures r.Next? ==> var relation := FirstRelationNamed(spec.fields(doc.resourceType), doc.relation).value;
                        && RelationField(relation) in spec.fields(doc.resourceType)
                        && relation.name == doc.relation
                        && r.doc == doc.WithErrors(Linkage.AllErrors(spec, relation, "/", doc.ToBase()))
    ensures r.Next? ==> (r.doc.Valid() <==> doc.Valid() && Linkage.Acceptable(spec,
                           FirstRelationNamed(spec.fields(doc.resourceType), doc.relation).value, doc.ToBase()))
  {
    if Falsy(doc.relation) then Raise("LogicException: Expecting to be validating a relationship document.")
    else match FirstRelationNamed(spec.fields(doc.resourceType), doc.relation)
      case Some(relation) => Next(doc.WithErrors(Linkage.AllErrors(spec, relation, "/", doc.ToBase())))
      case None => Raise("LogicException: Expecting relation " + doc.relation + " to exist for resource type "
                         + doc.resourceType + ".")
  }

  /** `validate` as written: it also throws when the relationship object
      does (a to-one relation holding an identifier), and otherwise does
      what `Validate` does. */
  function ValidateAsWritten(spec: Specification, doc: Document): (r: Outcome)
    requires doc.RelationDocument?
    ensures !r.Stop?
    ensures r.Raise? <==> || Validate(spec, doc).Raise?
                          || Linkage.CrashesAsWritten(FirstRelationNamed(spec.fields(doc.resourceType), doc.relation).value,
                                                      doc.ToBase())
    ensures !r.Raise? ==> r == Validate(spec, doc)
  {
    match Validate(spec, doc)
    case Next(d) =>
      var relation := FirstRelationNamed(spec.fields(doc.resourceType), doc.relation).value;
      (match Linkage.AllErrorsAsWritten(spec, relation, "/", doc.ToBase())
        case Failure(reason) => Raise(reason)
        case Success(_) => Next(d))
    case Stop(d) => Stop(d)
    case Raise(reason) => Raise(reason)
  }
}

=== FILE: relationships_validator.dfy ===
/** The resource-document stage for `data.relationships`: when present it
    must be an object whose members are declared relations (never `type` or
    `id`), each holding a relationship object its relation accepts. Never
    stops. */
module RelationshipsValidator {
  import opened Wrappers
  import opened PhpStrings
  import opened JsonValues
  import opened Schema
  import opened Translator
  import opened Documents
  import Linkage
  import ToOne

  /** Where the relationship object of the member `name` sits. */
  function RelationPath(name: string): string {
    "/data/relationships/" + name
  }

  /** One member the stage accepts: not a reserved name, declared as a
      relation of the type, and holding a relationship object that relation
      accepts. */
  predicate MemberAcceptable(spec: Specification, fields: seq<Field>, name: string, value: Json) {
    && name != "type" && name != "id"
    && LastRelationNamed(fields, name).Some?
    && Linkage.Acceptable(spec, LastRelationNamed(fields, name).value, value)
  }

  /** The errors of one member: a reserved name is not allowed, an undeclared
      one is not supported, and a declared relation reports whatever its
      relationship object, at `/data/relationships/{name}`, reports. */
  function MemberErrors(spec: Specification, fields: seq<Field>, name: string, value: Json): (r: seq<Error>)
    ensures r == [] <==> MemberAcceptable(spec, fields, name, value)
    ensures name == "type" || name == "id" ==> r == [MemberFieldNotAllowed("/data", "relationships", name)]
    ensures name != "type" && name != "id" && (forall f :: f in fields && f.RelationField? ==> f.relation.name != name)
            ==> r == [MemberFieldNotSupported("/data", "relationships", name)]
    ensures name != "type" && name != "id" && LastRelationNamed(fields, name).Some?
            ==> var relation := LastRelationNamed(fields, name).value;
                && r == Linkage.AllErrors(spec, relation, RelationPath(name), value)
                && RelationField(relation) in fields && relation.name == name
  {
    if name == "type" || name == "id" then [MemberFieldNotAllowed("/data", "relationships", name)]
    else match LastRelationNamed(fields, name)
      case Some(relation) => Linkage.AllErrors(spec, relation, RelationPath(relation.name), value)
      case None => [MemberFieldNotSupported("/data", "relationships", name)]
  }

  /** Every member accepted. */
  predicate AllMembersAcceptable(spec: Specification, fields: seq<Field>, ms: Members) {
    forall i :: 0 <= i < |ms| ==> MemberAcceptable(spec, fields, ms[i].0, ms[i].1)
  }

  /** The errors of the members, in member order. */
  function MembersErrors(spec: Specification, fields: seq<Field>, ms: Members): (r: seq<Error>)
    ensures r == [] <==> AllMembersAcceptable(spec, fields, ms)
    decreases |ms|
  {
    if |ms| == 0 then []
    else
      assert AllMembersAcceptable(spec, fields, ms)
        <==> MemberAcceptable(spec, fields, ms[0].0, ms[0].1) && AllMembersAcceptable(spec, fields, ms[1..]) by {
        AllMembersSplit(spec, fields, ms);
      }
      MemberErrors(spec, fields, ms[0].0, ms[0].1) + MembersErrors(spec, fields, ms[1..])
  }

  /** A list of members is accepted exactly when its first member and the
      rest are. */
  lemma AllMembersSplit(spec: Specification, fields: seq<Field>, ms: Members)
    requires |ms| > 0
    ensures AllMembersAcceptable(spec, fields, ms)
        <==> MemberAcceptable(spec, fields, ms[0].0, ms[0].1) && AllMembersAcceptable(spec, fields, ms[1..])
  {
    var rest := ms[1..];
    if AllMembersAcceptable(spec, fields, ms) {
      forall i | 0 <= i < |rest| ensures MemberAcceptable(spec, fields, rest[i].0, rest[i].1) {
        assert rest[i] == ms[i + 1];
      }
    }
    if MemberAcceptable(spec, fields, ms[0].0, ms[0].1) && AllMembersAcceptable(spec, fields, rest) {
      forall i | 0 <= i < |ms| ensures MemberAcceptable(spec, fields, ms[i].0, ms[i].1) {
        if i > 0 {
          assert ms[i] == rest[i - 1];
        }
      }
    }
  }

  /** `accept`: a non-object is one error; otherwise the members' errors in
      member order. */
  function Accept(spec: Specification, fields: seq<Field>, relationships: Json): (r: seq<Error>)
    ensures !relationships.JObj? ==> r == [MemberNotObject("/data", "relationships")]
    ensures !relationships.JObj? ==> r[0].pointer == Some("/data/relationships") && r[0].status == 400
    ensures relationships.JObj? ==> (r == [] <==> AllMembersAcceptable(spec, fields, relationships.members))
    ensures relationships.JObj? ==> r == MembersErrors(spec, fields, relationships.members)
  {
    match relationships
    case JObj(ms) => MembersErrors(spec, fields, ms)
    case _ =>
      assert TrimTrailingSlashes("/data") == "/data";
      assert "/data" + "/" + "relationships" == "/data/relationships";
      [MemberNotObject("/data", "relationships")]
  }

  /** Errors follow member order: the members before a split report first,
      and what one member reports does not depend on the others. */
  lemma {:induction false} ErrorsFollowMemberOrder(spec: Specification, fields: seq<Field>, ms1: Members, ms2: Members)
    ensures MembersErrors(spec, fields, ms1 + ms2) == MembersErrors(spec, fields, ms1) + MembersErrors(spec, fields, ms2)
    decreases |ms1|
  {
    if |ms1| > 0 {
      assert (ms1 + ms2)[0] == ms1[0];
      assert (ms1 + ms2)[1..] == ms1[1..] + ms2;
      ErrorsFollowMemberOrder(spec, fields, ms1[1..], ms2);
    } else {
      assert ms1 + ms2 == ms2;
    }
  }

  /** A single member reports exactly its own errors. */
  lemma SingleMember(spec: Specification, fields: seq<Field>, name: string, value: Json)
    ensures Accept(spec, fields, JObj([(name, value)])) == MemberErrors(spec, fields, name, value)
  {
    assert [(name, value)][1..] == [];
  }

  /** The errors the stage records for object `data`: none without a
      `relationships` member. */
  function Errors(spec: Specification, doc: Document): (r: seq<Error>)
    requires doc.ResourceDocument? && HasObjectData(doc)
    ensures var ms := DataMember(doc).members;
            r == [] <==> (|| !Has(ms, "relationships")
                          || (&& Lookup(ms, "relationships").value.JObj?
                              && AllMembersAcceptable(spec, spec.fields(doc.resourceType),
                                                      Lookup(ms, "relationships").value.members)))
  {
    var ms := DataMember(doc).members;
    if Has(ms, "relationships") then Accept(spec, spec.fields(doc.resourceType), Lookup(ms, "relationships").value) else []
  }

  /** As written, a member throws when it names a declared relation whose
      relationship object throws. */
  predicate MemberCrashesAsWritten(fields: seq<Field>, name: string, value: Json) {
    && name != "type" && name != "id"
    && LastRelationNamed(fields, name).Some?
    && Linkage.CrashesAsWritten(LastRelationNamed(fields, name).value, value)
  }

  /** A member throws exactly when its relationship object's `allErrors()`
      throws as written. */
  lemma MemberCrashIsLinkageCrash(spec: Specification, fields: seq<Field>, name: string, value: Json)
    ensures MemberCrashesAsWritten(fields, name, value)
            <==> && name != "type" && name != "id" && LastRelationNamed(fields, name).Some?
                 && Linkage.AllErrorsAsWritten(spec, LastRelationNamed(fields, name).value, RelationPath(name), value).Failure?
  {
  }

  /** As written, the stage throws when `data.relationships` is an object
      and one of its members throws. */
  predicate CrashesAsWritten(spec: Specification, doc: Document)
    requires doc.ResourceDocument?
  {
    && HasObjectData(doc)
    && var ms := DataMember(doc).members;
       && Has(ms, "relationships") && Lookup(ms, "relationships").value.JObj?
       && var rs := Lookup(ms, "relationships").value.members;
          exists i :: 0 <= i < |rs| && MemberCrashesAsWritten(spec.fields(doc.resourceType), rs[i].0, rs[i].1)
  }

  /** `validate` as written: the members are validated in order, so the
      first member that throws ends the stage; otherwise it does what
      `Validate` does. */
  function ValidateAsWritten(spec: Specification, doc: Document): (r: Outcome)
    requires doc.ResourceDocument?
    ensures r.Raise? <==> Validate(spec, doc).Raise? || CrashesAsWritten(spec, doc)
    ensures !r.Raise? ==> r == Validate(spec, doc)
  {
    if CrashesAsWritten(spec, doc) then Raise(ToOne.FactoryTypeError) else Validate(spec, doc)
  }

  /** `validate`: when `data` is an object with a `relationships` member (even
      null), records its errors; always hands the document on. Falsy data
      and a string are passed over; any other truthy non-object raises. */
  function Validate(spec: Specification, doc: Document): (r: Outcome)
    requires doc.ResourceDocument?
    ensures r.Raise? <==> Truthy(DataMember(doc)) && !DataMember(doc).JObj? && !DataMember(doc).JStr?
    ensures !r.Stop?
    ensures r.Next? && HasObjectData(doc) ==> r.doc == doc.WithErrors(Errors(spec, doc))
    ensures r.Next? && !(HasObjectData(doc) && Has(DataMember(doc).members, "relationships")) ==> r.doc == doc
  {
    var data := DataMember(doc);
    if !Truthy(data) then Next(doc)
    else match data
      case JObj(ms) =>
        Next(doc.WithErrors(Errors(spec, doc)))
      case JStr(_) => Next(doc)
      case _ => Raise("TypeError: property_exists() needs an object or class name")
  }
}

=== FILE: schema.dfy ===
/** The server's `Specification` capability and the schema fields it returns,
    as uninterpreted parameters: the validators only ever ask these four
    questions, and the answers come from outside the model. */
module Schema {
  import opened Wrappers

  /** A relationship field. `toOne` decides both `toOne()` and `toMany()`
      (the latter is its negation); `allInverse` is the list of resource
      types the relation accepts. */
  datatype Relation = Relation(name: string, toOne: bool, allInverse: seq<string>) {
    predicate ToMany() {
      !toOne
    }
  }

  /** A schema field: an attribute, or a relation. */
  datatype Field = Attribute(attrName: string) | RelationField(relation: Relation) {
    function Name(): string {
      match this
      case Attribute(n) => n
      case RelationField(r) => r.name
    }
  }

  /** The consumed capability: client-id policy per type, existence of a
      resource, the fields of a type, and the recognised types. */
  datatype Specification = Specification(
    clientIds: string -> bool,
    resourceExists: (string, string) -> bool,
    fields: string -> seq<Field>,
    types: seq<string>
  )

  /** The names of the attribute fields, in schema order
      (`whereInstanceOf(Attribute::class)->map(name)`). */
  function AttributeNames(fields: seq<Field>): (r: seq<string>)
    ensures forall n :: n in r <==> Attribute(n) in fields
  {
    if |fields| == 0 then []
    else
      var rest := AttributeNames(fields[1..]);
      assert fields == [fields[0]] + fields[1..];
      if fields[0].Attribute? then [fields[0].attrName] + rest else rest
  }

  /** The first relation named `name` (`->first(fn => $name === name())`). */
  function FirstRelationNamed(fields: seq<Field>, name: string): (r: Option<Relation>)
    ensures r.Some? ==> RelationField(r.value) in fields && r.value.name == name
    ensures r.None? <==> forall f :: f in fields && f.RelationField? ==> f.relation.name != name
  {
    if |fields| == 0 then None
    else if fields[0].RelationField? && fields[0].relation.name == name then
      Some(fields[0].relation)
    else
      var r := FirstRelationNamed(fields[1..], name);
      assert fields == [fields[0]] + fields[1..];
      r
  }

  /** The relation named `name` that `->keyBy(name())->get($name)` finds:
      keyBy keeps the LAST relation with a given name. */
  function LastRelationNamed(fields: seq<Field>, name: string): (r: Option<Relation>)
    ensures r.Some? ==> RelationField(r.value) in fields && r.value.name == name
    ensures r.None? <==> forall f :: f in fields && f.RelationField? ==> f.relation.name != name
  {
    if |fields| == 0 then None
    else
      var last := fields[|fields| - 1];
      assert fields == fields[..|fields| - 1] + [last];
      if last.RelationField? && last.relation.name == name then Some(last.relation)
      else LastRelationNamed(fields[..|fields| - 1], name)
  }

  /** When a type declares a relation name once, `first` and `keyBy` agree. */
  lemma {:induction false} FirstAndLastAgreeOnUniqueName(fields: seq<Field>, name: string)
    requires forall i, j :: 0 <= i < j < |fields| && fields[i].RelationField? && fields[j].RelationField?
               ==> fields[i].relation.name != name || fields[j].relation.name != name
    ensures FirstRelationNamed(fields, name) == LastRelationNamed(fields, name)
    decreases |fields|
  {
    if |fields| > 0 {
      var last := fields[|fields| - 1];
      var init := fields[..|fields| - 1];
      FirstAndLastAgreeOnUniqueName(init, name);
      if last.RelationField? && last.relation.name == name {
        assert forall f :: f in init && f.RelationField? ==> f.relation.name != name by {
          forall f | f in init && f.RelationField?
            ensures f.relation.name != name
          {
            var i :| 0 <= i < |init| && init[i] == f;
            assert fields[i] == f;
          }
        }
        FirstOfSnoc(init, last, name);
      } else {
        FirstOfSnoc(init, last, name);
      }
    }
  }

  /** `first` over a list extended at the end only looks at the new element
      when nothing earlier matched. */
  lemma {:induction false} FirstOfSnoc(init: seq<Field>, last: Field, name: string)
    ensures FirstRelationNamed(init + [last], name)
         == if FirstRelationNamed(init, name).Some? then FirstRelationNamed(init, name)
            else if last.RelationField? && last.relation.name == name then Some(last.relation)
            else None
    decreases |init|
  {
    if |init| == 0 {
      assert (init + [last])[1..] == [];
    } else {
      assert (init + [last])[1..] == init[1..] + [last];
      FirstOfSnoc(init[1..], last, name);
    }
  }
}

=== FILE: to_many.dfy ===
/** A to-many relationship object `{data: [identifier, ...]}` (JSON:API 1.0,
    "Resource Linkage"), validated structurally and then element by element. */
module ToMany {
  import opened Wrappers
  import opened PhpStrings
  import opened JsonValues
  import opened Schema
  import opened Translator
  import Value
  import Identifier

  /** A to-many value: the relation, the path without trailing slashes, and
      the raw fragment. */
  datatype ToManyValue = ToManyValue(relation: Relation, path: string, value: Json)

  /** The constructor: the path loses its trailing slashes. */
  function Make(relation: Relation, path: string, value: Json): (v: ToManyValue)
    ensures v.relation == relation && v.value == value
    ensures StartsWith(path, v.path) && forall k :: |v.path| <= k < |path| ==> path[k] == '/'
    ensures v.path == [] || v.path[|v.path| - 1] != '/'
  {
    ToManyValue(relation, TrimTrailingSlashes(path), value)
  }

  /** An object whose `data` is a list: the only compliant shape. */
  predicate HasLinkage(v: ToManyValue) {
    v.value.JObj? && Has(v.value.members, "data") && Lookup(v.value.members, "data").value.JList?
  }

  /** `data` is a single identifier where a list belongs: an object with a
      non-null `type` or `id`. */
  predicate LooksLikeIdentifier(v: ToManyValue)
    requires v.value.JObj? && Has(v.value.members, "data")
  {
    var d := Lookup(v.value.members, "data").value;
    d.JObj? && (IsSet(d.members, "type") || IsSet(d.members, "id"))
  }

  /** `validate`: at most one error, for a non-object, a missing `data`, a
      single identifier in `data`, or any other non-list in `data`. */
  function Validate(v: ToManyValue): (r: seq<Error>)
    ensures |r| <= 1
    ensures r == [] <==> HasLinkage(v)
    ensures forall e :: e in r ==> e.status == 400
    ensures !v.value.JObj? ==> r == [MemberNotObject(Value.Parent(v.path), Value.Member(v.path))]
    ensures v.value.JObj? && Has(v.value.members, "data") && LooksLikeIdentifier(v)
            ==> r == [FieldExpectsToMany(Value.Parent(v.path), Value.OrData(Value.Member(v.path)), v.relation.name)]
    ensures v.value.JObj? && Has(v.value.members, "data") && !LooksLikeIdentifier(v) && !HasLinkage(v)
            ==> r == [MemberNotArray(v.path, "data")]
  {
    match v.value
    case JObj(ms) =>
      if !Has(ms, "data") then [MemberRequired(if Falsy(v.path) then "/" else v.path, "data")]
      else
        var d := Lookup(ms, "data").value;
        if d.JObj? && (IsSet(d.members, "type") || IsSet(d.members, "id")) then
          [FieldExpectsToMany(Value.Parent(v.path), Value.OrData(Value.Member(v.path)), v.relation.name)]
        else if !d.JList? then [MemberNotArray(v.path, "data")]
        else []
    case _ => [MemberNotObject(Value.Parent(v.path), Value.Member(v.path))]
  }

  /** The elements of `data` of a valid value. */
  function Items(v: ToManyValue): seq<Json>
    requires Validate(v) == []
  {
    Lookup(v.value.members, "data").value.items
  }

  /** Where the element at index `i` sits: `{path}/data/{i}`. */
  function ElementPath(path: string, i: nat): string {
    path + "/data/" + NatToString(i)
  }

  /** `data()`: one identifier per element, at its index, scoped to the relation. */
  function Data(v: ToManyValue): (r: seq<Identifier.IdentifierValue>)
    requires Validate(v) == []
    ensures |r| == |Items(v)|
    ensures forall i :: 0 <= i < |r| ==> r[i].path == ElementPath(v.path, i)
    ensures forall i :: 0 <= i < |r| ==> r[i].value == Items(v)[i] && r[i].relation == Some(v.relation)
  {
    var items := Items(v);
    seq(|items|, i requires 0 <= i < |items| =>
      Identifier.IdentifierValue(ElementPath(v.path, i), items[i], Some(v.relation)))
  }

  /** The errors of a list of identifiers, in list order. */
  function ElementErrors(spec: Specification, ids: seq<Identifier.IdentifierValue>): (r: seq<Error>)
    ensures |r| <= 3 * |ids|
  {
    if |ids| == 0 then []
    else Identifier.Errors(spec, ids[0]) + ElementErrors(spec, ids[1..])
  }

  /** A list of identifiers reports nothing exactly when every element is
      acceptable. */
  lemma {:induction false} ElementErrorsEmpty(spec: Specification, ids: seq<Identifier.IdentifierValue>)
    ensures ElementErrors(spec, ids) == []
        <==> forall i :: 0 <= i < |ids| ==> Identifier.Acceptable(spec, ids[i].value, ids[i].relation)
    decreases |ids|
  {
    if |ids| > 0 {
      var head := Identifier.Errors(spec, ids[0]);
      var tail := ElementErrors(spec, ids[1..]);
      assert ElementErrors(spec, ids) == head + tail;
      assert head == [] <==> Identifier.Acceptable(spec, ids[0].value, ids[0].relation);
      ElementErrorsEmpty(spec, ids[1..]);
      ElementsSplit(spec, ids);
    }
  }

  /** A list of identifiers is accepted exactly when its first element and
      the rest are. */
  lemma ElementsSplit(spec: Specification, ids: seq<Identifier.IdentifierValue>)
    requires |ids| > 0
    ensures (forall i :: 0 <= i < |ids| ==> Identifier.Acceptable(spec, ids[i].value, ids[i].relation))
        <==> Identifier.Acceptable(spec, ids[0].value, ids[0].relation)
             && (forall i :: 0 <= i < |ids[1..]| ==> Identifier.Acceptable(spec, ids[1..][i].value, ids[1..][i].relation))
  {
    var rest := ids[1..];
    if forall i :: 0 <= i < |ids| ==> Identifier.Acceptable(spec, ids[i].value, ids[i].relation) {
      forall i | 0 <= i < |rest| ensures Identifier.Acceptable(spec, rest[i].value, rest[i].relation) {
        assert rest[i] == ids[i + 1];
      }
    }
    if Identifier.Acceptable(spec, ids[0].value, ids[0].relation)
       && forall i :: 0 <= i < |rest| ==> Identifier.Acceptable(spec, rest[i].value, rest[i].relation)
    {
      forall i | 0 <= i < |ids| ensures Identifier.Acceptable(spec, ids[i].value, ids[i].relation) {
        if i > 0 {
          assert ids[i] == rest[i - 1];
        }
      }
    }
  }

  /** Every element is an acceptable identifier for the relation. */
  predicate AllAcceptable(spec: Specification, items: seq<Json>, relation: Relation) {
    forall i :: 0 <= i < |items| ==> Identifier.Acceptable(spec, items[i], Some(relation))
  }

  /** `allErrors`: the structural errors; when there are none, the errors of
      every element, in list order. */
  function AllErrors(spec: Specification, v: ToManyValue): (r: seq<Error>)
    ensures Validate(v) != [] ==> r == Validate(v)
    ensures r == [] <==> HasLinkage(v) && AllAcceptable(spec, Lookup(v.value.members, "data").value.items, v.relation)
    ensures HasLinkage(v) ==> |r| <= 3 * |Lookup(v.value.members, "data").value.items|
  {
    var errors := Validate(v);
    if errors != [] then errors
    else
      var ids := Data(v);
      var items := Items(v);
      var r := ElementErrors(spec, ids);
      assert r == [] <==> AllAcceptable(spec, items, v.relation) by {
        DataErrorsEmpty(spec, v);
      }
      r
  }

  /** The identifiers of a valid value report nothing exactly when every
      element of `data` is acceptable for the relation. */
  lemma DataErrorsEmpty(spec: Specification, v: ToManyValue)
    requires Validate(v) == []
    ensures ElementErrors(spec, Data(v)) == [] <==> AllAcceptable(spec, Items(v), v.relation)
  {
    var ids := Data(v);
    var items := Items(v);
    ElementErrorsEmpty(spec, ids);
    forall i | 0 <= i < |ids|
      ensures Identifier.Acceptable(spec, ids[i].value, ids[i].relation) == Identifier.Acceptable(spec, items[i], Some(v.relation))
    {
      assert ids[i].value == items[i] && ids[i].relation == Some(v.relation);
    }
  }

  // ---- where errors point ----

  /** Distinct indices give distinct element paths. */
  lemma ElementPathsAreDistinct(path: string, i: nat, j: nat)
    requires i != j
    ensures ElementPath(path, i) != ElementPath(path, j)
  {
    if ElementPath(path, i) == ElementPath(path, j) {
      var prefix := path + "/data/";
      assert ElementPath(path, i)[|prefix|..] == NatToString(i);
      assert ElementPath(path, j)[|prefix|..] == NatToString(j);
      NatToStringInjective(i, j);
    }
  }

  /** Every error of an element list whose paths are `{path}/data/{i}` points
      inside that list. */
  lemma {:induction false} ElementErrorsPointIntoList(spec: Specification, path: string,
                                                      ids: seq<Identifier.IdentifierValue>, offset: nat)
    requires forall i :: 0 <= i < |ids| ==> ids[i].path == ElementPath(path, offset + i)
    ensures forall e :: e in ElementErrors(spec, ids) ==> Identifier.PointsWithin(e, path + "/data/")
    decreases |ids|
  {
    if |ids| > 0 {
      var head := Identifier.Errors(spec, ids[0]);
      var rest := ids[1..];
      ElementPointsIntoList(spec, path, ids[0], offset);
      assert forall i :: 0 <= i < |rest| ==> rest[i].path == ElementPath(path, offset + 1 + i) by {
        forall i | 0 <= i < |rest| ensures rest[i].path == ElementPath(path, offset + 1 + i) {
          assert rest[i] == ids[i + 1];
        }
      }
      ElementErrorsPointIntoList(spec, path, rest, offset + 1);
      assert ElementErrors(spec, ids) == head + ElementErrors(spec, rest);
    }
  }

  /** The errors of the element at index `offset` point inside `{path}/data/`. */
  lemma ElementPointsIntoList(spec: Specification, path: string, iv: Identifier.IdentifierValue, offset: nat)
    requires iv.path == ElementPath(path, offset)
    ensures forall e :: e in Identifier.Errors(spec, iv) ==> Identifier.PointsWithin(e, path + "/data/")
  {
    var base := path + "/data";
    var m := NatToString(offset);
    assert iv.path == base + "/" + m;
    Identifier.ElementErrorsPointWithin(spec, base, m, iv.value, iv.relation);
    assert StartsWith(base + "/" + m, path + "/data/") by {
      assert base + "/" + m == (path + "/data/") + m;
    }
  }

  /** Once the relationship object is well formed, every error points into
      its `data` list, at `{path}/data/{i}` or below. */
  lemma ErrorsOfValidValuePointIntoList(spec: Specification, v: ToManyValue)
    requires Validate(v) == []
    ensures forall e :: e in AllErrors(spec, v) ==> Identifier.PointsWithin(e, v.path + "/data/")
  {
    ElementErrorsPointIntoList(spec, v.path, Data(v), 0);
  }

  /** In a relationship document the value sits at the root: a missing
      `data` points at "/", and a non-list `data` at "/data". */
  lemma RootErrorsPointAtDocument(relation: Relation, value: Json)
    ensures var es := Validate(Make(relation, "/", value));
            forall e :: e in es ==> e.pointer == Some("/") || e.pointer == Some("/data")
  {
    var v := Make(relation, "/", value);
    assert v.path == "" by {
      assert TrimTrailingSlashes("/") == "";
    }
    assert Value.Parent("") == "/" && Value.Member("") == "" by {
      Value.ParentExamples();
    }
    assert Pointer("/", Some("data")) == "/data" && Pointer("", Some("data")) == "/data" by {
      RootAndEmptyPathAgree();
    }
    var es := Validate(v);
    if !value.JObj? {
      assert es == [MemberNotObject("/", "")];
    } else if !Has(value.members, "data") {
      assert es == [MemberRequired("/", "data")];
    } else if LooksLikeIdentifier(v) {
      assert es == [FieldExpectsToMany("/", "data", relation.name)];
    } else if !HasLinkage(v) {
      assert es == [MemberNotArray("", "data")];
    }
  }
}

=== FILE: to_one.dfy ===
/** A to-one relationship object `{data: identifier | null}` (JSON:API 1.0,
    "Resource Linkage"), validated structurally and then through the
    identifier it holds. */
module ToOne {
  import opened Wrappers
  import opened PhpStrings
  import opened JsonValues
  import opened Schema
  import opened Translator
  import Value
  import Identifier

  /** A to-one value: the relation, the path without trailing slashes, and
      the raw fragment. */
  datatype ToOneValue = ToOneValue(relation: Relation, path: string, value: Json)

  /** The constructor: the path loses its trailing slashes (so the root path
      "/" becomes ""), and everything else is kept. */
  function Make(relation: Relation, path: string, value: Json): (v: ToOneValue)
    ensures v.relation == relation && v.value == value
    ensures StartsWith(path, v.path) && forall k :: |v.path| <= k < |path| ==> path[k] == '/'
    ensures v.path == [] || v.path[|v.path| - 1] != '/'
  {
    ToOneValue(relation, TrimTrailingSlashes(path), value)
  }

  /** The `data` member of a to-one object that holds one (a compliant shape). */
  predicate HasLinkage(v: ToOneValue) {
    v.value.JObj? && Has(v.value.members, "data") && !Lookup(v.value.members, "data").value.JList?
  }

  /** `validate`: at most one error, for a non-object, a missing `data`, or a
      list where a single identifier or null belongs. Anything else in `data`
      is left to the identifier. */
  function Validate(v: ToOneValue): (r: seq<Error>)
    ensures |r| <= 1
    ensures r == [] <==> HasLinkage(v)
    ensures forall e :: e in r ==> e.status == 400
    ensures !v.value.JObj? ==> r == [MemberNotObject(Value.Parent(v.path), Value.Member(v.path))]
  {
    match v.value
    case JObj(ms) =>
      if !Has(ms, "data") then [MemberRequired(if Falsy(v.path) then "/" else v.path, "data")]
      else if Lookup(ms, "data").value.JList? then
        [FieldExpectsToOne(Value.Parent(v.path), Value.OrData(Value.Member(v.path)), v.relation.name)]
      else []
    case _ => [MemberNotObject(Value.Parent(v.path), Value.Member(v.path))]
  }

  /** `data()` (as intended): None for `null`, else the identifier at
      `{path}/data` scoped to this relation. Only defined on a valid value. */
  function Data(v: ToOneValue): (r: Option<Identifier.IdentifierValue>)
    requires Validate(v) == []
    ensures r.None? <==> Lookup(v.value.members, "data") == Some(JNull)
    ensures r.Some? ==> r.value.path == v.path + "/data"
    ensures r.Some? ==> Some(r.value.value) == Lookup(v.value.members, "data")
    ensures r.Some? ==> r.value.relation == Some(v.relation)
  {
    var d := Lookup(v.value.members, "data").value;
    if d.JNull? then None else Some(Identifier.IdentifierValue(v.path + "/data", d, Some(v.relation)))
  }

  /** `allErrors` (as intended): the structural errors; when there are none,
      the errors of the identifier in `data`, if there is one. */
  function AllErrors(spec: Specification, v: ToOneValue): (r: seq<Error>)
    ensures Validate(v) != [] ==> r == Validate(v)
    ensures r == [] <==> HasLinkage(v)
                         && (var d := Lookup(v.value.members, "data").value;
                             d.JNull? || Identifier.Acceptable(spec, d, Some(v.relation)))
    ensures |r| <= 3
  {
    var errors := Validate(v);
    if errors != [] then errors
    else match Data(v)
      case None => errors
      case Some(iv) => errors + Identifier.Errors(spec, iv)
  }

  /** `allErrors` as written: `data()` passes `expected()`, an array of type
      names, where the identifier factory requires a relation object, so any
      non-null `data` on a valid value fails with a type error before the
      identifier exists. */
  function AllErrorsAsWritten(spec: Specification, v: ToOneValue): (r: Result<seq<Error>, string>)
    ensures r.Failure? <==> HasLinkage(v) && !Lookup(v.value.members, "data").value.JNull?
    ensures r.Success? ==> r.value == AllErrors(spec, v)
  {
    var errors := Validate(v);
    if errors != [] then Success(errors)
    else if Data(v).None? then Success(errors)
    else Failure(FactoryTypeError)
  }

  /** What `createIdentifierValue` throws when handed an array of type names. */
  const FactoryTypeError := "TypeError: createIdentifierValue() expects ?Relation, array given"

  // ---- where errors point ----

  /** On a well-formed path whose last segment is not falsy, every structural
      error points at the relationship object itself. */
  lemma ErrorsPointAtRelationship(v: ToOneValue)
    requires Value.WellFormedPath(v.path)
    requires !Falsy(Value.Member(v.path))
    ensures forall e :: e in Validate(v) ==> e.pointer == Some(v.path)
  {
    Value.PointerOfParentAndMember(v.path);
    assert !Falsy(v.path) by {
      assert v.path[0] == '/';
    }
  }

  /** In a relationship document the value sits at the root: a non-object or
      a missing `data` points at "/", a list in `data` at "/data". */
  lemma RootErrorsPointAtDocument(relation: Relation, value: Json)
    ensures var es := Validate(Make(relation, "/", value));
            forall e :: e in es ==> e.pointer == Some("/") || e.pointer == Some("/data")
    ensures var es := Validate(Make(relation, "/", value));
            forall e :: e in es && e.key == "field_expects_to_one" ==> e.pointer == Some("/data")
  {
    var v := Make(relation, "/", value);
    assert v.path == "" by {
      assert TrimTrailingSlashes("/") == "";
    }
    assert Value.Parent("") == "/" && Value.Member("") == "" by {
      Value.ParentExamples();
    }
    assert Pointer("/", Some("data")) == "/data" by {
      RootAndEmptyPathAgree();
    }
    var es := Validate(v);
    if !value.JObj? {
      assert es == [MemberNotObject("/", "")];
    } else if !Has(value.members, "data") {
      assert es == [MemberRequired("/", "data")];
    } else if !HasLinkage(v) {
      assert es == [FieldExpectsToOne("/", "data", relation.name)];
    }
  }

  // ---- the as-written defect ----

  /** A relationship endpoint given `{"data": {"type": t, "id": id}}` where
      `t` is a known type but not one of the relation's inverse types (the
      `author` relation of `posts`, inverse type `users`, given a `posts`
      identifier): the intended result is the one relation-type error (a
      422 at `/data`); as written the request ends in a type error. */
  lemma WrongInverseTypeIsAValidationErrorNotACrash(spec: Specification, relation: Relation, t: string, id: string)
    requires t in spec.types && !Falsy(t) && !Identifier.IdIsEmpty(Some(id)) && t !in relation.allInverse
    ensures var v := Make(relation, "/", JObj([("data", JObj([("type", JStr(t)), ("id", JStr(id))]))]));
            && AllErrorsAsWritten(spec, v).Failure?
            && AllErrors(spec, v) == [ResourceTypeNotSupportedByRelationship(relation, "/data")]
  {
    var ident := JObj([("type", JStr(t)), ("id", JStr(id))]);
    var v := Make(relation, "/", JObj([("data", ident)]));
    RootIdentifierIsData(relation, ident);
    WrongTypeIdentifierIsNotSupported(spec, relation, t, id);
    IdentifierDataReportsIdentifierErrors(spec, v);
  }

  /** At the root, `{"data": ident}` with an object identifier is well formed
      and its identifier sits at `/data`. */
  lemma RootIdentifierIsData(relation: Relation, ident: Json)
    requires ident.JObj?
    ensures var v := Make(relation, "/", JObj([("data", ident)]));
            Validate(v) == [] && Data(v) == Some(Identifier.IdentifierValue("/data", ident, Some(relation)))
  {
    var v := Make(relation, "/", JObj([("data", ident)]));
    assert v.path == "" by {
      assert TrimTrailingSlashes("/") == "";
    }
    assert Lookup(v.value.members, "data") == Some(ident);
    assert v.path + "/data" == "/data";
  }

  /** A well-formed identifier of a type outside the relation's inverse
      types reports that mismatch alone, at `/data` for a value at the root. */
  lemma WrongTypeIdentifierIsNotSupported(spec: Specification, relation: Relation, t: string, id: string)
    requires t in spec.types && !Falsy(t) && !Identifier.IdIsEmpty(Some(id)) && t !in relation.allInverse
    ensures Identifier.Errors(spec, Identifier.IdentifierValue("/data", JObj([("type", JStr(t)), ("id", JStr(id))]), Some(relation)))
         == [ResourceTypeNotSupportedByRelationship(relation, "/data")]
  {
    var ms: Members := [("type", JStr(t)), ("id", JStr(id))];
    Identifier.TypeAndIdObjectIsWellFormed(spec, "/data", t, id);
    assert StringMember(ms, "type") == Some(t);
    Identifier.ToOneInRelationDocumentReportsAtData();
    Identifier.InverseMismatchIsTheOnlyError(spec, "/data", JObj(ms), relation);
  }

  /** On a well-formed value with an identifier in `data`, the intended
      errors are exactly the identifier's, while as written the request
      fails. */
  lemma IdentifierDataReportsIdentifierErrors(spec: Specification, v: ToOneValue)
    requires Validate(v) == [] && Data(v).Some?
    ensures AllErrors(spec, v) == Identifier.Errors(spec, Data(v).value)
    ensures AllErrorsAsWritten(spec, v).Failure?
  {
  }
}

=== FILE: translator.dfy ===
/** Error construction. Every failure becomes an immutable error record
    holding its translation key, HTTP status, optional `source.pointer`, and
    the named values substituted into its localised detail. Titles and
    details themselves are localisation data and are not modelled; `Trans`
    models only the rule that decides whether a translated member is kept.

    `source.pointer` is JSON-Pointer-like (RFC 6901) but member names are
    never escaped: `~` and `/` in a name are copied verbatim. */
module Translator {
  import opened Wrappers
  import opened PhpStrings
  import opened Schema

  datatype Error = Error(key: string, status: int, pointer: Option<string>, params: map<string, string>)

  /** The key-to-status table every constructor below must agree with;
      None for a string that is not an error key. */
  function StatusOf(key: string): Option<int> {
    match key
    case "json_empty" => Some(400)
    case "json_error" => Some(400)
    case "json_not_object" => Some(400)
    case "member_required" => Some(400)
    case "member_object_expected" => Some(400)
    case "member_array_expected" => Some(400)
    case "member_identifier_expected" => Some(400)
    case "member_string_expected" => Some(400)
    case "member_empty" => Some(400)
    case "member_field_not_allowed" => Some(400)
    case "member_field_not_supported" => Some(400)
    case "field_expects_to_one" => Some(400)
    case "field_expects_to_many" => Some(400)
    case "resource_type_not_supported" => Some(409)
    case "resource_type_not_supported_by_to_one_relationship" => Some(422)
    case "resource_type_not_supported_by_to_many_relationship" => Some(422)
    case "resource_type_not_recognised" => Some(400)
    case "resource_id_not_supported" => Some(409)
    case "resource_client_ids_not_supported" => Some(403)
    case "resource_exists" => Some(409)
    case "resource_not_found" => Some(404)
    case "resource_field_exists_in_attributes_and_relationships" => Some(400)
    case _ => None
  }

  /** `pointer($path, $member)`: the path itself when there is no member (null
      or ""), else the path without trailing slashes, a slash, and the member.
      "0" is a member like any other. */
  function Pointer(path: string, member: Option<string>): string {
    if member.None? || member.value == "" then path
    else TrimTrailingSlashes(path) + "/" + member.value
  }

  /** The fully qualified translation key `{namespace}::spec.{key}.{member}`. */
  function TransKey(namespace: string, key: string, member: string): string {
    namespace + "::spec." + key + "." + member
  }

  /** `trans`: the translated error member, or None (the member is omitted)
      when the lookup yields a falsy string or echoes the key back because no
      translation exists. */
  function Trans(lookup: string -> string, namespace: string, key: string, member: string): (r: Option<string>)
    ensures r.Some? <==> !Falsy(lookup(TransKey(namespace, key, member)))
                         && lookup(TransKey(namespace, key, member)) != TransKey(namespace, key, member)
    ensures r.Some? ==> r.value == lookup(TransKey(namespace, key, member))
  {
    var fullKey := TransKey(namespace, key, member);
    var value := lookup(fullKey);
    var translated := if Falsy(value) then None else Some(value);
    if translated == Some(fullKey) then None else translated
  }

  // ---- one function per Translator constructor ----

  function JsonEmpty(): Error {
    Error("json_empty", 400, None, map[])
  }

  /** The parser's failure code and message become the error's code and detail. */
  function JsonError(code: nat, message: string): Error {
    Error("json_error", 400, None, map["code" := NatToString(code), "detail" := message])
  }

  function JsonNotObject(): Error {
    Error("json_not_object", 400, None, map[])
  }

  function MemberRequired(path: string, member: string): Error {
    Error("member_required", 400, Some(Pointer(path, None)), map["member" := member])
  }

  function MemberNotObject(path: string, member: string): Error {
    Error("member_object_expected", 400, Some(Pointer(path, Some(member))), map["member" := member])
  }

  function MemberNotArray(path: string, member: string): Error {
    Error("member_array_expected", 400, Some(Pointer(path, Some(member))), map["member" := member])
  }

  function MemberNotIdentifier(path: string, member: string): Error {
    Error("member_identifier_expected", 400, Some(Pointer(path, Some(member))), map["member" := member])
  }

  function MemberFieldNotAllowed(path: string, member: string, field: string): Error {
    Error("member_field_not_allowed", 400, Some(Pointer(path, Some(member))),
          map["member" := member, "field" := field])
  }

  /** The detail names the singular of `member` ("attribute", "relationship");
      the model records the member itself. */
  function MemberFieldNotSupported(path: string, member: string, field: string): Error {
    Error("member_field_not_supported", 400, Some(Pointer(path, Some(member))),
          map["type" := member, "field" := field])
  }

  function FieldExpectsToOne(path: string, member: string, field: string): Error {
    Error("field_expects_to_one", 400, Some(Pointer(path, Some(member))), map["field" := field])
  }

  function FieldExpectsToMany(path: string, member: string, field: string): Error {
    Error("field_expects_to_many", 400, Some(Pointer(path, Some(member))), map["field" := field])
  }

  function MemberNotString(path: string, member: string): Error {
    Error("member_string_expected", 400, Some(Pointer(path, Some(member))), map["member" := member])
  }

  function MemberEmpty(path: string, member: string): Error {
    Error("member_empty", 400, Some(Pointer(path, Some(member))), map["member" := member])
  }

  /** The endpoint's default path is `/data`; callers in the model pass it explicitly. */
  function ResourceTypeNotSupported(resourceType: string, path: string): Error {
    Error("resource_type_not_supported", 409, Some(Pointer(path, Some("type"))), map["type" := resourceType])
  }

  function RelationTypeKey(relation: Relation): string {
    if relation.toOne then "resource_type_not_supported_by_to_one_relationship"
    else "resource_type_not_supported_by_to_many_relationship"
  }

  function ResourceTypeNotSupportedByRelationship(relation: Relation, path: string): Error {
    Error(RelationTypeKey(relation), 422, Some(Pointer(path, None)),
          map["field" := relation.name, "types" := Join(relation.allInverse, ", ")])
  }

  function ResourceTypeNotRecognised(resourceType: string, path: string): Error {
    Error("resource_type_not_recognised", 400, Some(Pointer(path, Some("type"))), map["type" := resourceType])
  }

  function ResourceIdNotSupported(id: string, path: string): Error {
    Error("resource_id_not_supported", 409, Some(Pointer(path, Some("id"))), map["id" := id])
  }

  function ResourceDoesNotSupportClientIds(resourceType: string, path: string): Error {
    Error("resource_client_ids_not_supported", 403, Some(Pointer(path, Some("id"))), map["type" := resourceType])
  }

  /** The only constructor that uses its path verbatim, never through `Pointer`. */
  function ResourceExists(resourceType: string, id: string, path: string): Error {
    Error("resource_exists", 409, Some(path), map["type" := resourceType, "id" := id])
  }

  function ResourceDoesNotExist(path: string): Error {
    Error("resource_not_found", 404, Some(Pointer(path, None)), map[])
  }

  function ResourceFieldExistsInAttributesAndRelationships(field: string, path: string): Error {
    Error("resource_field_exists_in_attributes_and_relationships", 400, Some(Pointer(path, None)),
          map["field" := field])
  }

  // ---- properties ----

  /** Without a member the pointer is the path, untouched. */
  lemma PointerWithoutMember(path: string)
    ensures Pointer(path, None) == path
    ensures Pointer(path, Some("")) == path
  {
  }

  /** With a member, the pointer is the member appended under the path with
      exactly one slash between them, whatever slashes the path ends with. */
  lemma PointerWithMember(path: string, member: string)
    requires member != ""
    ensures StartsWith(Pointer(path, Some(member)), TrimTrailingSlashes(path) + "/")
    ensures Pointer(path, Some(member)) == Pointer(TrimTrailingSlashes(path), Some(member))
  {
    var t := TrimTrailingSlashes(path);
    assert TrimTrailingSlashes(t) == t;
    assert Pointer(path, Some(member))[..|t| + 1] == t + "/";
  }

  /** The root path and the empty path give the same pointer, and "0" is a member. */
  lemma RootAndEmptyPathAgree()
    ensures Pointer("/", Some("data")) == "/data"
    ensures Pointer("", Some("data")) == "/data"
    ensures Pointer("/data", Some("0")) == "/data/0"
  {
    assert TrimTrailingSlashes("/") == "";
    assert TrimTrailingSlashes("/data") == "/data";
  }

  /** Every constructor uses the status the key table assigns to its key. */
  lemma StatusesFollowTable(path: string, member: string, field: string, value: string, code: nat, relation: Relation)
    ensures Some(JsonEmpty().status) == StatusOf(JsonEmpty().key)
    ensures Some(JsonError(code, value).status) == StatusOf(JsonError(code, value).key)
    ensures Some(JsonNotObject().status) == StatusOf(JsonNotObject().key)
    ensures Some(MemberRequired(path, member).status) == StatusOf(MemberRequired(path, member).key)
    ensures Some(MemberNotObject(path, member).status) == StatusOf(MemberNotObject(path, member).key)
    ensures Some(MemberNotArray(path, member).status) == StatusOf(MemberNotArray(path, member).key)
    ensures Some(MemberNotIdentifier(path, member).status) == StatusOf(MemberNotIdentifier(path, member).key)
    ensures Some(MemberFieldNotAllowed(path, member, field).status) == StatusOf(MemberFieldNotAllowed(path, member, field).key)
    ensures Some(MemberFieldNotSupported(path, member, field).status) == StatusOf(MemberFieldNotSupported(path, member, field).key)
    ensures Some(FieldExpectsToOne(path, member, field).status) == StatusOf(FieldExpectsToOne(path, member, field).key)
    ensures Some(FieldExpectsToMany(path, member, field).status) == StatusOf(FieldExpectsToMany(path, member, field).key)
    ensures Some(MemberNotString(path, member).status) == StatusOf(MemberNotString(path, member).key)
    ensures Some(MemberEmpty(path, member).status) == StatusOf(MemberEmpty(path, member).key)
    ensures Some(ResourceTypeNotSupported(value, path).status) == StatusOf(ResourceTypeNotSupported(value, path).key)
    ensures Some(ResourceTypeNotSupportedByRelationship(relation, path).status)
            == StatusOf(ResourceTypeNotSupportedByRelationship(relation, path).key)
    ensures Some(ResourceTypeNotRecognised(value, path).status) == StatusOf(ResourceTypeNotRecognised(value, path).key)
    ensures Some(ResourceIdNotSupported(value, path).status) == StatusOf(ResourceIdNotSupported(value, path).key)
    ensures Some(ResourceDoesNotSupportClientIds(value, path).status)
            == StatusOf(ResourceDoesNotSupportClientIds(value, path).key)
    ensures Some(ResourceExists(value, field, path).status) == StatusOf(ResourceExists(value, field, path).key)
    ensures Some(ResourceDoesNotExist(path).status) == StatusOf(ResourceDoesNotExist(path).key)
    ensures Some(ResourceFieldExistsInAttributesAndRelationships(field, path).status)
            == StatusOf(ResourceFieldExistsInAttributesAndRelationships(field, path).key)
  {
  }

  /** Errors about a whole object (required member, not found, relation-type
      mismatch, duplicate field) point at the path itself; the member name
      appears only among the substituted values. */
  lemma WholeObjectErrorsPointAtPath(path: string, member: string, field: string, relation: Relation)
    ensures MemberRequired(path, member).pointer == Some(path)
    ensures MemberRequired(path, member).params["member"] == member
    ensures ResourceDoesNotExist(path).pointer == Some(path)
    ensures ResourceTypeNotSupportedByRelationship(relation, path).pointer == Some(path)
    ensures ResourceFieldExistsInAttributesAndRelationships(field, path).pointer == Some(path)
  {
  }

  /** Type errors point at `path/type`, id-policy errors at `path/id`, and
      `resourceExists` uses its path verbatim. */
  lemma TypeAndIdErrorsPointBelowPath(path: string, value: string, id: string)
    ensures ResourceTypeNotSupported(value, path).pointer == Some(TrimTrailingSlashes(path) + "/" + "type")
    ensures ResourceTypeNotRecognised(value, path).pointer == Some(TrimTrailingSlashes(path) + "/" + "type")
    ensures ResourceIdNotSupported(value, path).pointer == Some(TrimTrailingSlashes(path) + "/" + "id")
    ensures ResourceDoesNotSupportClientIds(value, path).pointer == Some(TrimTrailingSlashes(path) + "/" + "id")
    ensures ResourceExists(value, id, path).pointer == Some(path)
    ensures ResourceTypeNotSupported(value, "/data").pointer == Some("/data/type")
    ensures ResourceIdNotSupported(value, "/data").pointer == Some("/data/id")
  {
    assert TrimTrailingSlashes("/data") == "/data";
    assert "/data" + "/" + "type" == "/data/type";
    assert "/data" + "/" + "id" == "/data/id";
  }

  /** The relation-type error's key follows the relation's cardinality, and it
      names the field and every accepted type, comma separated. */
  lemma RelationTypeErrorFollowsCardinality(relation: Relation, path: string)
    ensures var e := ResourceTypeNotSupportedByRelationship(relation, path);
      && (relation.toOne ==> e.key == "resource_type_not_supported_by_to_one_relationship")
      && (relation.ToMany() ==> e.key == "resource_type_not_supported_by_to_many_relationship")
      && e.params["field"] == relation.name
      && e.params["types"] == Join(relation.allInverse, ", ")
      && e.status == 422
  {
  }
}

=== FILE: type_validator.dfy ===
/** The second resource-document stage: `data.type` must be the type the
    endpoint expects, or validation stops with one error. */
module TypeValidator {
  import opened Wrappers
  import opened PhpStrings
  import opened JsonValues
  import opened Translator
  import opened Documents

  /** `accept`: the error for a `type` value, checked in order: not a
      string, falsy, not the expected type. */
  function Accept(expected: string, value: Json): (r: Option<Error>)
    ensures r.None? <==> value == JStr(expected) && !Falsy(expected)
    ensures r.Some? ==> r.value.pointer == Some("/data/type")
    ensures r.Some? && value.JStr? && !Falsy(value.s) ==> r.value == ResourceTypeNotSupported(value.s, "/data")
    ensures r.Some? ==> r.value.status == (if value.JStr? && !Falsy(value.s) then 409 else 400)
  {
    assert TrimTrailingSlashes("/data") == "/data";
    assert "/data" + "/" + "type" == "/data/type";
    match value
    case JStr(s) =>
      if Falsy(s) then Some(MemberEmpty("/data", "type"))
      else if expected != s then Some(ResourceTypeNotSupported(s, "/data"))
      else None
    case _ => Some(MemberNotString("/data", "type"))
  }

  /** The one error for `data.type`, or None when it is the expected type. */
  function Check(doc: Document): (r: Option<Error>)
    requires doc.ResourceDocument? && HasObjectData(doc)
    ensures r.None? <==> Lookup(DataMember(doc).members, "type") == Some(JStr(doc.resourceType))
                         && !Falsy(doc.resourceType)
    ensures !Has(DataMember(doc).members, "type") ==> r == Some(MemberRequired("/data", "type"))
    ensures Has(DataMember(doc).members, "type") ==> r == Accept(doc.resourceType, Lookup(DataMember(doc).members, "type").value)
  {
    var ms := DataMember(doc).members;
    if !Has(ms, "type") then Some(MemberRequired("/data", "type"))
    else Accept(doc.resourceType, Lookup(ms, "type").value)
  }

  /** `validate`: hands the document on unchanged exactly when `data` is an
      object of the expected type, else records one error and stops. A
      string `data` has no `type` (`property_exists` looks for a class of
      that name); any other non-object throws. The previous stage lets only
      objects through. */
  function Validate(doc: Document): (r: Outcome)
    requires doc.ResourceDocument?
    ensures r.Raise? <==> !HasObjectData(doc) && !DataMember(doc).JStr?
    ensures r.Next? <==> HasObjectData(doc)
                         && Lookup(DataMember(doc).members, "type") == Some(JStr(doc.resourceType))
                         && !Falsy(doc.resourceType)
    ensures r.Next? ==> r.doc == doc
    ensures r.Stop? && HasObjectData(doc) ==> r.doc == doc.WithErrors([Check(doc).value])
    ensures DataMember(doc).JStr? ==> r == Stop(doc.WithErrors([MemberRequired("/data", "type")]))
  {
    match DataMember(doc)
    case JObj(ms) =>
      (match Check(doc)
        case Some(e) => Stop(doc.WithErrors([e]))
        case None => Next(doc))
    case JStr(_) => Stop(doc.WithErrors([MemberRequired("/data", "type")]))
    case _ => Raise("TypeError: property_exists() needs an object")
  }
}

=== FILE: value.dfy ===
/** The abstract `Value`: a raw JSON fragment at a known path whose
    validation runs at most once and is then served from a cache, plus the
    two path helpers every value uses to name itself in errors. */
module Value {
  import opened Wrappers
  import opened PhpStrings
  import opened Translator

  /** `parent()`: the path of the object holding the value, i.e. the text
      before the last `/`; a falsy result ("" or "0") becomes "/". */
  function Parent(path: string): (r: string)
    ensures !Falsy(r)
    ensures '/' !in path ==> r == if Falsy(path) then "/" else path
    ensures '/' in path && !Falsy(BeforeLast(path, '/')) ==> path == r + "/" + Member(path)
    ensures '/' in path && Falsy(BeforeLast(path, '/')) ==> r == "/"
  {
    var before := BeforeLast(path, '/');
    if Falsy(before) then "/" else before
  }

  /** `member()`: the name the value has in its parent, i.e. the text after
      the last `/` (all of the path when it has no `/`). */
  function Member(path: string): (r: string)
    ensures '/' !in r
    ensures '/' !in path ==> r == path
    ensures '/' in path ==> path == BeforeLast(path, '/') + "/" + r
  {
    var r := AfterLast(path, '/');
    if '/' in path then
      SplitAtLast(path, '/');
      r
    else
      r
  }

  /** `$member ?: 'data'`: a falsy member name ("" or "0") is replaced by
      "data", the name a relationship object gives its linkage. */
  function OrData(member: string): (r: string)
    ensures !Falsy(r)
    ensures !Falsy(member) ==> r == member
    ensures Falsy(member) ==> r == "data"
  {
    if Falsy(member) then "data" else member
  }

  /** The pointer-shaped paths the validators build: rooted at `/`, no empty
      segment in the middle, and a non-empty last segment. */
  predicate WellFormedPath(p: string) {
    && |p| > 0 && p[0] == '/'
    && (forall i :: 0 <= i < |p| - 1 ==> !(p[i] == '/' && p[i + 1] == '/'))
    && Member(p) != ""
  }

  /** Splitting a well-formed path into parent and member and joining them
      again with `pointer` gives the path back: this is why an error built
      from `parent()` and `member()` points at the value itself. */
  lemma PointerOfParentAndMember(p: string)
    requires WellFormedPath(p)
    ensures Pointer(Parent(p), Some(Member(p))) == p
  {
    SplitAtLast(p, '/');
    var before := BeforeLast(p, '/');
    var m := Member(p);
    assert p == before + "/" + m;
    if before == "" {
      assert TrimTrailingSlashes("/") == "";
    } else {
      assert before[0] == '/';
      assert !Falsy(before);
      var i := |before|;
      assert p[i] == '/';
      assert before[i - 1] == p[i - 1];
      assert before[i - 1] != '/';
      assert TrimTrailingSlashes(before) == before;
    }
  }

  /** The examples of the path helpers the validators depend on. */
  lemma ParentExamples()
    ensures Parent("/data") == "/"
    ensures Parent("") == "/"
    ensures Member("") == ""
    ensures Parent("/data/relationships/author") == "/data/relationships"
    ensures Member("/data/relationships/author") == "author"
  {
    SplitAfter("", '/', "data");
    SplitAfter("/data/relationships", '/', "author");
    assert "" + "/" + "data" == "/data";
    assert "/data/relationships" + "/" + "author" == "/data/relationships/author";
    assert LastIndexOf("", '/') == None;
  }

  /** A value at `base + "/" + m` with `m` slash-free has parent `base`
      (unless that is falsy) and member `m`. */
  lemma ChildPath(base: string, m: string)
    requires '/' !in m
    ensures Member(base + "/" + m) == m
    ensures Parent(base + "/" + m) == if Falsy(base) then "/" else base
  {
    SplitAfter(base, '/', m);
    assert base + "/" + m == base + ['/'] + m;
  }

  // ---- memoised validation ----

  /** The cache behind `errors()`, with a count of how often `validate()` ran. */
  datatype Memo = Memo(cache: Option<seq<Error>>, runs: nat)

  /** A value that has not been validated yet. */
  function Fresh(): Memo {
    Memo(None, 0)
  }

  /** `errors()`: the cached list when there is one, else the result of
      running `validate` once and caching it. */
  function Errors(m: Memo, validate: () -> seq<Error>): (r: (seq<Error>, Memo))
    ensures r.1.cache == Some(r.0)
    ensures m.cache.Some? ==> r == (m.cache.value, m)
    ensures m.cache.None? ==> r.0 == validate() && r.1.runs == m.runs + 1
  {
    match m.cache
    case Some(es) => (es, m)
    case None =>
      var es := validate();
      (es, Memo(Some(es), m.runs + 1))
  }

  /** `valid()`: the (memoised) error list is empty. */
  function Valid(m: Memo, validate: () -> seq<Error>): (r: (bool, Memo))
    ensures r.1 == Errors(m, validate).1
    ensures r.0 <==> Errors(m, validate).0 == []
  {
    var (es, m') := Errors(m, validate);
    (es == [], m')
  }

  /** `invalid()`: the negation of `valid()`. */
  function Invalid(m: Memo, validate: () -> seq<Error>): (r: (bool, Memo))
    ensures r.1 == Errors(m, validate).1
    ensures r.0 <==> !Valid(m, validate).0
  {
    var (v, m') := Valid(m, validate);
    (!v, m')
  }

  /** `k` successive calls of `errors()`: their results and the final cache. */
  function Repeat(m: Memo, validate: () -> seq<Error>, k: nat): (r: (seq<seq<Error>>, Memo))
    ensures |r.0| == k
    decreases k
  {
    if k == 0 then ([], m)
    else
      var (es, m') := Errors(m, validate);
      var (rest, m'') := Repeat(m', validate, k - 1);
      ([es] + rest, m'')
  }

  /** However often `errors()` is called on a fresh value, `validate()` runs
      at most once and every call returns that first result. */
  lemma {:induction false} ValidatesAtMostOnce(validate: () -> seq<Error>, k: nat)
    ensures Repeat(Fresh(), validate, k).1.runs == if k == 0 then 0 else 1
    ensures forall i :: 0 <= i < k ==> Repeat(Fresh(), validate, k).0[i] == validate()
  {
    if k > 0 {
      var (es, m') := Errors(Fresh(), validate);
      CachedRepeatIsStable(m', validate, k - 1);
    }
  }

  /** Once the cache is filled, calls neither run `validate` nor change the cache. */
  lemma {:induction false} CachedRepeatIsStable(m: Memo, validate: () -> seq<Error>, k: nat)
    requires m.cache.Some?
    ensures Repeat(m, validate, k).1 == m
    ensures forall i :: 0 <= i < k ==> Repeat(m, validate, k).0[i] == m.cache.value
  {
    if k > 0 {
      CachedRepeatIsStable(m, validate, k - 1);
    }
  }
}

=== FILE: wrappers.dfy ===
/** Option and Result, the failure-carrying datatypes the rest of the model uses
    in place of PHP's nullable values and exceptions. */
module Wrappers {

  /** A value that may be absent (PHP `null`). */
  datatype Option<+T> = None | Some(value: T) {

    /** Returns the value, or `default` when there is none. */
    function GetOr(default: T): T {
      match this
      case Some(v) => v
      case None => default
    }
  }

  /** Either a successful value or the error that stopped the computation. */
  datatype Result<+R, +E> = Success(value: R) | Failure(error: E)
}
